=== FILE: README.md ===
# CodeGuardian validator and backend, modelled in Dafny

This project models the bookkeeping core of CodeGuardian.

- `validate_code.py` is the command-line validator. It loads compliance rules (a rule file or a list of guardian tasks) and picks the files each rule applies to. It sends the applicable rules of each file to an evaluator. It then turns the evaluator's verdicts into findings and a pass/fail summary, and renders them as JSON or as human text.
- `backend/app` is the FastAPI service. It stores task sets, pull requests and agent runs. It checks the bearer token, filters GitHub webhook events, and runs the validator against a pull request's changed files.

The model follows the code's own form:

- The pure Python helpers are Dafny functions over a small JSON datatype (`PyJson.Json`), with lemmas about them.
- Each loop is a method with loop invariants, proved equal to a specification function.
- The database and the process environment are classes whose map fields the methods update (`Storage.Store`, `EnvFile.Environ`).

Calls into code outside the core are parameters:

- the evaluator's verdict on each file;
- `glob.glob` and `is_file()`;
- GitHub's file contents;
- the validator's parsed output;
- clocks and uuids.

Modules:

- `PyText`, `PyPath`, `Glob`, `PyJson` hold the Python built-ins the core relies on: `strip`, `splitlines`, `int()`/`str()`, `lstrip`, `PurePosixPath`, `fnmatch` and truthiness.
- `TaskConfig` covers rule normalisation, rule names, glob matching and task summaries.
- `EnvFile` covers `load_env_file` and `MAX_CODE_CHARS`.
- `Truncation` covers `_truncate_code`.
- `Checks` covers `run_checks`.
- `Report` covers `format_human`, the JSON payload, the output choice and the file de-duplication of `main`.
- `Schemas` covers the request and record shapes.
- `Storage` covers the tables.
- `Api` covers the endpoints.
- `Runner` covers `_run_scan_sync`, `_build_violations` and `_save_runner_result`.

## Model

Helper predicates and functions that model no source line of their own have no row. These are Python built-ins used only inside other members (`PyJson.Truthy`, `PyJson.Get`, `PyJson.GetOr`), readers used to state round trips (`Report.FindingOfDict`, `Report.ReadPayload`), and shape and invariant predicates used in contracts (`Runner.TaskShaped`, `Checks.Attributed`). Each is used by a member that has a row.

The scan rows (`Runner.StartScan` to `Runner.ScanSpec`) describe the scan with the corrected violation and request builders of "## Findings".

| member | source | states |
|---|---|---|
| PyJson.Or | validate_code.py:115 | `a or b` is the first operand when it is truthy, else the second |
| PyJson.PyStr | validate_code.py:134 | `str(value)` of a string is the string itself, and the text of a truthy value is never empty |
| PyText.SpaceRunEnd | validate_code.py:146 | the end of a whitespace run: every character before it is a space, and the next one is not |
| PyText.SpaceRunStart | validate_code.py:146 | the start of a whitespace run that ends at `j`: every character from it to `j` is a space, and the one before it is not |
| PyText.Strip | validate_code.py:146 | `strip()` leaves no space at either end and keeps an unpadded string as it is; it is empty exactly when the string is all whitespace |
| PyText.LStripChars | backend/app/runner.py:82 | `lstrip(chars)` removes a prefix made only of `chars`, and what is left does not start with one of them |
| PyText.FindChar | validate_code.py:151 | the first occurrence of the character, or the length when there is none |
| PyText.FindCharAt | validate_code.py:151 | the index of the first occurrence is what `FindChar` returns |
| PyText.LineEnd | validate_code.py:145 | the first line break, with none before it |
| PyText.LineEndAt | validate_code.py:145 | the first line break is where `LineEnd` finds it |
| PyText.BreakWidth | validate_code.py:145 | a line break is one or two characters (`\r\n`) and stays inside the text |
| PyText.SplitLines | validate_code.py:145 | `splitlines()` yields lines without breaks; text without a break is one line, or none when it is empty |
| PyText.SplitLinesKeepEnds | validate_code.py:145 | `splitlines(True)` yields only non-empty lines |
| PyText.ConcatSplitLinesKeepEnds | validate_code.py:145 | the kept-ends lines put back together give back the text |
| PyText.ConcatCons | validate_code.py:145 | concatenation distributes over a leading line |
| PyText.JoinCons | validate_code.py:409 | `sep.join` of a list of two or more parts is its first part, `sep`, then the join of the rest |
| PyText.SplitLinesOfJoin | validate_code.py:409 | lines joined with `\n` split back into the same lines when none holds a break and the last is not empty |
| PyText.DigitChar | validate_code.py:170 | a digit value becomes the ASCII digit with that value |
| PyText.NatToString | validate_code.py:170 | the decimal text of a natural number is a non-empty run of digits |
| PyText.IntToString | backend/app/schemas.py:92 | `str(i)` is non-empty, holds no `#`, and is an optional `-` followed by digits |
| PyText.ParseIntText | validate_code.py:170 | `int(t)` succeeds only on non-empty text |
| PyText.ParseInt | validate_code.py:170 | `int(s)` succeeds only when the stripped text is non-empty |
| PyText.DigitsValueOfNat | validate_code.py:170 | the digits of a natural number read back as that number |
| PyText.IntToStringUnpadded | validate_code.py:170 | `str(i)` has no surrounding space |
| PyText.ParseIntTextOfIntToString | validate_code.py:170 | `int(str(i)) == i` for unpadded text |
| PyText.ParseIntOfIntToString | validate_code.py:170 | `int(str(i)) == i` |
| PyText.IntToStringInjective | backend/app/schemas.py:92 | different integers have different decimal texts |
| PyText.AsciiLower | validate_code.py:331 | `lower()` keeps the length and lowers each ASCII letter |
| PyText.ReplaceChar | backend/app/storage.py:13 | `replace(a, b)` swaps exactly the occurrences of `a` for `b` |
| PyText.Join | validate_code.py:401 | `sep.join(parts)`; `PyText.JoinCons` and `PyText.SplitLinesOfJoin` state its properties |
| PyText.DigitsValue | validate_code.py:170 | the value of a digit run; `PyText.DigitsValueOfNat` states that it reads back `str()` of a natural number |
| PyText.ParseIntTextHasDigit | validate_code.py:259-265 | text that `int()` accepts holds a decimal digit |
| PyPath.SplitSlash | validate_code.py:443 | `split("/")` yields at least one piece |
| PyPath.SplitSlashPieces | validate_code.py:443 | no piece of a split holds a slash |
| PyPath.JoinSplitSlash | validate_code.py:443 | joining the pieces with `/` gives back the string |
| PyPath.Components | validate_code.py:443 | pathlib keeps at most as many components as there are pieces |
| PyPath.ComponentsKept | validate_code.py:443 | kept components are non-empty, never `.`, and each is one of the pieces |
| PyPath.ComponentsOfClean | validate_code.py:443 | pieces with no empty and no `.` entry are all kept |
| PyPath.NameNoSlash | validate_code.py:331 | a path's name never holds a slash and is never `.` |
| PyPath.RFindChar | validate_code.py:331 | the index of the last occurrence of the character, or the length when there is none |
| PyPath.RFindCharLast | validate_code.py:331 | no occurrence follows the one found, and there is none when the length is returned |
| PyPath.RFindCharAt | validate_code.py:331 | the last occurrence is where `RFindChar` finds it |
| PyPath.Suffix | validate_code.py:331 | the suffix is part of the name |
| PyPath.SuffixShape | validate_code.py:331 | a non-empty suffix is a dot and at least one more character, with no other dot and no slash |
| PyPath.Root | validate_code.py:443 | the root pathlib keeps is empty, `/` or `//` |
| PyPath.PathStrOfPlain | validate_code.py:444 | a relative path with no empty or `.` piece is its own `str(Path(...))` |
| PyPath.Name | validate_code.py:331 | the last path component; `PyPath.NameNoSlash` states that it holds no slash and is never `.` |
| PyPath.PathStr | validate_code.py:443-444 | `str(Path(candidate))`; `PyPath.PathStrOfPlain` and `Report.PathTextsAt` state what it gives |
| Glob.StarMatchesAll | validate_code.py:115 | the glob `*` matches every name, so the default `["*"]` applies everywhere |
| Glob.LiteralMatchesItself | validate_code.py:127 | a pattern without wildcards matches exactly the name equal to it |
| Glob.AnyMatch | validate_code.py:127 | `any(fnmatch(...))` holds exactly when some pattern matches |
| Glob.Match | validate_code.py:127 | `fnmatch` with `*` and `?`; `Glob.StarMatchesAll`, `Glob.LiteralMatchesItself` and `Glob.AnyMatch` state its properties |
| TaskConfig.GuardianRule | validate_code.py:104-120 | a converted guardian task has exactly the eleven keys of the converted dict |
| TaskConfig.GuardianRuleCopies | validate_code.py:107-119 | the rule keeps the whole task as `ai_spec` and copies id, checkType, severity, suggestedFix and description |
| TaskConfig.GuardianRuleNameField | validate_code.py:110 | `name` is the task's title whenever the key is present, even when falsy; otherwise its id or `task`, never falsy |
| TaskConfig.GuardianRuleGlobs | validate_code.py:115 | `file_globs` is `fileTypes`, or `["*"]` when that is falsy, and is never falsy |
| TaskConfig.ConvertGuardianTask | validate_code.py:104-106 | None exactly for a non-dict, else the converted rule |
| TaskConfig.GuardianRules | validate_code.py:94-100 | at most one rule per entry, each a dict with the converted keys |
| TaskConfig.GuardianRulesAppend | validate_code.py:96-99 | converting a concatenation is concatenating the conversions |
| TaskConfig.GuardianRulesCons | validate_code.py:96-99 | a leading dict entry contributes its converted rule, and a leading non-dict entry contributes nothing |
| TaskConfig.GuardianRulesKeepsDicts | validate_code.py:98-99 | a list of dicts loses no entry, since a converted dict is never empty: one rule per task, in order |
| TaskConfig.NormalizeTasksConfig | validate_code.py:89-101 | a dict is copied with `rules` defaulting to `[]`; a list becomes `{"rules": converted}`; anything else raises the unsupported-format error |
| TaskConfig.FirstTruthyText | validate_code.py:131-135 | the name found is never empty |
| TaskConfig.FirstTruthyTextFinds | validate_code.py:131-135 | the search returns the text of the first truthy key, or `task` when all are falsy |
| TaskConfig.RuleName | validate_code.py:130-135 | `_rule_name` never returns an empty name |
| TaskConfig.RuleNameFirstTruthy | validate_code.py:130-135 | `_rule_name` is the text of the first truthy of name, title, id, type and task, else `task` |
| TaskConfig.GuardianRuleName | validate_code.py:110 | a guardian task's display name is its truthy title, else its truthy id, else `task` |
| TaskConfig.GuardianRuleLookups | validate_code.py:108-120 | a converted task has no title, type or task value, and its name is the title-or-id default |
| TaskConfig.GuardianRuleAbsentKeys | validate_code.py:108-120 | a converted task has no `title`, `type` or `task` key |
| TaskConfig.NameOfGuardianShape | validate_code.py:130-135 | `_rule_name` of any rule shaped like a converted guardian task |
| TaskConfig.CharPatterns | validate_code.py:127 | a string of globs is iterated as one pattern per character |
| TaskConfig.AnyGlob | validate_code.py:127 | true only when a string pattern matches; over string patterns, exactly whether one matches |
| TaskConfig.RuleAppliesMatches | validate_code.py:123-127 | a rule without globs applies to every file; with a list of glob strings it applies exactly when one matches |
| TaskConfig.GuardianDefaultGlobAppliesEverywhere | validate_code.py:115 | a guardian task without `fileTypes` applies to every file |
| TaskConfig.TaskBase | validate_code.py:283 | the base is the rule when `ai_spec` is falsy, the `ai_spec` dict when it is one, `dict()` of its entries when it is a list, and a raise for any other truthy value |
| TaskConfig.TaskSummary | validate_code.py:282-289 | the summary carries the rule index as `internalRef` and a truthy `name` |
| TaskConfig.TaskSummaryCopies | validate_code.py:284 | each other summary key is present exactly when truthy in the base, with the base's value |
| TaskConfig.TaskSummaryKeys | validate_code.py:284-288 | the summary keys are the truthy keys of the base plus the four always set |
| TaskConfig.TaskSummaryFallbacks | validate_code.py:287-288 | description and suggestedFix fall back to the rule's description/message and suggestedFix/fix |
| TaskConfig.RuleApplies | validate_code.py:123-127 | `_rule_applies_to_file`; `TaskConfig.RuleAppliesMatches` states when it holds, and `TaskConfig.GuardianDefaultGlobAppliesEverywhere` that a converted task without file types applies to every file |
| TaskConfig.GlobsMatch | validate_code.py:322-324 | `any(fnmatch(rel, pat) for pat in globs)` with its raising cases; `TaskConfig.AnyGlob` and `TaskConfig.RuleAppliesMatches` state when it holds |
| TaskConfig.FirstTruthyAt | validate_code.py:131-134 | where the `_rule_name` loop stops; `TaskConfig.FirstTruthyTextFinds` and `TaskConfig.RuleNameFirstTruthy` state it |
| TaskConfig.EntryOf | validate_code.py:283 | what `dict()` makes of one list element: a two-element list with a string key and a two-character string are pairs, lists of another length and non-iterables are not |
| TaskConfig.DictOfEntries | validate_code.py:283 | `dict(items)` over a list; its properties are the three lemmas below |
| TaskConfig.DictOfEntriesRaises | validate_code.py:283 | `dict()` of a list raises exactly when some element is not a pair |
| TaskConfig.DictOfEntriesKeys | validate_code.py:283 | the keys of `dict()` of a list are exactly the string keys of its pairs |
| TaskConfig.DictOfEntriesLastWins | validate_code.py:283 | a key holds the value of its last pair |
| TaskConfig.TaskBaseOfPairList | validate_code.py:283 | an `ai_spec` of one key/value pair gives a one-key base |
| EnvFile.Unquote | validate_code.py:156-157 | one pair of matching surrounding quotes is removed; any other value is kept |
| EnvFile.ParseStripped | validate_code.py:147-157 | blank, comment and `=`-less lines give no pair; a pair's key is non-empty, without `=` and unpadded |
| EnvFile.ParseEnvLine | validate_code.py:145-157 | the same, for a raw line after `strip()` |
| EnvFile.ParseUnpadded | validate_code.py:146 | a line without surrounding space is parsed as it stands |
| EnvFile.ParseStrippedAt | validate_code.py:151-157 | a line splits at its first `=`, with key and value stripped and the value unquoted |
| EnvFile.ParseStrippedLine | validate_code.py:145-157 | a raw line gives the stripped key and the unquoted stripped value around its first `=` |
| EnvFile.AssignmentPieces | validate_code.py:151 | `k=v` splits at the `=` after `k` |
| EnvFile.ParseAssignment | validate_code.py:151-157 | the line `k=v` reads back as `k` and `v` unquoted |
| EnvFile.ParsePlainAssignment | validate_code.py:151-158 | an unquoted `k=v` reads back as `(k, v)` |
| EnvFile.QuotedValue | validate_code.py:156-157 | a double-quoted value unquotes to its contents |
| EnvFile.ParseQuotedAssignment | validate_code.py:151-158 | `k="v"` reads back as `(k, v)` whatever `v` holds |
| EnvFile.Entries | validate_code.py:145-157 | one parse result per line, in order |
| EnvFile.ApplyEntriesStep | validate_code.py:158 | applying one more line applies its pair with `setdefault` |
| EnvFile.ApplyKeepsExisting | validate_code.py:158 | a variable already set is never overwritten |
| EnvFile.ApplyKeys | validate_code.py:158 | the file adds exactly the keys its lines define |
| EnvFile.ApplyNotYet | validate_code.py:158 | a key no line defines stays unset |
| EnvFile.ApplyFirstWins | validate_code.py:158 | for a key unset beforehand, the first line defining it decides its value |
| EnvFile.Environ.constructor | validate_code.py:158 | the environment starts from the given variables |
| EnvFile.Environ.LoadEnvFile | validate_code.py:138-158 | a path that is not a file, or a read that raises `OSError`, changes nothing; bytes that are not UTF-8 raise out of the call and change nothing; otherwise the lines' pairs are applied in turn, and the call raises exactly when a `setdefault` rejects a NUL character, keeping the pairs of the lines before it |
| EnvFile.Rejected | validate_code.py:158 | `setdefault` raises `ValueError` for a key not yet set whose key or value holds a NUL character; `EnvFile.NulValueOfSetKeyIgnored` states that a key already set never raises |
| EnvFile.LoadEntries | validate_code.py:145-158 | the pairs applied until one raises; `EnvFile.LoadEntriesApplied`, `EnvFile.LoadEntriesNoneRejected` and `EnvFile.LoadEntriesRaisedAt` state its outcome |
| EnvFile.LoadEntriesStep | validate_code.py:145-158 | one more line applies its pair, unless it or an earlier line raised |
| EnvFile.LoadEntriesStays | validate_code.py:158 | once a line raises, no later line is applied |
| EnvFile.LoadEntriesApplied | validate_code.py:145-158 | a file that does not raise applies every pair with `setdefault`, and no pair was rejected |
| EnvFile.LoadEntriesNoneRejected | validate_code.py:145-158 | a file none of whose pairs is rejected does not raise and applies every pair |
| EnvFile.LoadEntriesRaisedAt | validate_code.py:145-158 | the first rejected pair raises, keeping exactly the pairs of the lines before it |
| EnvFile.LoadEntriesNulFree | validate_code.py:145-158 | a file without NUL characters never raises |
| EnvFile.NulValueRaises | validate_code.py:158 | the line `A=x\0y` after `B=1`, both unset, raises with `B` set and `A` unset |
| EnvFile.NulValueOfSetKeyIgnored | validate_code.py:158 | a NUL in the value of a variable already set raises nothing |
| EnvFile.LoadStep | validate_code.py:145-158 | loading one more line applies that line's pair, unless it or an earlier line raised |
| EnvFile.MaxCodeChars | validate_code.py:165-172 | the limit is the variable's integer value when set and parseable, else 8000 |
| EnvFile.MaxCodeCharsOfSetting | validate_code.py:165-170 | setting the variable to any integer's text makes that integer the limit |
| EnvFile.Apply | validate_code.py:158 | `os.environ.setdefault` for one line's pair; `EnvFile.ApplyKeepsExisting` and `EnvFile.ApplyFirstWins` state that an existing key is kept and the first definition wins |
| EnvFile.ApplyEntries | validate_code.py:144-158 | the pairs applied in file order; `EnvFile.ApplyEntriesStep`, `EnvFile.ApplyKeys` and `EnvFile.ApplyNotYet` state its properties |
| EnvFile.IsQuote | validate_code.py:156 | the two quote characters; `EnvFile.Unquote` states when they are removed |
| Truncation.SliceIndex | validate_code.py:195 | Python's slice bound normalisation: negative bounds count from the end, and bounds clamp to the length |
| Truncation.Prefix | validate_code.py:195 | `s[:i]` is the prefix up to the normalised bound |
| Truncation.SuffixFrom | validate_code.py:195 | `s[i:]` is the suffix from the normalised bound |
| Truncation.TruncateCode | validate_code.py:188-196 | the code is cut exactly when it is longer than the limit (`None` meaning `MAX_CODE_CHARS`), and is returned unchanged otherwise |
| Truncation.TruncatePositiveLimit | validate_code.py:193-196 | over a positive limit the snippet is the first `limit // 2` characters, the marker and the last `limit - limit // 2`, so exactly limit + 5 long |
| Truncation.TruncateZeroLimit | validate_code.py:195 | as written, limit 0 keeps the whole code after the marker |
| Truncation.TruncateZeroLimitCounterexample | validate_code.py:195 | `"ab"` at limit 0 gives a 7-character snippet |
| Truncation.TruncateCodeBounded | validate_code.py:188-196 | corrected truncation: cut exactly when longer than the limit, unchanged otherwise |
| Truncation.TruncateBoundedLength | validate_code.py:193-196 | corrected: every cut snippet is exactly the non-negative limit plus 5 long |
| Truncation.TruncateBoundedAgrees | validate_code.py:188-196 | for positive limits the correction is the source's cut |
| Checks.RulesOf | validate_code.py:311 | no `rules` key gives no rules; a list of dicts gives its dicts in order; a list with a non-dict entry raises |
| Checks.Included | validate_code.py:317-326 | a file is included exactly when a truthy include matches and a truthy exclude does not; with neither, every file is included |
| Checks.Scanned | validate_code.py:328-334 | a file is scanned exactly when it is a regular file, its suffix is not blocklisted, and it is included |
| Checks.SummaryOf | validate_code.py:344 | a rule's summary carries its index as `internalRef` |
| Checks.ApplicableUpTo | validate_code.py:340-344 | the applicable indexes are below the number of rules seen |
| Checks.ApplicableSound | validate_code.py:340-344 | applicable indexes are strictly increasing and their summaries can be built |
| Checks.ApplicableApplies | validate_code.py:342-344 | every listed rule applies to the file |
| Checks.ApplicableComplete | validate_code.py:341-344 | every rule that applies to the file is listed |
| Checks.ApplicableDefined | validate_code.py:340-344 | the list is built without raising when every glob test and summary succeeds |
| Checks.ApplicableStaysNone | validate_code.py:341-344 | once building the list raises, it raises for every longer prefix |
| Checks.ApplicableSummaries | validate_code.py:344 | one summary per applicable rule, each with that rule's `internalRef` |
| Checks.ApplicableRules | validate_code.py:340-344 | the loop's list equals the specification, with each rule's summary beside it |
| Checks.AsInt | validate_code.py:259-265 | ints are kept, bools are 1/0, decimal strings are parsed, and anything else gives the default |
| Checks.AsIntOfDecimal | validate_code.py:259-265 | the decimal text of any integer reads back as that integer |
| Checks.AsIntDefaults | validate_code.py:259-265 | None, every list and dict, and every string without a decimal digit give the default |
| Checks.LastResultFor | validate_code.py:355-357 | the result for a rule is None exactly when no dict answers for it, else the last one that does |
| Checks.ViolationFinding | validate_code.py:369-376 | a violation's finding names the rule and file; line defaults to 1 and column to 0; the message chain ends in the default text |
| Checks.ViolationFindings | validate_code.py:369-376 | at most one finding per violation, all naming the rule and the file |
| Checks.ViolationFindingsOfDicts | validate_code.py:369-376 | a list of dict violations gives exactly one finding per violation, in order |
| Checks.ViolationFindingsOfNonDicts | validate_code.py:370-371 | entries that are not dicts give no finding |
| Checks.ExplanationFinding | validate_code.py:378-380 | a failing result without usable violations gives one finding at 1:0 with the explanation, the description or the default message |
| Checks.RuleOutcomeFails | validate_code.py:356-380 | a rule fails exactly when its result is missing or not compliant; its findings name it and the file; a rule with findings fails |
| Checks.RuleOutcomeMissing | validate_code.py:359-362 | a missing result gives one "AI response missing" finding at 1:0, and the rule fails |
| Checks.RuleOutcomeViolations | validate_code.py:366-380 | non-compliant with dict violations gives one finding each; with none, gives the single explanation finding |
| Checks.FailedRuleWithoutFindings | validate_code.py:366-377 | a rule can fail with no finding when its violations are all non-dicts |
| Checks.AttributedJoin | validate_code.py:310-312 | attributed tallies stay attributed when added together |
| Checks.AttributedFindingsFail | validate_code.py:310-312 | a tally with a finding has a failed rule |
| Checks.RuleTallyAttributed | validate_code.py:356-380 | one applicable rule fails at most itself, and its findings name it |
| Checks.AnsweredTallyFailed | validate_code.py:356-380 | over an answered file, only applicable rules fail |
| Checks.AnsweredTallyAttributed | validate_code.py:356-380 | over an answered file, every finding names a failed rule |
| Checks.FailureFinding | validate_code.py:350-353 | the failure finding names the rule and file, sits at 1:0, prefixes the error text, and takes suggestedFix or fix |
| Checks.FailureTallyFailed | validate_code.py:351-352 | when the evaluator raises, exactly the applicable rules fail |
| Checks.FailureTallyFindings | validate_code.py:351-353 | when the evaluator raises, there is one failure finding per applicable rule, in order |
| Checks.FailureTallyAttributed | validate_code.py:351-353 | failure findings name failed rules |
| Checks.FileTallyAttributed | validate_code.py:328-380 | a file fails only rules applying to it, and only when it is scanned; its findings name failed rules |
| Checks.AiFailureFailsEveryApplicableRule | validate_code.py:347-354 | an evaluator failure fails every applicable rule with exactly one finding each, in rule order |
| Checks.CombineRaisedStays | validate_code.py:328-380 | once a file raises, the whole scan raises |
| Checks.CombineParts | validate_code.py:328-380 | a successful scan's failed set is the union of the files' sets, and attribution carries over |
| Checks.ScanAttributed | validate_code.py:328-380 | every finding names a failed rule; a rule fails only when it applies to some scanned file |
| Checks.UnappliedRuleNeverFails | validate_code.py:328-380 | a rule that applies to no scanned file never fails |
| Checks.PassedNames | validate_code.py:383 | at most one name per rule |
| Checks.FailedBelow | validate_code.py:383 | the failed indexes below `n` |
| Checks.PassedNamesCount | validate_code.py:383 | passed names plus failed indexes count every rule once |
| Checks.PassedNamesListsPassing | validate_code.py:383 | every non-failed rule's name is listed |
| Checks.PassedNamesOnlyPassing | validate_code.py:383 | every listed name belongs to a non-failed rule |
| Checks.SummaryCounts | validate_code.py:382-388 | `total_rules` is the rule count, `passed_rules` is the number of names, passed plus failed equals total, and every finding names a failed rule |
| Checks.PassedRuleNames | validate_code.py:383 | the passed names are exactly the names of the rules that did not fail |
| Checks.UnappliedRulePasses | validate_code.py:328-383 | a rule applying to no scanned file is among the passed rules |
| Checks.NoFindingsWhenAllPass | validate_code.py:382-388 | when every rule passed there are no findings |
| Checks.CollectViolations | validate_code.py:369-376 | the violations loop gives one finding per dict entry, in order |
| Checks.EvaluateRule | validate_code.py:356-380 | the loop body for one rule gives its specified findings and failure |
| Checks.EvaluateApplicable | validate_code.py:356-380 | one pass gives the rule's specified tally |
| Checks.EvaluateFile | validate_code.py:328-380 | one file's pass gives its specified tally, or raises as specified |
| Checks.EvaluateFailure | validate_code.py:349-354 | the `except` branch gives the failure tally |
| Checks.EvaluateAnswered | validate_code.py:355-380 | the loop over applicable rules gives the answered tally |
| Checks.ScanFiles | validate_code.py:328-380 | the loop over files gives the scan's tally, or None once a file raises |
| Checks.RunChecks | validate_code.py:309-389 | `run_checks` gives the specified findings and summary |
| Checks.Blocked | validate_code.py:331 | the blocked-suffix test; `Checks.Scanned` states that a blocked file adds nothing |
| Checks.ResultFor | validate_code.py:355-357 | a dict result answering for rule `idx`; `Checks.LastResultFor` states that the last such result is the one used |
| Checks.RefsHashable | validate_code.py:355 | building `results_by_ref` raises on a list or dict `internalRef`; `Checks.FileTally` is `None` then, as `Checks.EvaluateFile` computes |
| Checks.RuleOutcome | validate_code.py:356-380 | one rule's findings and failure; `Checks.RuleOutcomeMissing`, `Checks.RuleOutcomeFails`, `Checks.RuleOutcomeViolations` and `Checks.FailedRuleWithoutFindings` state its cases |
| Checks.RuleTally | validate_code.py:356-380 | one applicable rule's tally; `Checks.RuleTallyAttributed` states that its findings belong to a failed rule |
| Checks.AnsweredTally | validate_code.py:356-380 | the tallies of the applicable rules on an answered file; `Checks.AnsweredTallyFailed` and `Checks.AnsweredTallyAttributed` state them |
| Checks.FailureTally | validate_code.py:349-354 | the tally when the evaluator raised; `Checks.FailureTallyFailed` and `Checks.FailureTallyFindings` state it |
| Checks.FileTally | validate_code.py:328-380 | what one file adds; `Checks.FileTallyAttributed` and `Checks.AiFailureFailsEveryApplicableRule` state it |
| Checks.FileTallies | validate_code.py:328 | the tally of each file, in order; `Checks.ScanUpTo` adds them up |
| Checks.Combine | validate_code.py:328-380 | tallies added up in order; `Checks.CombineParts` and `Checks.CombineRaisedStays` state it |
| Checks.ScanUpTo | validate_code.py:328-380 | the tally of the first `n` files; `Checks.ScanAttributed` and `Checks.UnappliedRuleNeverFails` state it |
| Checks.ChecksSpec | validate_code.py:309-389 | `run_checks`; `Checks.SummaryCounts`, `Checks.PassedRuleNames`, `Checks.UnappliedRulePasses` and `Checks.NoFindingsWhenAllPass` state it |
| Report.Blocks | validate_code.py:405-408 | one block per finding |
| Report.BlockAt | validate_code.py:405-408 | each finding's block is its own |
| Report.HeadLines | validate_code.py:396-402 | the head is the header, the counts, then a blank line; the `Passed Task Names:` line with the names joined by `, ` comes before the blank line exactly when some rule passed |
| Report.GatherStaysNone | validate_code.py:405-408 | once a finding raises, the report raises |
| Report.GatherNone | validate_code.py:405-408 | gathering fails exactly when some block fails |
| Report.GatherSingles | validate_code.py:405-406 | single-line blocks give one line per finding, in order |
| Report.HumanReportRaises | validate_code.py:407-408 | `format_human` raises exactly when some fix is truthy but not a string |
| Report.HumanReportPlain | validate_code.py:392-409 | without fixes, the report is the head lines followed by exactly one line per finding, in order |
| Report.FindingBlockWithFix | validate_code.py:406-408 | a string fix adds the indented `Fix:` block after the finding line |
| Report.HeaderLineUnbroken | validate_code.py:397 | the header line holds no line break |
| Report.NoLineBreakAppend | validate_code.py:397 | text without line breaks stays without them when concatenated |
| Report.JoinHead | validate_code.py:409 | joined lines begin with the first two, and `splitlines` reads the first one back |
| Report.HeaderLinesDiffer | validate_code.py:396-397 | the passing and failing header lines differ |
| Report.HumanReportHead | validate_code.py:392-409 | the report starts with the header and counts lines, and its first line says `ALL_TASKS_MET: True` exactly when there are no findings |
| Report.FormatHuman | validate_code.py:392-409 | the method gives the specified report |
| Report.FindingsBody | validate_code.py:405-408 | the findings loop gives the gathered blocks |
| Report.FindingDictRoundTrip | validate_code.py:36-44 | `as_dict` has the six keys and reads back as the same finding |
| Report.FindingDicts | validate_code.py:470 | one dict per finding |
| Report.FindingsOfDicts | validate_code.py:470 | the payload's findings list reads back as the findings |
| Report.NamesOfStrings | validate_code.py:468 | the passed names list reads back as the names |
| Report.PayloadRoundTrip | validate_code.py:463-471 | reading the JSON payload back gives `ALL_TASKS_MET` exactly when there are no findings, plus the summary and the findings in order |
| Report.WantJsonExtension | validate_code.py:457-459 | for every bare file name, JSON is chosen without `--json` exactly when the part from its last dot lower-cases to `.json`: any letter case counts, and only the last suffix does |
| Report.SuffixOfStem | validate_code.py:458 | a bare name `stem.ext` with a dotless extension has `.ext` as its suffix |
| Report.WantJsonDotName | validate_code.py:457-459 | a name whose only dot is its first character, `.json` included, has no suffix and never selects JSON |
| Report.SuffixOfPlainName | validate_code.py:458 | a bare name's suffix runs from its last dot when that dot is strictly inside the name |
| Report.Render | validate_code.py:457-474 | JSON exactly when wanted, and then the payload; otherwise the human text, which raises exactly when `format_human` does |
| Report.OutFileText | validate_code.py:476-477 | the out-file text ends in a newline, adding one only when missing |
| Report.OutFileTextIdempotent | validate_code.py:477 | adding the final newline twice changes nothing |
| Report.ExpandedMembers | validate_code.py:434-439 | the expansion holds each token's matches, or the token itself when it matched nothing |
| Report.ExpandTokens | validate_code.py:433-439 | the expansion loop gives the specified list |
| Report.PathTexts | validate_code.py:443-444 | one path text per candidate |
| Report.PathTextsAt | validate_code.py:443-444 | each text is `str(Path(candidate))` |
| Report.FirstSeenMembers | validate_code.py:440-446 | a path is listed exactly when some candidate names it and it is a file |
| Report.FirstSeenDistinct | validate_code.py:440-446 | no path is listed twice |
| Report.FirstSeenGrows | validate_code.py:442-446 | later candidates only append |
| Report.DedupFiles | validate_code.py:440-446 | the de-dup loop gives the files, first occurrence first |
| Report.HeaderLine | validate_code.py:396-397 | the first line; `Report.HeaderLineUnbroken` and `Report.HeaderLinesDiffer` state it |
| Report.CountsLine | validate_code.py:398 | the counts line; `Report.HeadLines` places it second |
| Report.FindingLine | validate_code.py:406 | one finding's line; `Report.HumanReportPlain` and `Report.FindingBlockWithFix` place it |
| Report.Indent | validate_code.py:408 | `textwrap.indent`; `Report.FindingBlockWithFix` places it after the finding line |
| Report.FindingBlock | validate_code.py:405-408 | one finding's lines; `Report.FindingBlockWithFix` and `Report.HumanReportRaises` state it |
| Report.Gather | validate_code.py:405-408 | the finding blocks in order; `Report.GatherNone`, `Report.GatherSingles` and `Report.GatherStaysNone` state it |
| Report.HumanLines | validate_code.py:392-409 | every line of the human report; `Report.HumanReportPlain` states it |
| Report.HumanReport | validate_code.py:392-409 | `format_human`; `Report.HumanReportRaises` and `Report.HumanReportHead` state it |
| Report.FindingDict | validate_code.py:36-44 | `Finding.as_dict()`; `Report.FindingDictRoundTrip` states that it reads back |
| Report.Payload | validate_code.py:463-471 | the JSON report; `Report.PayloadRoundTrip` states that it reads back |
| Report.WantJson | validate_code.py:457-459 | the output choice; `Report.WantJsonExtension` and `Report.WantJsonDotName` state it |
| Report.Expanded | validate_code.py:433-439 | the expanded token list; `Report.ExpandedMembers` states it |
| Report.FirstSeen | validate_code.py:440-446 | the `seen` list; `Report.FirstSeenMembers`, `Report.FirstSeenDistinct` and `Report.FirstSeenGrows` state it |
| Schemas.NewSourceFile | backend/app/schemas.py:8-11 | validation fails exactly when the size is negative, and keeps the fields otherwise |
| Schemas.TaskPayloadFields | backend/app/schemas.py:28-29 | the payload has the ten camel-case keys and the task's id, title and severity |
| Schemas.NewPullRequestIngest | backend/app/schemas.py:73-89 | the required fields are kept, and the defaults are status `pending`, no violations, no id, no head commit and an empty `changed_files` |
| Schemas.DefaultPrId | backend/app/schemas.py:92 | the default id starts with the repository |
| Schemas.PrToRecord | backend/app/schemas.py:91-108 | the given id is used unless it is missing or empty, else `{repository}#PR-{number}` |
| Schemas.PrToRecordCopies | backend/app/schemas.py:93-108 | every other field is copied, and the record has not run yet |
| Schemas.DefaultPrIdInjective | backend/app/schemas.py:92 | two default ids are equal only for the same repository and number |
| Schemas.LastHash | backend/app/schemas.py:92 | the last `#` of a default id is the one after the repository |
| Schemas.LastOf | backend/app/schemas.py:92 | the last occurrence of a separator that appears nowhere after it |
| Schemas.NewAgentRunIngest | backend/app/schemas.py:143-152 | the defaults: no run id and no times, 0 tasks, source `github_action`, no notes, no violations |
| Schemas.RunToRecord | backend/app/schemas.py:154-166 | a missing or empty run id becomes `run-<uuid>`, and a missing start becomes now |
| Schemas.RunToRecordCopies | backend/app/schemas.py:154-166 | every other field is copied |
| Schemas.RunToRecordIds | backend/app/schemas.py:156 | runs given no id get equal ids exactly when their uuids are equal |
| Schemas.TaskPayload | backend/app/schemas.py:28-29 | `task.as_payload()`; `Schemas.TaskPayloadFields` and `Runner.TaskPayloadShaped` state it |
| Storage.TaskSetId | backend/app/storage.py:13 | the id is `taskset-` and the ISO time, with no `:` left |
| Storage.MetadataOf | backend/app/storage.py:20 | the metadata copies the row's fields, with path `taskset://` plus the id |
| Storage.TaskPayloads | backend/app/storage.py:14-17 | one payload per task, in order |
| Storage.StoredRecordReadsBack | backend/app/storage.py:54-111 | a stored pull request reads back unchanged except that its head commit is lost |
| Storage.LoadedRowStoresBack | backend/app/storage.py:54-111 | storing a loaded row changes nothing |
| Storage.StoredRunReadsBack | backend/app/storage.py:129-175 | a stored run reads back unchanged |
| Storage.MapRunStatus | backend/app/storage.py:178-185 | the pull-request status is one of ready, violations, critical or pending |
| Storage.MapRunStatusInverse | backend/app/storage.py:178-185 | ready comes exactly from passed, violations from warnings, critical from critical or error, pending from anything else |
| Storage.ApplyRun | backend/app/storage.py:146-150 | the pull request takes the run's mapped status and violation count, and its end time (or start) as the last run |
| Storage.ApplyRunKeeps | backend/app/storage.py:146-150 | every other field is unchanged |
| Storage.ApplyRunIdempotent | backend/app/storage.py:146-150 | applying the same run twice is applying it once |
| Storage.GreatestExists | backend/app/storage.py:23-30 | a non-empty table has a latest entry |
| Storage.GreatestOfNewest | backend/app/storage.py:23-30 | an entry newer than all others is the only latest one |
| Storage.CreatedTimes | backend/app/storage.py:25 | one creation time per stored task set |
| Storage.StartTimes | backend/app/storage.py:157-160 | the start times of exactly the given pull request's runs |
| Storage.LatestAfterSave | backend/app/storage.py:11-30 | a task set saved after all others is the one the latest-task query returns |
| Storage.Store.constructor | backend/app/storage.py:11-185 | the database starts empty |
| Storage.Store.SaveTaskSet | backend/app/storage.py:11-20 | adds the row under `taskset-<time>` with the payloads and count and returns its metadata; a clashing id fails and changes nothing |
| Storage.Store.LoadLatestTasksPayload | backend/app/storage.py:23-30 | None exactly when the table is empty, else a latest set's metadata and tasks |
| Storage.Store.LoadPullRequestRecord | backend/app/storage.py:54-74 | a record exactly when the id is stored; in a store keyed by primary key, it carries that id and no head commit |
| Storage.Store.UpsertPullRequest | backend/app/storage.py:77-126 | the row under the id becomes the record's row, whether inserted or updated, and the record's summary is returned |
| Storage.Store.SaveAgentRun | backend/app/storage.py:129-151 | the run is stored under its id; a stored pull request takes the run's effect; an unknown one is left alone |
| Storage.Store.LoadAgentRun | backend/app/storage.py:154-175 | None exactly when the pull request has no run, else one of its latest runs |
| Storage.RowOf | backend/app/storage.py:81-96 | the stored row of a record; `Storage.StoredRecordReadsBack` and `Storage.LoadedRowStoresBack` state the round trip |
| Storage.RecordOfRow | backend/app/storage.py:59-74 | the record read from a row; `Storage.StoredRecordReadsBack` and `Storage.LoadedRowStoresBack` state the round trip |
| Storage.SummaryOfRow | backend/app/storage.py:114-126 | the summary of a row; `Storage.StoredRecordReadsBack` states it |
| Storage.SummaryOfRecord | backend/app/storage.py:114-126 | the summary of a record; `Storage.Store.UpsertPullRequest` returns it |
| Storage.RunRowOf | backend/app/storage.py:131-144 | the stored row of a run; `Storage.StoredRunReadsBack` states the round trip |
| Storage.RunRecordOfRow | backend/app/storage.py:165-175 | the run read from a row; `Storage.StoredRunReadsBack` states the round trip |
| Storage.IsGreatest | backend/app/storage.py:25 | the newest row; `Storage.GreatestExists`, `Storage.GreatestOfNewest` and `Storage.LatestAfterSave` state it |
| Storage.Store.Valid | backend/app/storage.py:56 | every table is keyed by its primary key; every writing method keeps it, and `Storage.Store.LoadPullRequestRecord` relies on it |
| Api.AfterFirstSpace | backend/app/main.py:39 | `split(" ", 1)[1]` is a proper suffix of the header |
| Api.RequireToken | backend/app/main.py:34-41 | every refusal is a 401 |
| Api.BearerRest | backend/app/main.py:37-39 | after `Bearer `, the token is the rest of the header |
| Api.RequireTokenAccepts | backend/app/main.py:34-41 | a request passes exactly when no token is configured or the header is `Bearer <token>`; a missing or non-bearer header is refused as missing |
| Api.IngestTasks | backend/app/main.py:53-58 | a bad token is refused and an empty list gets 400, both before anything is stored; otherwise the set is saved and its metadata returned |
| Api.GetCurrentTasks | backend/app/main.py:61-69 | 404 exactly when no task set is stored, else a latest one |
| Api.IngestPullRequest | backend/app/main.py:78-82 | a bad token is refused; otherwise the record is upserted and its summary returned |
| Api.GetPullRequest | backend/app/main.py:85-90 | 404 exactly when the pull request is not stored; otherwise the record carries the requested id and no head commit |
| Api.IngestAgentRun | backend/app/main.py:93-97 | a bad token is refused; otherwise the run is stored and applied to its pull request, and the record returned |
| Api.GetAgentResults | backend/app/main.py:100-105 | 404 exactly when the pull request has no run, else one of its runs |
| Api.IngestOfEventDefaults | backend/app/main.py:127-138 | missing event fields become empty strings and zeros |
| Api.WebhookIgnoresOtherEvents | backend/app/main.py:115-116 | events other than `pull_request` are ignored |
| Api.WebhookActions | backend/app/main.py:119-121 | only opened, reopened and synchronize store anything; other actions are ignored by name |
| Api.WebhookUpsertShape | backend/app/main.py:123-139 | what is stored is a pending record with the default id, no violations, no head commit and the listed files |
| Api.WebhookOpened | backend/app/main.py:106-139 | an opened event is stored with GitHub's repository, number, title, author, branches and counts |
| Api.IngestOfGithubEvent | backend/app/main.py:127-138 | GitHub's pull request part gives the request with its values |
| Api.IngestOfEventFields | backend/app/main.py:127-138 | a well-typed pull request dict gives the request holding its fields |
| Api.WebhookNeedsNumber | backend/app/main.py:127-138 | a payload without a pull request number fails validation |
| Api.GithubWebhook | backend/app/main.py:106-140 | a bad signature is refused; an ignored or failing event stores nothing; an accepted event upserts exactly its pull request |
| Api.IsBearer | backend/app/main.py:37 | the `Bearer ` prefix test; `Api.RequireTokenAccepts` states it |
| Api.SubDict | backend/app/main.py:131-133 | `pr.get(key, {})` read as a dict; `Api.IngestOfEventFields` states it |
| Api.DictOrEmpty | backend/app/main.py:123-124 | `payload.get(key) or {}`; `Api.WebhookNeedsNumber` states the missing pull request case |
| Api.WebhookStepOf | backend/app/main.py:115-139 | the webhook's decision; `Api.WebhookIgnoresOtherEvents`, `Api.WebhookActions`, `Api.WebhookUpsertShape` and `Api.WebhookOpened` state it |
| Api.IngestOfEvent | backend/app/main.py:127-138 | the ingest request built from the event; `Api.IngestOfEventDefaults`, `Api.IngestOfGithubEvent` and `Api.IngestOfEventFields` state it |
| Runner.IndexLast | backend/app/runner.py:114-115 | a task is filed under its key when no later task has that key |
| Runner.IndexKeys | backend/app/runner.py:114-115 | the index holds exactly the tasks' keys, and each value is one of the tasks |
| Runner.Lookup | backend/app/runner.py:118-119 | a lookup gives None or a dict |
| Runner.PyInt | backend/app/runner.py:131 | `int()` keeps ints and rejects None, lists and dicts |
| Runner.PyIntAgreesWithAsInt | backend/app/runner.py:131 | where `int()` succeeds it agrees with the validator's `_as_int` |
| Runner.ViolationOfUnknownTask | backend/app/runner.py:118-128 | an unknown task gets severity `warning` and its own name, or `task`, as id |
| Runner.ViolationOfTitledTask | backend/app/runner.py:118-128 | a task found by title gives its severity and id |
| Runner.ViolationOfFields | backend/app/runner.py:124-133 | the file maps back through the path map; line defaults to 1; the message defaults; the fix is kept when it is a string |
| Runner.TaskPayloadShaped | backend/app/schemas.py:28-29 | every uploaded task is well-shaped for the lookups |
| Runner.LookupShaped | backend/app/runner.py:114-120 | over well-shaped tasks a finding looks up to nothing or a well-shaped task |
| Runner.ViolationOfFinding | backend/app/runner.py:116-133 | a validator finding always gives a violation at its line, with its message and its original path |
| Runner.ViolationsOfEach | backend/app/runner.py:116-134 | the list succeeds exactly when every finding does, and then holds one violation per finding, in order |
| Runner.ViolationsOfErrStays | backend/app/runner.py:116-134 | once a finding fails, the whole list fails with that error |
| Runner.BuildViolations | backend/app/runner.py:111-134 | `_build_violations` gives the specified list |
| Runner.ViolationList | backend/app/runner.py:116-134 | the loop gives one violation per finding, or the first error |
| Runner.BuildViolationsOfFindings | backend/app/runner.py:111-134 | the validator's findings over stored tasks give one violation each, in order, with the finding's line, message and original path |
| Runner.RunStatus | backend/app/runner.py:138 | passed exactly when it passed; critical exactly when it failed with a critical violation; warnings otherwise |
| Runner.RunNotesDistinct | backend/app/runner.py:141 | failed runs' notes tell counts apart and never read as a pass |
| Runner.RunnerRequest | backend/app/runner.py:137-151 | as corrected in "## Findings": no run id; the scan's start, or else the first clock reading; completed at the second reading; the task count; source `backend_runner`; the status and notes |
| Runner.RunnerRequestOrdered | backend/app/runner.py:139-140 | with a clock that does not run backwards, the run never completes before it starts |
| Runner.RunnerResultOnPullRequest | backend/app/runner.py:137-151 | stored, a runner result puts its pull request in ready, critical or violations exactly as it passed or failed, with its count and time |
| Runner.SafeRel | backend/app/runner.py:82 | the staged relative path has no leading separator |
| Runner.SafeRelIdempotent | backend/app/runner.py:82 | stripping twice is stripping once, and a clean path is kept |
| Runner.DestIgnoresLeadingSeparators | backend/app/runner.py:82-83 | paths differing only in leading separators are staged at one place |
| Runner.SafeRelPrefix | backend/app/runner.py:82 | all leading separators are stripped |
| Runner.LStripDrop | backend/app/runner.py:82 | `lstrip` passes over any run of stripped characters |
| Runner.Fetched | backend/app/runner.py:64-70 | at most one fetched file per path |
| Runner.FetchedMembers | backend/app/runner.py:64-70 | a path and content are fetched exactly when the fetch returned that content |
| Runner.CollectFiles | backend/app/runner.py:64-70 | the fetch loop gives the fetched files in order |
| Runner.Dests | backend/app/runner.py:81-86 | one staged location per file |
| Runner.DestsAt | backend/app/runner.py:81-86 | each file's staged location, in order |
| Runner.PathMapBack | backend/app/runner.py:87 | each staged location maps back to the last file staged there |
| Runner.PathMapKeys | backend/app/runner.py:87 | only staged locations are keys |
| Runner.StageFiles | backend/app/runner.py:81-87 | the staging loop gives the locations and the path map |
| Runner.ScanRefOfStored | backend/app/runner.py:63 | a stored record has no head commit, so files are fetched at the head branch |
| Runner.StartScan | backend/app/runner.py:45-66 | files are fetched only when there are changed files and tasks; with the corrected request builder otherwise |
| Runner.NoChangedFilesPasses | backend/app/runner.py:57-61 | with the corrected request builder, no changed files with tasks is recorded as passed, with no violations, every task counted, and the two clock readings as start and end; as written the count and times are dropped (`Runner.RunnerRequestAsWrittenDrops`) |
| Runner.FinishScanOfValidatorReport | backend/app/runner.py:105-108 | with the corrected violation builder, a validator JSON report always yields a run: passed exactly when there are no findings, one violation per finding; as written any finding raises (`Runner.RunnerViolationAsWrittenRaises`) |
| Runner.ScanWithoutContentSkips | backend/app/runner.py:71-73 | when no file can be fetched nothing is stored |
| Runner.RunScan | backend/app/runner.py:44-108 | the scan method gives the outcome `Runner.ScanSpec` specifies, with the corrected builders |
| Runner.ViolationByKeywords | backend/app/schemas.py:120-126 | pydantic accepts only aliased keywords: every required field must be given |
| Runner.RunnerViolationAsWrittenRaises | backend/app/runner.py:124-133 | as written, every violation fails with `taskId: Field required` |
| Runner.ViolationByAliasAgrees | backend/app/schemas.py:120-126 | passed by alias, the arguments give the violation the model builds |
| Runner.RunRequestByKeywords | backend/app/schemas.py:143-152 | the request validates exactly when pullRequestId and status are given |
| Runner.RunnerRequestAsWrittenDrops | backend/app/runner.py:142-151 | as written, the start, end and task count are dropped |
| Runner.TitleKey | backend/app/runner.py:114 | the `title_map` key; `Runner.LookupShaped` states the lookup |
| Runner.IdKey | backend/app/runner.py:115 | the `id_map` key; `Runner.LookupShaped` states the lookup |
| Runner.Index | backend/app/runner.py:114-115 | a dict comprehension over the tasks; `Runner.IndexLast` and `Runner.IndexKeys` state that later tasks win and which keys it has |
| Runner.ViolationOf | backend/app/runner.py:117-133 | one finding's violation; `Runner.ViolationOfUnknownTask`, `Runner.ViolationOfTitledTask`, `Runner.ViolationOfFields` and `Runner.ViolationOfFinding` state it |
| Runner.ViolationsOf | backend/app/runner.py:116-134 | the violations in finding order; `Runner.ViolationsOfEach` and `Runner.ViolationsOfErrStays` state it |
| Runner.BuildViolationsSpec | backend/app/runner.py:111-134 | `_build_violations`; `Runner.BuildViolations` computes it and `Runner.BuildViolationsOfFindings` states it |
| Runner.AnyCritical | backend/app/runner.py:138 | whether a violation is critical; `Runner.RunStatus` uses it |
| Runner.RunNotes | backend/app/runner.py:141 | the run notes; `Runner.RunNotesDistinct` states it |
| Runner.Dest | backend/app/runner.py:82-83 | a staged location; `Runner.DestIgnoresLeadingSeparators` states it |
| Runner.PathMapOf | backend/app/runner.py:80-87 | the `path_map`; `Runner.PathMapBack` and `Runner.PathMapKeys` state it |
| Runner.ScanRef | backend/app/runner.py:63 | the fetch ref; `Runner.ScanRefOfStored` states it |
| Runner.FinishScan | backend/app/runner.py:105-108 | the end of the scan, with the corrected builders; `Runner.FinishScanOfValidatorReport` states it |
| Runner.ScanSpec | backend/app/runner.py:44-108 | `_run_scan_sync` with the corrected builders; `Runner.RunScan` computes it and `Runner.ScanWithoutContentSkips` states a case |
| Runner.RunnerViolationKeywords | backend/app/runner.py:124-133 | the keywords as written; `Runner.RunnerViolationAsWrittenRaises` states that they fail validation |

## Left out

- The OpenAI call, prompt building and response parsing (`_build_ai_messages`, `_call_openai_chat`, `evaluate_tasks_with_ai`): the evaluator's answer for each file is a parameter (`Checks.Verdict`). An answer whose `tasks` is not a list is one of its failures.
- `read_text`, `load_tasks` (YAML/JSON decoding), `list_changed_files_git` and the `--git-diff` branch, and argument parsing. Timings from `perf_counter` are also left out.
- `glob.glob`, `is_file()` and `resolve().relative_to(...)` are not modelled. Their results are inputs: matched lists, a set of file paths, and each file's relative path.
- `fnmatch` character classes `[...]` and OS case normalisation are not modelled. `Glob.Match` handles `*` and `?` only.
- `lower()` is modelled on ASCII letters only.
- `str()` of a list or dict is not modelled. `PyJson.PyStr` renders it as a fixed placeholder.
- `json.dumps` text is not modelled. The JSON report is modelled as a value (`Report.Payload`) and its reading back.
- `int()` accepting `_` between digits and non-ASCII digits is not modelled. `PyText.ParseInt` accepts only ASCII digits with an optional sign.
- `OPENAI_API_URL` and `OPENAI_MODEL` in `refresh_openai_settings` are not modelled. Only `MAX_CODE_CHARS` feeds the modelled core.
- Dict insertion order is not modelled: dicts are maps.
- Python `bool`/`int` key equality (`True == 1`) is modelled only for the evaluator's `internalRef` (`Checks.ResultFor`). The runner's title and id indexes compare keys as JSON values.
- `enqueue_scan` and `_run_scan_task` are not modelled: the asyncio scheduling and the `_running` guard are concurrency.
- `security.py` (HMAC signature check): its outcome is a parameter of `Api.GithubWebhook`.
- `github_client.py` is not modelled: file listing and file content fetching are parameters. The file list `Api.GithubWebhook` receives is any list. The client's empty list for an empty repository name, and a fetch that raises, are not modelled.
- `config.py`, `database.py` and `models.py` are not part of this model. The tables are maps keyed by primary key, and foreign keys are not enforced, as SQLite leaves them by default.
- `load_pull_requests`, `list_pull_requests` and `healthcheck` are not modelled: they list rows or return constants, and nothing else depends on them.
- The validator subprocess, its temporary files and the writes of staged files are not modelled. The parsed output is an `Option<Json>` parameter of `Runner.RunScan`, and staging is modelled as the locations and the path map it produces.
- `save_scan_result` (backend/app/runner.py:152) is looked up on the `storage` module of backend/app/storage.py, which has no such attribute, so that call raises `AttributeError`. `Runner.RunScan` stops at the run request it would store.
- Clocks, `uuid4()` and `isoformat()` are parameters (`now`, `uuid`, `nowIso`). Instants are integers.
- Floating-point fields are not modelled.
- Uncaught exceptions are modelled as `Err`/`Raised`/`None` results. FastAPI turning them into a 500 response is not modelled.
- Pydantic coercion is not modelled: integer fields accept only JSON integers.
- Storage.Store.LoadLatestTasksPayload: when several task sets share the latest creation time, it returns any one of them. The database's choice among ties is not modelled.
- Storage.Store.LoadAgentRun: when several runs share the latest start time, it returns any one of them, for the same reason.
- Api.GetAgentResults: states only the pull-request id of the returned run and the 404 case. The choice among runs is `Storage.Store.LoadAgentRun`'s.
- TaskConfig.EntryOf: a two-key dict inside a list `ai_spec`, which `dict()` reads as the pair of its two keys in insertion order, is treated as not a pair. Dicts are maps here and have no key order. Pairs whose key is not a string are read but left out of the map, since only string keys are looked up.
- Runner.StartScan, Runner.FinishScan, Runner.ScanSpec and Runner.RunScan use the corrected builders of "## Findings" (`Runner.BuildViolations`, `Runner.RunnerRequest`). As written, any finding makes `_build_violations` raise, and the request drops the task count, start and end. `Runner.RunnerViolationAsWrittenRaises` and `Runner.RunnerRequestAsWrittenDrops` state that behaviour; the scan functions do not follow it.
- Report.DedupFiles: computes every candidate's path text before the loop rather than inside it. This is the same, since the text depends on the candidate alone.

## Findings

| source | as written | input that shows it | evidently intended | confidence | as-written member | corrected member |
|---|---|---|---|---|---|---|
| validate_code.py:188-196 | with limit 0, `tail` is 0 and `code[-0:]` is the whole code, so the snippet is the marker followed by the entire code | `_truncate_code("ab", 0)` gives a 7-character snippet instead of the 5-character marker | the tail is counted from the end without the `-0` wrap, so a cut snippet is always the limit plus the 5-character marker | not executed | Truncation.TruncateZeroLimitCounterexample | Truncation.TruncateCodeBounded |
| backend/app/runner.py:124-133 | `AgentViolation(task_id=..., suggested_fix=...)` on a model whose fields have aliases and no `populate_by_name`, so `taskId` is missing and validation fails | any finding in the validator's report | the violation is built with the aliased names, so every finding becomes a violation | not executed | Runner.RunnerViolationAsWrittenRaises | Runner.BuildViolations |
| backend/app/runner.py:142-151 | `AgentRunIngestRequest(started_at=..., completed_at=..., task_count=...)` on a model without `populate_by_name`, so those keywords are ignored | a pull request without changed files and 3 tasks gives a request with `taskCount` 0 and no start or end time | the start, end and task count reach the stored run | not executed | Runner.RunnerRequestAsWrittenDrops | Runner.RunnerRequest |

=== FILE: Api.dfy ===
/**
 * The backend's HTTP handlers (`backend/app/main.py`) as operations on a
 * `Storage.Store`: the bearer-token guard, the empty-upload and not-found
 * rules, and the GitHub webhook's event and action filter. The configured
 * token, the headers, the parsed body, the signature check's outcome, the
 * clock and the GitHub file listing are arguments. An exception the
 * handler does not catch is an error with status 500.
 */
module Api {
  import opened Wrappers
  import opened PyText
  import opened PyJson
  import opened Schemas
  import Storage

  /** An error response: status code and detail. */
  datatype HttpError = HttpError(status: int, detail: string)

  /** `authorization.split(" ", 1)[1]`: everything after the first space. */
  function AfterFirstSpace(s: string): (t: string)
    requires ' ' in s
    ensures |t| < |s| && t == s[|s| - |t|..]
  {
    s[FindChar(s, ' ') + 1..]
  }

  /** Whether `s` starts with `Bearer `. */
  predicate IsBearer(s: string)
  {
    |s| >= 7 && s[..7] == "Bearer "
  }

  /**
   * `require_token`: with no token configured every request passes;
   * otherwise the header must start with `Bearer ` and the text after the
   * first space must be the token. None when the request passes.
   */
  function RequireToken(apiToken: Option<string>, authorization: Option<string>): (r: Option<HttpError>)
    ensures r.Some? ==> r.value.status == 401
  {
    if apiToken.None? || apiToken.value == [] then None
    else if authorization.None? || authorization.value == [] || !IsBearer(authorization.value) then
      Some(HttpError(401, "Missing bearer token"))
    else
      assert authorization.value[6] == ' ';
      if AfterFirstSpace(authorization.value) != apiToken.value then Some(HttpError(401, "Invalid token"))
      else None
  }

  /** The token after a `Bearer ` prefix is the rest of the header. */
  lemma BearerRest(s: string)
    requires IsBearer(s)
    ensures ' ' in s && AfterFirstSpace(s) == s[7..] && s == "Bearer " + s[7..]
  {
    assert s[6] == ' ';
    FindCharAt(s, ' ', 6);
  }

  /**
   * A request passes exactly when no token is configured or its header is
   * `Bearer ` followed by the token; a missing or non-bearer header is
   * refused as missing, any other header as invalid.
   */
  lemma RequireTokenAccepts(apiToken: Option<string>, authorization: Option<string>)
    ensures RequireToken(apiToken, authorization).None? <==>
              apiToken.None? || apiToken.value == [] || authorization == Some("Bearer " + apiToken.value)
    ensures apiToken.Some? && apiToken.value != [] && (authorization.None? || !IsBearer(authorization.value)) ==>
              RequireToken(apiToken, authorization) == Some(HttpError(401, "Missing bearer token"))
  {
    if apiToken.Some? && apiToken.value != [] {
      if authorization.Some? && IsBearer(authorization.value) {
        BearerRest(authorization.value);
      }
      if authorization == Some("Bearer " + apiToken.value) {
        assert IsBearer(authorization.value);
        BearerRest(authorization.value);
      }
    }
  }

  /**
   * `POST /tasks`: refused without a valid token, then with 400 when the
   * list is empty, in both cases before anything is stored; otherwise the
   * task set is saved and its metadata returned.
   */
  method IngestTasks(store: Storage.Store, apiToken: Option<string>, authorization: Option<string>,
                     tasks: seq<Task>, now: Instant, nowIso: string) returns (r: Result<TaskMetadata, HttpError>)
    requires store.Valid()
    modifies store
    ensures store.Valid()
    ensures RequireToken(apiToken, authorization).Some? ==>
              r == Err(RequireToken(apiToken, authorization).value) && store.taskSets == old(store.taskSets)
    ensures RequireToken(apiToken, authorization).None? && tasks == [] ==>
              r == Err(HttpError(400, "At least one task is required")) && store.taskSets == old(store.taskSets)
    ensures RequireToken(apiToken, authorization).None? && tasks != [] ==>
              var id := Storage.TaskSetId(nowIso);
              if id in old(store.taskSets) then r.Err? && r.error.status == 500 && store.taskSets == old(store.taskSets)
              else r == Ok(TaskMetadata(id, now, |tasks|, "taskset://" + id))
                   && store.taskSets == old(store.taskSets)[id := Storage.TaskSetRow(id, now, |tasks|, Storage.TaskPayloads(tasks))]
    ensures store.pullRequests == old(store.pullRequests) && store.agentRuns == old(store.agentRuns)
  {
    var denied := RequireToken(apiToken, authorization);
    if denied.Some? {
      return Err(denied.value);
    }
    if tasks == [] {
      return Err(HttpError(400, "At least one task is required"));
    }
    var saved := store.SaveTaskSet(tasks, now, nowIso);
    if saved.Err? {
      return Err(HttpError(500, saved.error));
    }
    return Ok(saved.value);
  }

  /** `GET /tasks/current`: 404 exactly when no task set is stored, else the latest one. */
  method GetCurrentTasks(store: Storage.Store) returns (r: Result<(TaskMetadata, seq<map<string, Json>>), HttpError>)
    ensures r.Err? <==> store.taskSets == map[]
    ensures r.Err? ==> r.error == HttpError(404, "No task sets found")
    ensures r.Ok? ==> exists id :: Storage.IsGreatest(Storage.CreatedTimes(store.taskSets), id)
                        && r.value == (Storage.MetadataOf(store.taskSets[id]), store.taskSets[id].tasks)
  {
    var latest := store.LoadLatestTasksPayload();
    if latest.None? {
      return Err(HttpError(404, "No task sets found"));
    }
    return Ok(latest.value);
  }

  /** `POST /pull-requests`: refused without a valid token, else the request is stored as a record and its summary returned. */
  method IngestPullRequest(store: Storage.Store, apiToken: Option<string>, authorization: Option<string>,
                           req: PullRequestIngest) returns (r: Result<PullRequestSummary, HttpError>)
    requires store.Valid()
    modifies store
    ensures store.Valid()
    ensures RequireToken(apiToken, authorization).Some? ==>
              r == Err(RequireToken(apiToken, authorization).value) && store.pullRequests == old(store.pullRequests)
    ensures RequireToken(apiToken, authorization).None? ==>
              var record := PrToRecord(req);
              r == Ok(Storage.SummaryOfRecord(record))
              && store.pullRequests == old(store.pullRequests)[record.id := Storage.RowOf(record)]
    ensures store.taskSets == old(store.taskSets) && store.agentRuns == old(store.agentRuns)
  {
    var denied := RequireToken(apiToken, authorization);
    if denied.Some? {
      return Err(denied.value);
    }
    var record := PrToRecord(req);
    var summary := store.UpsertPullRequest(record);
    return Ok(summary);
  }

  /** `GET /pull-requests/{pr_id}`: 404 exactly when the pull request is not stored. */
  function GetPullRequest(store: Storage.Store, prId: string): (r: Result<PullRequestRecord, HttpError>)
    reads store
    requires store.Valid()
    ensures r.Err? <==> prId !in store.pullRequests
    ensures r.Err? ==> r.error == HttpError(404, "PR not found")
    ensures r.Ok? ==> r.value.id == prId && r.value.headSha.None?
  {
    match store.LoadPullRequestRecord(prId)
    case None => Err(HttpError(404, "PR not found"))
    case Some(record) => Ok(record)
  }

  /**
   * `POST /agent-runs`: refused without a valid token, else the request is
   * stored as a run (with `uuid` and `now` filling a missing id and start)
   * and the record returned.
   */
  method IngestAgentRun(store: Storage.Store, apiToken: Option<string>, authorization: Option<string>,
                        req: AgentRunIngest, uuid: string, now: Instant) returns (r: Result<AgentRunRecord, HttpError>)
    requires store.Valid()
    modifies store
    ensures store.Valid()
    ensures RequireToken(apiToken, authorization).Some? ==>
              r == Err(RequireToken(apiToken, authorization).value)
              && store.agentRuns == old(store.agentRuns) && store.pullRequests == old(store.pullRequests)
    ensures RequireToken(apiToken, authorization).None? ==>
              var record := RunToRecord(req, uuid, now);
              && r == Ok(record)
              && store.agentRuns == old(store.agentRuns)[record.runId := Storage.RunRowOf(record)]
              && (record.pullRequestId in old(store.pullRequests) ==>
                    store.pullRequests == old(store.pullRequests)[record.pullRequestId :=
                      Storage.ApplyRun(old(store.pullRequests)[record.pullRequestId], record)])
              && (record.pullRequestId !in old(store.pullRequests) ==> store.pullRequests == old(store.pullRequests))
    ensures store.taskSets == old(store.taskSets)
  {
    var denied := RequireToken(apiToken, authorization);
    if denied.Some? {
      return Err(denied.value);
    }
    var record := RunToRecord(req, uuid, now);
    store.SaveAgentRun(record);
    return Ok(record);
  }

  /** `GET /agent-results/{pr_id}`: 404 exactly when the pull request has no run, else its latest run. */
  method GetAgentResults(store: Storage.Store, prId: string) returns (r: Result<AgentRunRecord, HttpError>)
    ensures r.Err? <==> Storage.StartTimes(store.agentRuns, prId) == map[]
    ensures r.Err? ==> r.error == HttpError(404, "Results not found")
    ensures r.Ok? ==> r.value.pullRequestId == prId
  {
    var run := store.LoadAgentRun(prId);
    if run.None? {
      return Err(HttpError(404, "Results not found"));
    }
    return Ok(run.value);
  }

  /** The webhook actions that store the pull request. */
  const HandledActions: set<string> := {"opened", "reopened", "synchronize"}

  /** What the webhook does with an event: ignore it with a reason, or store the pull request request. */
  datatype WebhookStep = Ignore(reason: string) | Upsert(request: PullRequestIngest)

  /** `d.get(key, {})` when it is a dict (to call `.get` on), None where Python would raise. */
  function SubDict(d: map<string, Json>, key: string): Option<map<string, Json>>
  {
    var v := GetOr(d, key, JObj(map[]));
    if v.JObj? then Some(v.fields) else None
  }

  /** `(payload.get(key) or {})` when it is a dict, None where Python would raise. */
  function DictOrEmpty(d: map<string, Json>, key: string): Option<map<string, Json>>
  {
    var v := Or(Get(d, key), JObj(map[]));
    if v.JObj? then Some(v.fields) else None
  }

  /**
   * `github_webhook` after the signature check: events other than
   * `pull_request` and actions other than opened, reopened and synchronize
   * are ignored; otherwise a `PullRequestIngestRequest` is built from the
   * payload, with empty strings and zeros for missing fields and the
   * listed files as `changedFiles`. An error where Python raises: a body
   * that is not a dict, an unhashable action, a part that is not a dict, or
   * a field of the wrong type.
   */
  function WebhookStepOf(event: string, payload: Json, changedFiles: seq<string>): Result<WebhookStep, HttpError>
  {
    if event != "pull_request" then Ok(Ignore("unsupported event"))
    else if !payload.JObj? then Err(HttpError(500, "payload has no attribute 'get'"))
    else
      var action := Get(payload.fields, "action");
      if action.JList? || action.JObj? then Err(HttpError(500, "unhashable action"))
      else if !(action.JStr? && action.s in HandledActions) then Ok(Ignore("action " + PyStr(action)))
      else
        var pr := DictOrEmpty(payload.fields, "pull_request");
        var repo := DictOrEmpty(payload.fields, "repository");
        if pr.None? || repo.None? then Err(HttpError(500, "pull request has no attribute 'get'"))
        else
          match IngestOfEvent(pr.value, repo.value, changedFiles)
          case Err(e) => Err(e)
          case Ok(req) => Ok(Upsert(req))
  }

  /** The `PullRequestIngestRequest` the webhook builds from the event's pull request and repository dicts. */
  function IngestOfEvent(pr: map<string, Json>, repo: map<string, Json>, changedFiles: seq<string>): Result<PullRequestIngest, HttpError>
  {
    var user := SubDict(pr, "user");
    var base := SubDict(pr, "base");
    var head := SubDict(pr, "head");
    if user.None? || base.None? || head.None? then Err(HttpError(500, "pull request part has no attribute 'get'"))
    else
      var repository := GetOr(repo, "full_name", JStr(""));
      var number := Get(pr, "number");
      var title := GetOr(pr, "title", JStr(""));
      var author := GetOr(user.value, "login", JStr(""));
      var baseRef := GetOr(base.value, "ref", JStr(""));
      var headRef := GetOr(head.value, "ref", JStr(""));
      var filesChanged := GetOr(pr, "changed_files", JInt(0));
      var additions := GetOr(pr, "additions", JInt(0));
      var deletions := GetOr(pr, "deletions", JInt(0));
      if !(repository.JStr? && number.JInt? && title.JStr? && author.JStr? && baseRef.JStr? && headRef.JStr?
           && filesChanged.JInt? && additions.JInt? && deletions.JInt?)
      then Err(HttpError(500, "PullRequestIngestRequest: validation error"))
      else Ok(NewPullRequestIngest(repository.s, number.i, title.s, author.s, baseRef.s, headRef.s,
                                   filesChanged.i, additions.i, deletions.i).(changedFiles := changedFiles))
  }

  /**
   * Missing fields other than the number become empty strings and zeros:
   * a pull request with only a number, in an empty repository dict, is
   * stored with that number and nothing else.
   */
  lemma IngestOfEventDefaults(number: int, changedFiles: seq<string>)
    ensures IngestOfEvent(map["number" := JInt(number)], map[], changedFiles)
            == Ok(NewPullRequestIngest("", number, "", "", "", "", 0, 0, 0).(changedFiles := changedFiles))
  {
  }

  /** An event other than `pull_request` is ignored, whatever its payload. */
  lemma WebhookIgnoresOtherEvents(event: string, payload: Json, changedFiles: seq<string>)
    requires event != "pull_request"
    ensures WebhookStepOf(event, payload, changedFiles) == Ok(Ignore("unsupported event"))
  {
  }

  /** A `pull_request` event stores something only for the three handled actions; another action is ignored by name. */
  lemma WebhookActions(payload: Json, changedFiles: seq<string>)
    requires payload.JObj?
    ensures var r := WebhookStepOf("pull_request", payload, changedFiles);
      var action := Get(payload.fields, "action");
      && (r.Ok? && r.value.Upsert? ==> action.JStr? && action.s in HandledActions)
      && (action.JStr? && action.s !in HandledActions ==> r == Ok(Ignore("action " + action.s)))
      && (action.JNull? ==> r == Ok(Ignore("action None")))
  {
    var action := Get(payload.fields, "action");
    if action.JNull? {
      assert PyStr(action) == "None";
      assert "action " + "None" == "action None";
    }
  }

  /**
   * What the webhook stores is a new pending request with no violations,
   * no head commit and no id, so the record gets the default id and a
   * redelivered event resets the stored status and violation count.
   */
  lemma WebhookUpsertShape(event: string, payload: Json, changedFiles: seq<string>)
    ensures var r := WebhookStepOf(event, payload, changedFiles);
      r.Ok? && r.value.Upsert? ==>
        var req := r.value.request;
        var record := PrToRecord(req);
        && event == "pull_request"
        && req.changedFiles == changedFiles
        && record.id == DefaultPrId(req.repository, req.number)
        && record.status == "pending" && record.violations == 0
        && record.headSha.None? && record.lastRun.None?
  {
  }

  /** A `pull_request` payload as GitHub sends it, with every field the webhook reads. */
  function GithubPullRequestEvent(action: string, fullName: string, number: int, title: string, login: string,
                                  baseRef: string, headRef: string, changed: int, additions: int, deletions: int): Json
  {
    JObj(map[
      "action" := JStr(action),
      "repository" := JObj(map["full_name" := JStr(fullName)]),
      "pull_request" := JObj(map[
        "number" := JInt(number), "title" := JStr(title),
        "user" := JObj(map["login" := JStr(login)]),
        "base" := JObj(map["ref" := JStr(baseRef)]), "head" := JObj(map["ref" := JStr(headRef)]),
        "changed_files" := JInt(changed), "additions" := JInt(additions), "deletions" := JInt(deletions)])])
  }

  /** An opened pull request is stored with the repository, number, title, author, branches and counts GitHub sent. */
  lemma WebhookOpened(fullName: string, number: int, title: string, login: string, baseRef: string, headRef: string,
                      changed: int, additions: int, deletions: int, changedFiles: seq<string>)
    ensures WebhookStepOf("pull_request",
                          GithubPullRequestEvent("opened", fullName, number, title, login, baseRef, headRef,
                                                 changed, additions, deletions), changedFiles)
            == Ok(Upsert(NewPullRequestIngest(fullName, number, title, login, baseRef, headRef,
                                              changed, additions, deletions).(changedFiles := changedFiles)))
  {
    var p := GithubPullRequestEvent("opened", fullName, number, title, login, baseRef, headRef, changed, additions, deletions);
    var pr := p.fields["pull_request"].fields;
    var repo := p.fields["repository"].fields;
    assert Get(p.fields, "action") == JStr("opened");
    assert DictOrEmpty(p.fields, "pull_request") == Some(pr) by {
      assert "number" in pr;
    }
    assert DictOrEmpty(p.fields, "repository") == Some(repo) by {
      assert "full_name" in repo;
    }
    IngestOfGithubEvent(fullName, number, title, login, baseRef, headRef, changed, additions, deletions, changedFiles);
  }

  /** The pull request part of a GitHub event gives the request with GitHub's values. */
  lemma IngestOfGithubEvent(fullName: string, number: int, title: string, login: string, baseRef: string, headRef: string,
                            changed: int, additions: int, deletions: int, changedFiles: seq<string>)
    ensures var p := GithubPullRequestEvent("opened", fullName, number, title, login, baseRef, headRef, changed, additions, deletions);
      IngestOfEvent(p.fields["pull_request"].fields, p.fields["repository"].fields, changedFiles)
      == Ok(NewPullRequestIngest(fullName, number, title, login, baseRef, headRef, changed, additions, deletions).(changedFiles := changedFiles))
  {
    var p := GithubPullRequestEvent("opened", fullName, number, title, login, baseRef, headRef, changed, additions, deletions);
    var pr := p.fields["pull_request"].fields;
    var repo := p.fields["repository"].fields;
    assert SubDict(pr, "user") == Some(map["login" := JStr(login)]);
    assert SubDict(pr, "base") == Some(map["ref" := JStr(baseRef)]);
    assert SubDict(pr, "head") == Some(map["ref" := JStr(headRef)]);
    assert GetOr(repo, "full_name", JStr("")) == JStr(fullName);
    assert Get(pr, "number") == JInt(number) && GetOr(pr, "title", JStr("")) == JStr(title);
    assert GetOr(pr, "changed_files", JInt(0)) == JInt(changed);
    assert GetOr(pr, "additions", JInt(0)) == JInt(additions) && GetOr(pr, "deletions", JInt(0)) == JInt(deletions);
    IngestOfEventFields(pr, repo, changedFiles);
  }

  /** A pull request dict whose fields have the right types gives the request holding them. */
  lemma IngestOfEventFields(pr: map<string, Json>, repo: map<string, Json>, changedFiles: seq<string>)
    requires SubDict(pr, "user").Some? && SubDict(pr, "base").Some? && SubDict(pr, "head").Some?
    requires GetOr(repo, "full_name", JStr("")).JStr? && Get(pr, "number").JInt? && GetOr(pr, "title", JStr("")).JStr?
    requires GetOr(SubDict(pr, "user").value, "login", JStr("")).JStr?
    requires GetOr(SubDict(pr, "base").value, "ref", JStr("")).JStr? && GetOr(SubDict(pr, "head").value, "ref", JStr("")).JStr?
    requires GetOr(pr, "changed_files", JInt(0)).JInt? && GetOr(pr, "additions", JInt(0)).JInt?
    requires GetOr(pr, "deletions", JInt(0)).JInt?
    ensures IngestOfEvent(pr, repo, changedFiles) ==
              Ok(NewPullRequestIngest(GetOr(repo, "full_name", JStr("")).s, Get(pr, "number").i,
                                      GetOr(pr, "title", JStr("")).s, GetOr(SubDict(pr, "user").value, "login", JStr("")).s,
                                      GetOr(SubDict(pr, "base").value, "ref", JStr("")).s,
                                      GetOr(SubDict(pr, "head").value, "ref", JStr("")).s,
                                      GetOr(pr, "changed_files", JInt(0)).i, GetOr(pr, "additions", JInt(0)).i,
                                      GetOr(pr, "deletions", JInt(0)).i).(changedFiles := changedFiles))
  {
  }

  /** A pull request payload without a number fails validation, even for a handled action. */
  lemma WebhookNeedsNumber(payload: Json, changedFiles: seq<string>)
    requires payload.JObj? && Get(payload.fields, "action") == JStr("opened")
    requires "pull_request" !in payload.fields
    ensures WebhookStepOf("pull_request", payload, changedFiles).Err?
  {
  }

  /** The webhook's replies. */
  datatype WebhookReply = Ignored(reason: string) | Accepted

  /**
   * `POST /github/webhook`: `signature` is the outcome of the signature
   * check and `changedFiles` the file list GitHub reports for the pull
   * request. Exactly one pull request is upserted when the event is
   * accepted; nothing changes otherwise.
   */
  method GithubWebhook(store: Storage.Store, signature: Option<HttpError>, event: string, payload: Json,
                       changedFiles: seq<string>) returns (r: Result<WebhookReply, HttpError>)
    requires store.Valid()
    modifies store
    ensures store.Valid()
    ensures signature.Some? ==> r == Err(signature.value) && store.pullRequests == old(store.pullRequests)
    ensures signature.None? ==>
              match WebhookStepOf(event, payload, changedFiles)
              case Err(e) => r == Err(e) && store.pullRequests == old(store.pullRequests)
              case Ok(Ignore(reason)) => r == Ok(Ignored(reason)) && store.pullRequests == old(store.pullRequests)
              case Ok(Upsert(req)) =>
                r == Ok(Accepted)
                && store.pullRequests == old(store.pullRequests)[PrToRecord(req).id := Storage.RowOf(PrToRecord(req))]
    ensures store.taskSets == old(store.taskSets) && store.agentRuns == old(store.agentRuns)
  {
    if signature.Some? {
      return Err(signature.value);
    }
    var step := WebhookStepOf(event, payload, changedFiles);
    if step.Err? {
      return Err(step.error);
    }
    if step.value.Ignore? {
      return Ok(Ignored(step.value.reason));
    }
    var summary := store.UpsertPullRequest(PrToRecord(step.value.request));
    return Ok(Accepted);
  }
}

=== FILE: Checks.dfy ===
/**
 * `run_checks`: which files are scanned, which rules apply to each, how the
 * per-file verdicts of the evaluator are turned into findings and failed
 * rules, and the pass/total summary. The evaluator itself is not modelled:
 * each file carries its verdict (a failure message, or the list the
 * evaluator answered with).
 */
module Checks {
  import opened Wrappers
  import opened PyText
  import opened PyJson
  import opened TaskConfig
  import PyPath

  /** One reported problem; `message` and `fix` hold whatever value the rule or the evaluator supplied. */
  datatype Finding = Finding(task: string, file: string, line: int, column: int, message: Json, fix: Json)

  /** What the evaluator did for one file: raised with a message, or answered with a `tasks` list. */
  datatype Verdict = AiFailed(error: string) | AiAnswered(results: seq<Json>)

  /**
   * A file given to `run_checks`: its path as given, its path relative to the
   * repository root (as `resolve().relative_to(...)` yields it), whether it
   * is a regular file, and the evaluator's verdict on it.
   */
  datatype FileEntry = FileEntry(path: string, rel: string, isFile: bool, verdict: Verdict)

  /** The findings so far and the indexes of the failed rules. */
  datatype Tally = Tally(findings: seq<Finding>, failed: set<nat>)

  datatype Summary = Summary(totalRules: nat, passedRules: nat, passedRuleNames: seq<string>)

  /** The result of `run_checks`, or `Raised` where the Python code raises. */
  datatype RunResult = Report(findings: seq<Finding>, summary: Summary) | Raised

  const Blocklist: set<string> :=
    {".png", ".jpg", ".jpeg", ".gif", ".pdf", ".zip", ".gz", ".tar", ".rar", ".bmp", ".ico"}

  const ViolationDefault: string := "Task violation detected."
  const MissingMessage: string := "AI response missing for this task."
  const FailurePrefix: string := "AI evaluation failed: "

  /**
   * The rule list `tasks_cfg.get("rules", [])` as far as `run_checks` can use
   * it: a list of dicts. An empty string or dict iterates like an empty
   * list; any other value makes `run_checks` raise, at the latest when
   * `len()` or `_rule_name` meets it.
   */
  function RulesOf(cfg: map<string, Json>): (r: Option<seq<Rule>>)
    ensures "rules" !in cfg ==> r == Some([])
    ensures r.Some? && "rules" in cfg && cfg["rules"].JList? ==>
              |r.value| == |cfg["rules"].items| &&
              forall i :: 0 <= i < |r.value| ==> cfg["rules"].items[i] == JObj(r.value[i])
    ensures "rules" in cfg && cfg["rules"].JList? && (exists i :: 0 <= i < |cfg["rules"].items| && !cfg["rules"].items[i].JObj?) ==>
              r.None?
  {
    match GetOr(cfg, "rules", JList([]))
    case JList(items) =>
      if forall i :: 0 <= i < |items| ==> items[i].JObj? then
        var rules := seq(|items|, i requires 0 <= i < |items| => items[i].fields);
        assert forall i :: 0 <= i < |rules| ==> items[i] == JObj(rules[i]);
        Some(rules)
      else None
    case JStr(s) => if s == [] then Some([]) else None
    case JObj(m) => if m == map[] then Some([]) else None
    case _ => None
  }

  /** `p.suffix.lower() in TEXT_EXT_BLOCKLIST`. */
  predicate Blocked(path: string)
  {
    AsciiLower(PyPath.Suffix(path)) in Blocklist
  }

  /**
   * `included(p)`: a truthy `include` must match, a truthy `exclude` must
   * not; None where matching raises.
   */
  function Included(cfg: map<string, Json>, rel: string): (r: Option<bool>)
    ensures !Truthy(Get(cfg, "include")) && !Truthy(Get(cfg, "exclude")) ==> r == Some(true)
    ensures Truthy(Get(cfg, "include")) && GlobsMatch(Get(cfg, "include"), rel) == Some(false) ==> r == Some(false)
    ensures r == Some(true) <==>
              && (Truthy(Get(cfg, "include")) ==> GlobsMatch(Get(cfg, "include"), rel) == Some(true))
              && (Truthy(Get(cfg, "exclude")) ==> GlobsMatch(Get(cfg, "exclude"), rel) == Some(false))
  {
    var inc := Get(cfg, "include");
    var exc := Get(cfg, "exclude");
    var incOk := if Truthy(inc) then GlobsMatch(inc, rel) else Some(true);
    match incOk
    case None => None
    case Some(ok) =>
      if !ok then Some(false)
      else if !Truthy(exc) then Some(true)
      else match GlobsMatch(exc, rel)
        case None => None
        case Some(m) => Some(!m)
  }

  /** Whether the loop over files gets past its three `continue` tests for `f`. */
  function Scanned(cfg: map<string, Json>, f: FileEntry): (r: Option<bool>)
    ensures !f.isFile || Blocked(f.path) ==> r == Some(false)
    ensures r == Some(true) <==> f.isFile && !Blocked(f.path) && Included(cfg, f.rel) == Some(true)
  {
    if !f.isFile then Some(false)
    else if Blocked(f.path) then Some(false)
    else Included(cfg, f.rel)
  }

  /** `_task_summary(rule, idx)` for a rule whose summary can be built. */
  function SummaryOf(rules: seq<Rule>, i: nat): (s: map<string, Json>)
    requires i < |rules| && TaskBase(rules[i]).Some?
    ensures "internalRef" in s && s["internalRef"] == JInt(i)
  {
    TaskSummary(rules[i], TaskBase(rules[i]).value, i)
  }

  /**
   * The indexes in the `applicable` list for a file, over the first `n`
   * rules: each rule whose globs match, in rule order; None where a glob
   * test or a task summary raises.
   */
  function ApplicableUpTo(rules: seq<Rule>, rel: string, n: nat): (r: Option<seq<nat>>)
    requires n <= |rules|
    ensures r.Some? ==> forall k :: 0 <= k < |r.value| ==> r.value[k] < n
  {
    if n == 0 then Some([])
    else
      match ApplicableUpTo(rules, rel, n - 1)
      case None => None
      case Some(prev) =>
        match RuleApplies(rules[n - 1], rel)
        case None => None
        case Some(applies) =>
          if !applies then Some(prev)
          else if TaskBase(rules[n - 1]).None? then None
          else Some(prev + [n - 1])
  }

  /** The indexes in the `applicable` list are below `n`, in increasing order, and their summaries can be built. */
  lemma {:induction false} ApplicableSound(rules: seq<Rule>, rel: string, n: nat)
    requires n <= |rules| && ApplicableUpTo(rules, rel, n).Some?
    ensures var app := ApplicableUpTo(rules, rel, n).value;
      && (forall k :: 0 <= k < |app| ==> app[k] < n && TaskBase(rules[app[k]]).Some?)
      && (forall k, l :: 0 <= k < l < |app| ==> app[k] < app[l])
  {
    if n > 0 {
      ApplicableSound(rules, rel, n - 1);
    }
  }

  /** Every rule in the `applicable` list applies to the file. */
  lemma {:induction false} ApplicableApplies(rules: seq<Rule>, rel: string, n: nat)
    requires n <= |rules| && ApplicableUpTo(rules, rel, n).Some?
    ensures var app := ApplicableUpTo(rules, rel, n).value;
      forall k :: 0 <= k < |app| ==> RuleApplies(rules[app[k]], rel) == Some(true)
  {
    if n > 0 {
      ApplicableApplies(rules, rel, n - 1);
    }
  }

  /** Every rule that applies to the file is in the `applicable` list. */
  lemma {:induction false} ApplicableComplete(rules: seq<Rule>, rel: string, n: nat)
    requires n <= |rules| && ApplicableUpTo(rules, rel, n).Some?
    ensures forall i :: 0 <= i < n && RuleApplies(rules[i], rel) == Some(true) ==> i in ApplicableUpTo(rules, rel, n).value
  {
    if n > 0 {
      ApplicableComplete(rules, rel, n - 1);
      var prev := ApplicableUpTo(rules, rel, n - 1).value;
      if RuleApplies(rules[n - 1], rel) == Some(true) {
        assert ApplicableUpTo(rules, rel, n).value == prev + [n - 1];
      } else {
        assert ApplicableUpTo(rules, rel, n).value == prev;
      }
    }
  }

  /** The `applicable` list is built without raising when every glob test and every summary succeeds. */
  lemma {:induction false} ApplicableDefined(rules: seq<Rule>, rel: string, n: nat)
    requires n <= |rules|
    requires forall i :: 0 <= i < n ==> RuleApplies(rules[i], rel).Some? && TaskBase(rules[i]).Some?
    ensures ApplicableUpTo(rules, rel, n).Some?
  {
    if n > 0 {
      ApplicableDefined(rules, rel, n - 1);
    }
  }

  /** `_as_int(value, default)`: `int(value)`, or the default for None and where `int()` raises. */
  function AsInt(v: Json, default: int): (n: int)
    ensures v.JInt? ==> n == v.i
    ensures v.JBool? ==> n == if v.b then 1 else 0
    ensures v.JStr? && ParseInt(v.s).Some? ==> n == ParseInt(v.s).value
    ensures !v.JInt? && !v.JBool? && !(v.JStr? && ParseInt(v.s).Some?) ==> n == default
  {
    match v
    case JInt(i) => i
    case JBool(b) => if b then 1 else 0
    case JStr(s) => if ParseInt(s).Some? then ParseInt(s).value else default
    case _ => default
  }

  /** A decimal string, as the evaluator may write a line number, is read as its value. */
  lemma AsIntOfDecimal(i: int, default: int)
    ensures AsInt(JStr(IntToString(i)), default) == i
  {
    ParseIntOfIntToString(i);
  }

  /**
   * `None`, a list, a dict, and any string without a single decimal digit
   * (`"unknown"`, `""`, `"n/a"`) all fall back to the default.
   */
  lemma AsIntDefaults(v: Json, default: int)
    ensures v.JNull? || v.JList? || v.JObj? ==> AsInt(v, default) == default
    ensures v.JStr? && (forall i :: 0 <= i < |v.s| ==> !IsDigit(v.s[i])) ==> AsInt(v, default) == default
  {
    if v.JStr? && (forall i :: 0 <= i < |v.s| ==> !IsDigit(v.s[i])) {
      var s := v.s;
      var a := SpaceRunEnd(s, 0);
      var b := SpaceRunStart(s, a, |s|);
      var t := s[a..b];
      assert Strip(s) == t;
      ParseIntTextHasDigit(t);
      assert forall j :: 0 <= j < |t| ==> t[j] == s[a + j];
    }
  }

  /** Whether an evaluator result is a dict answering for the rule at `idx` (`True` and `False` count as 1 and 0). */
  predicate ResultFor(res: Json, idx: nat)
  {
    && res.JObj?
    && "internalRef" in res.fields
    && var ref := res.fields["internalRef"];
       ref == JInt(idx) || (ref.JBool? && (if ref.b then idx == 1 else idx == 0))
  }

  /**
   * Building `results_by_ref` raises when a dict result's `internalRef` is a
   * list or a dict (unhashable).
   */
  predicate RefsHashable(results: seq<Json>)
  {
    forall i :: 0 <= i < |results| && results[i].JObj? && "internalRef" in results[i].fields ==>
      !results[i].fields["internalRef"].JList? && !results[i].fields["internalRef"].JObj?
  }

  /**
   * `results_by_ref.get(idx)` over the first `n` results: the last one
   * answering for `idx`, since later entries overwrite earlier ones.
   */
  function LastResultFor(results: seq<Json>, idx: nat, n: nat): (r: Option<map<string, Json>>)
    requires n <= |results|
    ensures r.None? <==> forall i :: 0 <= i < n ==> !ResultFor(results[i], idx)
    ensures r.Some? ==>
              exists i :: 0 <= i < n && ResultFor(results[i], idx) && results[i] == JObj(r.value) &&
                (forall j :: i < j < n ==> !ResultFor(results[j], idx))
  {
    if n == 0 then None
    else if ResultFor(results[n - 1], idx) then Some(results[n - 1].fields)
    else LastResultFor(results, idx, n - 1)
  }

  /** What a rule's findings are built from: its name, the file, the result, the summary and the rule. */
  datatype Context = Context(name: string, rel: string, result: map<string, Json>, summary: map<string, Json>, rule: Rule)

  /** The finding for one dict violation. */
  function ViolationFinding(c: Context, v: map<string, Json>): (f: Finding)
    ensures f.task == c.name && f.file == c.rel
    ensures "line" !in v ==> f.line == 1
    ensures "column" !in v ==> f.column == 0
    ensures Truthy(Get(v, "message")) ==> f.message == v["message"]
    ensures !Truthy(Get(v, "message")) && !Truthy(Get(c.result, "explanation")) && !Truthy(Get(c.summary, "description")) ==>
              f.message == JStr(ViolationDefault)
  {
    Finding(c.name, c.rel, AsInt(Get(v, "line"), 1), AsInt(Get(v, "column"), 0),
            Or(Get(v, "message"), Or(Get(c.result, "explanation"), Or(Get(c.summary, "description"), JStr(ViolationDefault)))),
            Or(Get(v, "fix"), Or(Get(c.summary, "suggestedFix"), Get(c.rule, "fix"))))
  }

  /** The findings of the first `n` entries of a violations list: one per dict entry, in order; other entries are skipped. */
  function ViolationFindings(c: Context, vs: seq<Json>, n: nat): (fs: seq<Finding>)
    requires n <= |vs|
    ensures |fs| <= n
    ensures forall k :: 0 <= k < |fs| ==> fs[k].task == c.name && fs[k].file == c.rel
  {
    if n == 0 then []
    else
      var prev := ViolationFindings(c, vs, n - 1);
      match vs[n - 1]
      case JObj(v) => prev + [ViolationFinding(c, v)]
      case _ => prev
  }

  /** A list of dict violations gives exactly one finding per violation, in order. */
  lemma {:induction false} ViolationFindingsOfDicts(c: Context, vs: seq<Json>, n: nat)
    requires n <= |vs|
    requires forall k :: 0 <= k < n ==> vs[k].JObj?
    ensures var fs := ViolationFindings(c, vs, n);
      |fs| == n && forall k :: 0 <= k < n ==> fs[k] == ViolationFinding(c, vs[k].fields)
  {
    if n > 0 {
      ViolationFindingsOfDicts(c, vs, n - 1);
    }
  }

  /** Entries that are not dicts produce no finding at all. */
  lemma {:induction false} ViolationFindingsOfNonDicts(c: Context, vs: seq<Json>, n: nat)
    requires n <= |vs|
    requires forall k :: 0 <= k < n ==> !vs[k].JObj?
    ensures ViolationFindings(c, vs, n) == []
  {
    if n > 0 {
      ViolationFindingsOfNonDicts(c, vs, n - 1);
    }
  }

  /** The single finding at 1:0 for a non-compliant result without a usable violations list. */
  function ExplanationFinding(c: Context): (f: Finding)
    ensures f.task == c.name && f.file == c.rel && f.line == 1 && f.column == 0
    ensures Truthy(Get(c.result, "explanation")) ==> f.message == c.result["explanation"]
    ensures !Truthy(Get(c.result, "explanation")) && !Truthy(Get(c.summary, "description")) ==> f.message == JStr(ViolationDefault)
  {
    Finding(c.name, c.rel, 1, 0,
            Or(Get(c.result, "explanation"), Or(Get(c.summary, "description"), JStr(ViolationDefault))),
            Or(Get(c.summary, "suggestedFix"), Get(c.rule, "fix")))
  }

  /**
   * The findings for one applicable rule given the evaluator's result for it
   * (None when there is none), and whether the rule failed.
   */
  function RuleOutcome(rule: Rule, summary: map<string, Json>, rel: string, result: Option<map<string, Json>>): (seq<Finding>, bool)
  {
    var name := RuleName(rule);
    match result
    case None => ([Finding(name, rel, 1, 0, JStr(MissingMessage), Get(summary, "suggestedFix"))], true)
    case Some(res) =>
      if Truthy(Get(res, "compliant")) then ([], false)
      else
        var c := Context(name, rel, res, summary, rule);
        var vs := Or(Get(res, "violations"), JList([]));
        if vs.JList? && vs.items != [] then (ViolationFindings(c, vs.items, |vs.items|), true)
        else ([ExplanationFinding(c)], true)
  }

  /**
   * A rule fails exactly when it has no result or its result is not
   * compliant; all its findings name it and the file, and a rule with a
   * finding fails.
   */
  lemma RuleOutcomeFails(rule: Rule, summary: map<string, Json>, rel: string, result: Option<map<string, Json>>)
    ensures var o := RuleOutcome(rule, summary, rel, result);
      && (o.1 <==> result.None? || !Truthy(Get(result.value, "compliant")))
      && (o.0 != [] ==> o.1)
      && forall k :: 0 <= k < |o.0| ==> o.0[k].task == RuleName(rule) && o.0[k].file == rel
  {
  }

  /** No result for the rule: one "AI response missing" finding at 1:0, and the rule fails. */
  lemma RuleOutcomeMissing(rule: Rule, summary: map<string, Json>, rel: string)
    ensures var o := RuleOutcome(rule, summary, rel, None);
      && o.1 && |o.0| == 1
      && o.0[0].line == 1 && o.0[0].column == 0 && o.0[0].message == JStr(MissingMessage)
  {
  }

  /**
   * A non-compliant result with a non-empty violations list of dicts yields
   * one finding per violation; with no violations it yields the single
   * explanation finding at 1:0.
   */
  lemma RuleOutcomeViolations(rule: Rule, summary: map<string, Json>, rel: string, res: map<string, Json>)
    requires !Truthy(Get(res, "compliant"))
    ensures var o := RuleOutcome(rule, summary, rel, Some(res));
      var vs := Get(res, "violations");
      && (!Truthy(vs) ==> |o.0| == 1 && o.0[0].line == 1 && o.0[0].column == 0)
      && (vs.JList? && vs.items != [] && (forall k :: 0 <= k < |vs.items| ==> vs.items[k].JObj?) ==>
            |o.0| == |vs.items|)
  {
    var c := Context(RuleName(rule), rel, res, summary, rule);
    var vs := Get(res, "violations");
    if vs.JList? && vs.items != [] && forall k :: 0 <= k < |vs.items| ==> vs.items[k].JObj? {
      ViolationFindingsOfDicts(c, vs.items, |vs.items|);
    }
  }

  /** A rule can fail without any finding: its violations list holds only non-dict entries. */
  lemma FailedRuleWithoutFindings(rule: Rule, summary: map<string, Json>, rel: string)
    ensures RuleOutcome(rule, summary, rel, Some(map["internalRef" := JInt(0), "violations" := JList([JInt(7)])])) == ([], true)
  {
    var res := map["internalRef" := JInt(0), "violations" := JList([JInt(7)])];
    assert Get(res, "compliant") == JNull;
    ViolationFindingsOfNonDicts(Context(RuleName(rule), rel, res, summary, rule), [JInt(7)], 1);
  }

  /**
   * Every finding of the tally is attributed to a failed rule, and every
   * failed index is a rule's.
   */
  predicate Attributed(rules: seq<Rule>, t: Tally)
  {
    && (forall i :: i in t.failed ==> i < |rules|)
    && forall k :: 0 <= k < |t.findings| ==>
         exists i :: i in t.failed && i < |rules| && t.findings[k].task == RuleName(rules[i])
  }

  lemma AttributedJoin(rules: seq<Rule>, a: Tally, b: Tally)
    requires Attributed(rules, a) && Attributed(rules, b)
    ensures Attributed(rules, Tally(a.findings + b.findings, a.failed + b.failed))
  {
    var t := Tally(a.findings + b.findings, a.failed + b.failed);
    forall k | 0 <= k < |t.findings|
      ensures exists i :: i in t.failed && i < |rules| && t.findings[k].task == RuleName(rules[i])
    {
      if k < |a.findings| {
        assert t.findings[k] == a.findings[k];
      } else {
        assert t.findings[k] == b.findings[k - |a.findings|];
      }
    }
  }

  /** A tally with a finding has a failed rule. */
  lemma AttributedFindingsFail(rules: seq<Rule>, t: Tally)
    requires Attributed(rules, t)
    ensures t.findings != [] ==> t.failed != {}
  {
    if t.findings != [] {
      var f := t.findings[0];
      assert exists i :: i in t.failed && i < |rules| && f.task == RuleName(rules[i]);
    }
  }

  /**
   * The summaries `_task_summary(rule, idx)` kept beside the applicable
   * indexes; each carries its rule's index as `internalRef`, the key the
   * evaluator's results are matched on.
   */
  function ApplicableSummaries(rules: seq<Rule>, app: seq<nat>): (ss: seq<map<string, Json>>)
    requires forall k :: 0 <= k < |app| ==> app[k] < |rules| && TaskBase(rules[app[k]]).Some?
    ensures |ss| == |app|
    ensures forall k :: 0 <= k < |app| ==> "internalRef" in ss[k] && ss[k]["internalRef"] == JInt(app[k])
  {
    seq(|app|, k requires 0 <= k < |app| => SummaryOf(rules, app[k]))
  }

  /** The tally of the applicable rule `i`, with its summary, on a file the evaluator answered for. */
  function RuleTally(rules: seq<Rule>, i: nat, summary: map<string, Json>, rel: string, results: seq<Json>): Tally
    requires i < |rules|
  {
    var o := RuleOutcome(rules[i], summary, rel, LastResultFor(results, i, |results|));
    Tally(o.0, if o.1 then {i} else {})
  }

  /** One applicable rule fails at most itself, and its findings name it. */
  lemma RuleTallyAttributed(rules: seq<Rule>, i: nat, summary: map<string, Json>, rel: string, results: seq<Json>)
    requires i < |rules|
    ensures Attributed(rules, RuleTally(rules, i, summary, rel, results))
    ensures RuleTally(rules, i, summary, rel, results).failed <= {i}
  {
    var t := RuleTally(rules, i, summary, rel, results);
    RuleOutcomeFails(rules[i], summary, rel, LastResultFor(results, i, |results|));
    assert forall k :: 0 <= k < |t.findings| ==> i in t.failed && t.findings[k].task == RuleName(rules[i]);
  }

  /**
   * The tallies of the first `n` applicable rules on a file the evaluator
   * answered for, added up in rule order.
   */
  function AnsweredTally(rules: seq<Rule>, app: seq<nat>, summaries: seq<map<string, Json>>, rel: string, results: seq<Json>, n: nat): Tally
    requires n <= |app| == |summaries|
    requires forall k :: 0 <= k < |app| ==> app[k] < |rules|
  {
    if n == 0 then Tally([], {})
    else
      var prev := AnsweredTally(rules, app, summaries, rel, results, n - 1);
      var d := RuleTally(rules, app[n - 1], summaries[n - 1], rel, results);
      Tally(prev.findings + d.findings, prev.failed + d.failed)
  }

  /** Over an answered file, only the applicable rules can fail. */
  lemma {:induction false} AnsweredTallyFailed(rules: seq<Rule>, app: seq<nat>, summaries: seq<map<string, Json>>, rel: string, results: seq<Json>, n: nat)
    requires n <= |app| == |summaries|
    requires forall k :: 0 <= k < |app| ==> app[k] < |rules|
    ensures forall i :: i in AnsweredTally(rules, app, summaries, rel, results, n).failed ==> exists k :: 0 <= k < n && app[k] == i
  {
    if n > 0 {
      AnsweredTallyFailed(rules, app, summaries, rel, results, n - 1);
      RuleTallyAttributed(rules, app[n - 1], summaries[n - 1], rel, results);
    }
  }

  /** Over an answered file, every finding names a failed rule. */
  lemma {:induction false} AnsweredTallyAttributed(rules: seq<Rule>, app: seq<nat>, summaries: seq<map<string, Json>>, rel: string, results: seq<Json>, n: nat)
    requires n <= |app| == |summaries|
    requires forall k :: 0 <= k < |app| ==> app[k] < |rules|
    ensures Attributed(rules, AnsweredTally(rules, app, summaries, rel, results, n))
  {
    if n > 0 {
      AnsweredTallyAttributed(rules, app, summaries, rel, results, n - 1);
      var d := RuleTally(rules, app[n - 1], summaries[n - 1], rel, results);
      RuleTallyAttributed(rules, app[n - 1], summaries[n - 1], rel, results);
      AttributedJoin(rules, AnsweredTally(rules, app, summaries, rel, results, n - 1), d);
    }
  }

  /** The finding for an applicable rule when the evaluator raised with `err`. */
  function FailureFinding(rule: Rule, rel: string, err: string): (f: Finding)
    ensures f.task == RuleName(rule) && f.file == rel && f.line == 1 && f.column == 0
    ensures f.message == JStr(FailurePrefix + err)
    ensures f.fix == (if Truthy(Get(rule, "suggestedFix")) then rule["suggestedFix"] else Get(rule, "fix"))
  {
    Finding(RuleName(rule), rel, 1, 0, JStr(FailurePrefix + err), Or(Get(rule, "suggestedFix"), Get(rule, "fix")))
  }

  /** When the evaluator raised: the first `n` applicable rules fail with one finding each, in rule order. */
  function FailureTally(rules: seq<Rule>, app: seq<nat>, rel: string, err: string, n: nat): Tally
    requires n <= |app|
    requires forall k :: 0 <= k < |app| ==> app[k] < |rules|
  {
    if n == 0 then Tally([], {})
    else
      var prev := FailureTally(rules, app, rel, err, n - 1);
      Tally(prev.findings + [FailureFinding(rules[app[n - 1]], rel, err)], prev.failed + {app[n - 1]})
  }

  /** The failure tally fails exactly the first `n` applicable rules. */
  lemma {:induction false} FailureTallyFailed(rules: seq<Rule>, app: seq<nat>, rel: string, err: string, n: nat)
    requires n <= |app|
    requires forall k :: 0 <= k < |app| ==> app[k] < |rules|
    ensures forall i :: i in FailureTally(rules, app, rel, err, n).failed <==> exists k :: 0 <= k < n && app[k] == i
  {
    if n > 0 {
      FailureTallyFailed(rules, app, rel, err, n - 1);
    }
  }

  /** The failure tally holds one failure finding per applicable rule, in order. */
  lemma {:induction false} FailureTallyFindings(rules: seq<Rule>, app: seq<nat>, rel: string, err: string, n: nat)
    requires n <= |app|
    requires forall k :: 0 <= k < |app| ==> app[k] < |rules|
    ensures var fs := FailureTally(rules, app, rel, err, n).findings;
      |fs| == n && forall k :: 0 <= k < n ==> fs[k] == FailureFinding(rules[app[k]], rel, err)
  {
    if n > 0 {
      FailureTallyFindings(rules, app, rel, err, n - 1);
    }
  }

  /** Failure findings are attributed: each names a rule the tally fails. */
  lemma FailureTallyAttributed(rules: seq<Rule>, app: seq<nat>, rel: string, err: string, n: nat)
    requires n <= |app|
    requires forall k :: 0 <= k < |app| ==> app[k] < |rules|
    ensures Attributed(rules, FailureTally(rules, app, rel, err, n))
  {
    var t := FailureTally(rules, app, rel, err, n);
    FailureTallyFailed(rules, app, rel, err, n);
    FailureTallyFindings(rules, app, rel, err, n);
    forall k | 0 <= k < |t.findings|
      ensures exists i :: i in t.failed && i < |rules| && t.findings[k].task == RuleName(rules[i])
    {
      assert app[k] in t.failed;
    }
  }

  /**
   * What scanning one file adds: nothing when it is skipped or no rule
   * applies; a failure finding for every applicable rule when the evaluator
   * raised; otherwise the outcome of each applicable rule. None where the
   * Python code raises.
   */
  function FileTally(rules: seq<Rule>, cfg: map<string, Json>, f: FileEntry): Option<Tally>
  {
    match Scanned(cfg, f)
    case None => None
    case Some(scanned) =>
      if !scanned then Some(Tally([], {}))
      else match ApplicableUpTo(rules, f.rel, |rules|)
        case None => None
        case Some(app) =>
          ApplicableSound(rules, f.rel, |rules|);
          if app == [] then Some(Tally([], {}))
          else match f.verdict
            case AiFailed(err) => Some(FailureTally(rules, app, f.rel, err, |app|))
            case AiAnswered(results) =>
              if !RefsHashable(results) then None
              else Some(AnsweredTally(rules, app, ApplicableSummaries(rules, app), f.rel, results, |app|))
  }

  /**
   * Scanning a file fails only rules that apply to it, and only when it is
   * scanned; each of its findings names one of those failed rules.
   */
  lemma FileTallyAttributed(rules: seq<Rule>, cfg: map<string, Json>, f: FileEntry)
    requires FileTally(rules, cfg, f).Some?
    ensures Attributed(rules, FileTally(rules, cfg, f).value)
    ensures forall i :: i in FileTally(rules, cfg, f).value.failed ==>
              Scanned(cfg, f) == Some(true) && RuleApplies(rules[i], f.rel) == Some(true)
  {
    if Scanned(cfg, f) == Some(true) {
      var app := ApplicableUpTo(rules, f.rel, |rules|).value;
      ApplicableSound(rules, f.rel, |rules|);
      ApplicableApplies(rules, f.rel, |rules|);
      if app != [] {
        match f.verdict {
          case AiFailed(err) =>
            FailureTallyFailed(rules, app, f.rel, err, |app|);
            FailureTallyAttributed(rules, app, f.rel, err, |app|);
          case AiAnswered(results) =>
            if RefsHashable(results) {
              var summaries := ApplicableSummaries(rules, app);
              AnsweredTallyFailed(rules, app, summaries, f.rel, results, |app|);
              AnsweredTallyAttributed(rules, app, summaries, f.rel, results, |app|);
            }
        }
      }
    }
  }

  /**
   * When the evaluator raises for a file, every applicable rule fails and
   * gets exactly one finding, at line 1, column 0, in rule order.
   */
  lemma AiFailureFailsEveryApplicableRule(rules: seq<Rule>, cfg: map<string, Json>, f: FileEntry)
    requires f.verdict.AiFailed? && Scanned(cfg, f) == Some(true)
    requires ApplicableUpTo(rules, f.rel, |rules|).Some?
    ensures var app := ApplicableUpTo(rules, f.rel, |rules|).value;
      var t := FileTally(rules, cfg, f).value;
      && (forall i :: i in t.failed <==> i in app)
      && |t.findings| == |app|
      && forall k :: 0 <= k < |app| ==> t.findings[k] == FailureFinding(rules[app[k]], f.rel, f.verdict.error)
  {
    var app := ApplicableUpTo(rules, f.rel, |rules|).value;
    FailureTallyFailed(rules, app, f.rel, f.verdict.error, |app|);
    FailureTallyFindings(rules, app, f.rel, f.verdict.error, |app|);
  }

  /** The per-file tallies of the loop over files. */
  function FileTallies(rules: seq<Rule>, cfg: map<string, Json>, files: seq<FileEntry>): seq<Option<Tally>>
  {
    seq(|files|, k requires 0 <= k < |files| => FileTally(rules, cfg, files[k]))
  }

  /** The first `n` tallies added up in order; None once one of them is None. */
  function Combine(tallies: seq<Option<Tally>>, n: nat): Option<Tally>
    requires n <= |tallies|
  {
    if n == 0 then Some(Tally([], {}))
    else
      match Combine(tallies, n - 1)
      case None => None
      case Some(prev) =>
        match tallies[n - 1]
        case None => None
        case Some(d) => Some(Tally(prev.findings + d.findings, prev.failed + d.failed))
  }

  /** Once one tally is None, every longer combination is None. */
  lemma {:induction false} CombineRaisedStays(tallies: seq<Option<Tally>>, n: nat, m: nat)
    requires n <= m <= |tallies| && Combine(tallies, n).None?
    ensures Combine(tallies, m).None?
    decreases m - n
  {
    if n < m {
      CombineRaisedStays(tallies, n + 1, m);
    }
  }

  /**
   * A combination that succeeds had every tally succeed; its failed set is
   * the union of theirs, and its findings are attributed when theirs are.
   */
  lemma {:induction false} CombineParts(rules: seq<Rule>, tallies: seq<Option<Tally>>, n: nat)
    requires n <= |tallies| && Combine(tallies, n).Some?
    ensures forall k :: 0 <= k < n ==> tallies[k].Some?
    ensures forall i :: i in Combine(tallies, n).value.failed <==> exists k :: 0 <= k < n && i in tallies[k].value.failed
    ensures (forall k :: 0 <= k < n ==> Attributed(rules, tallies[k].value)) ==> Attributed(rules, Combine(tallies, n).value)
  {
    if n > 0 {
      CombineParts(rules, tallies, n - 1);
      var prev := Combine(tallies, n - 1).value;
      var d := tallies[n - 1].value;
      if forall k :: 0 <= k < n ==> Attributed(rules, tallies[k].value) {
        AttributedJoin(rules, prev, d);
      }
    }
  }

  /** The tally of the first `n` files, in order; None once a file raises. */
  function ScanUpTo(rules: seq<Rule>, cfg: map<string, Json>, files: seq<FileEntry>, n: nat): Option<Tally>
    requires n <= |files|
  {
    Combine(FileTallies(rules, cfg, files), n)
  }

  /** Every finding of the scan names a failed rule, and only rules applying to a scanned file fail. */
  lemma ScanAttributed(rules: seq<Rule>, cfg: map<string, Json>, files: seq<FileEntry>, n: nat)
    requires n <= |files| && ScanUpTo(rules, cfg, files, n).Some?
    ensures Attributed(rules, ScanUpTo(rules, cfg, files, n).value)
    ensures forall i :: i in ScanUpTo(rules, cfg, files, n).value.failed ==>
              exists k :: 0 <= k < n && Scanned(cfg, files[k]) == Some(true) && RuleApplies(rules[i], files[k].rel) == Some(true)
  {
    var tallies := FileTallies(rules, cfg, files);
    CombineParts(rules, tallies, n);
    forall k | 0 <= k < n
      ensures Attributed(rules, tallies[k].value)
      ensures forall i :: i in tallies[k].value.failed ==>
                Scanned(cfg, files[k]) == Some(true) && RuleApplies(rules[i], files[k].rel) == Some(true)
    {
      FileTallyAttributed(rules, cfg, files[k]);
    }
  }

  /** A rule that applies to none of the first `n` scanned files never fails. */
  lemma UnappliedRuleNeverFails(rules: seq<Rule>, cfg: map<string, Json>, files: seq<FileEntry>, n: nat, i: nat)
    requires n <= |files| && i < |rules|
    requires forall k :: 0 <= k < n && Scanned(cfg, files[k]) == Some(true) ==> RuleApplies(rules[i], files[k].rel) != Some(true)
    requires ScanUpTo(rules, cfg, files, n).Some?
    ensures i !in ScanUpTo(rules, cfg, files, n).value.failed
  {
    ScanAttributed(rules, cfg, files, n);
  }

  /** `[_rule_name(rule) for idx, rule in enumerate(rules) if idx not in failed]` over the first `n` rules. */
  function PassedNames(rules: seq<Rule>, failed: set<nat>, n: nat): (names: seq<string>)
    requires n <= |rules|
    ensures |names| <= n
  {
    if n == 0 then []
    else
      var prev := PassedNames(rules, failed, n - 1);
      if n - 1 in failed then prev else prev + [RuleName(rules[n - 1])]
  }

  /** The failed indexes below `n`. */
  function FailedBelow(failed: set<nat>, n: nat): (s: set<nat>)
    ensures forall i :: i in s <==> i in failed && i < n
  {
    set i | i in failed && i < n
  }

  /** One name per passing rule: the names count what is left after the failed rules. */
  lemma {:induction false} PassedNamesCount(rules: seq<Rule>, failed: set<nat>, n: nat)
    requires n <= |rules|
    ensures |PassedNames(rules, failed, n)| + |FailedBelow(failed, n)| == n
  {
    if n > 0 {
      PassedNamesCount(rules, failed, n - 1);
      if n - 1 in failed {
        assert FailedBelow(failed, n) == FailedBelow(failed, n - 1) + {n - 1};
      } else {
        assert FailedBelow(failed, n) == FailedBelow(failed, n - 1);
      }
    }
  }

  /** A rule's name is listed when its index did not fail. */
  lemma {:induction false} PassedNamesListsPassing(rules: seq<Rule>, failed: set<nat>, n: nat)
    requires n <= |rules|
    ensures forall i :: 0 <= i < n && i !in failed ==> RuleName(rules[i]) in PassedNames(rules, failed, n)
  {
    if n > 0 {
      PassedNamesListsPassing(rules, failed, n - 1);
      var prev := PassedNames(rules, failed, n - 1);
      if n - 1 !in failed {
        assert PassedNames(rules, failed, n) == prev + [RuleName(rules[n - 1])];
        assert forall x :: x in prev ==> x in prev + [RuleName(rules[n - 1])];
      }
    }
  }

  /** Every listed name is the name of a rule whose index did not fail. */
  lemma {:induction false} PassedNamesOnlyPassing(rules: seq<Rule>, failed: set<nat>, n: nat)
    requires n <= |rules|
    ensures forall x :: x in PassedNames(rules, failed, n) ==>
              exists i :: 0 <= i < n && i !in failed && x == RuleName(rules[i])
  {
    if n > 0 {
      PassedNamesOnlyPassing(rules, failed, n - 1);
      var prev := PassedNames(rules, failed, n - 1);
      if n - 1 !in failed {
        assert PassedNames(rules, failed, n) == prev + [RuleName(rules[n - 1])];
      }
    }
  }

  /** `run_checks`: the findings and the summary, or `Raised`. */
  function ChecksSpec(cfg: map<string, Json>, files: seq<FileEntry>): RunResult
  {
    match RulesOf(cfg)
    case None => Raised
    case Some(rules) =>
      match ScanUpTo(rules, cfg, files, |files|)
      case None => Raised
      case Some(t) =>
        var names := PassedNames(rules, t.failed, |rules|);
        Report(t.findings, Summary(|rules|, |names|, names))
  }

  /**
   * The summary counts every rule once: `total_rules` is the number of
   * rules and `passed_rules + |failed| == total_rules`, the failed set
   * holding only rule indexes; every finding names a failed rule.
   */
  lemma SummaryCounts(cfg: map<string, Json>, files: seq<FileEntry>)
    requires ChecksSpec(cfg, files).Report?
    ensures var rules := RulesOf(cfg).value;
      var t := ScanUpTo(rules, cfg, files, |files|).value;
      var s := ChecksSpec(cfg, files).summary;
      && s.totalRules == |rules|
      && s.passedRules == |s.passedRuleNames|
      && Attributed(rules, t)
      && s.passedRules + |t.failed| == s.totalRules
  {
    var rules := RulesOf(cfg).value;
    var t := ScanUpTo(rules, cfg, files, |files|).value;
    ScanAttributed(rules, cfg, files, |files|);
    PassedNamesCount(rules, t.failed, |rules|);
    assert FailedBelow(t.failed, |rules|) == t.failed;
  }

  /** The passed rule names are exactly the names of the rules that did not fail. */
  lemma PassedRuleNames(cfg: map<string, Json>, files: seq<FileEntry>)
    requires ChecksSpec(cfg, files).Report?
    ensures var rules := RulesOf(cfg).value;
      var t := ScanUpTo(rules, cfg, files, |files|).value;
      var names := ChecksSpec(cfg, files).summary.passedRuleNames;
      && (forall i :: 0 <= i < |rules| && i !in t.failed ==> RuleName(rules[i]) in names)
      && (forall x :: x in names ==> exists i :: 0 <= i < |rules| && i !in t.failed && x == RuleName(rules[i]))
  {
    var rules := RulesOf(cfg).value;
    var t := ScanUpTo(rules, cfg, files, |files|).value;
    PassedNamesListsPassing(rules, t.failed, |rules|);
    PassedNamesOnlyPassing(rules, t.failed, |rules|);
  }

  /** A rule that applies to none of the scanned files is listed among the passed rules. */
  lemma UnappliedRulePasses(cfg: map<string, Json>, files: seq<FileEntry>, i: nat)
    requires RulesOf(cfg).Some? && i < |RulesOf(cfg).value|
    requires forall k :: 0 <= k < |files| && Scanned(cfg, files[k]) == Some(true) ==>
               RuleApplies(RulesOf(cfg).value[i], files[k].rel) != Some(true)
    requires ChecksSpec(cfg, files).Report?
    ensures RuleName(RulesOf(cfg).value[i]) in ChecksSpec(cfg, files).summary.passedRuleNames
  {
    var rules := RulesOf(cfg).value;
    UnappliedRuleNeverFails(rules, cfg, files, |files|, i);
    PassedRuleNames(cfg, files);
  }

  /** When every rule passed, there are no findings. */
  lemma NoFindingsWhenAllPass(cfg: map<string, Json>, files: seq<FileEntry>)
    requires ChecksSpec(cfg, files).Report?
    requires ChecksSpec(cfg, files).summary.passedRules == ChecksSpec(cfg, files).summary.totalRules
    ensures ChecksSpec(cfg, files).findings == []
  {
    SummaryCounts(cfg, files);
    var rules := RulesOf(cfg).value;
    var t := ScanUpTo(rules, cfg, files, |files|).value;
    AttributedFindingsFail(rules, t);
  }

  /** The loop building `applicable`: rules whose globs match `rel`, in order; None where the loop raises. */
  method ApplicableRules(rules: seq<Rule>, rel: string) returns (r: Option<seq<nat>>, summaries: seq<map<string, Json>>)
    ensures r == ApplicableUpTo(rules, rel, |rules|)
    ensures r.Some? ==> |summaries| == |r.value|
    ensures r.Some? ==> forall k :: 0 <= k < |summaries| ==>
              r.value[k] < |rules| && TaskBase(rules[r.value[k]]).Some? && summaries[k] == SummaryOf(rules, r.value[k])
  {
    var applicable: seq<nat> := [];
    summaries := [];
    for idx := 0 to |rules|
      invariant ApplicableUpTo(rules, rel, idx) == Some(applicable)
      invariant |summaries| == |applicable|
      invariant forall k :: 0 <= k < |summaries| ==>
        applicable[k] < |rules| && TaskBase(rules[applicable[k]]).Some? && summaries[k] == SummaryOf(rules, applicable[k])
    {
      var applies := RuleApplies(rules[idx], rel);
      if applies.None? {
        ApplicableStaysNone(rules, rel, idx + 1, |rules|);
        return None, summaries;
      }
      if !applies.value {
        continue;
      }
      if TaskBase(rules[idx]).None? {
        ApplicableStaysNone(rules, rel, idx + 1, |rules|);
        return None, summaries;
      }
      applicable := applicable + [idx];
      summaries := summaries + [SummaryOf(rules, idx)];
    }
    return Some(applicable), summaries;
  }


  /** Once building `applicable` raises, it raises for every longer prefix of the rules. */
  lemma {:induction false} ApplicableStaysNone(rules: seq<Rule>, rel: string, n: nat, m: nat)
    requires n <= m <= |rules| && ApplicableUpTo(rules, rel, n).None?
    ensures ApplicableUpTo(rules, rel, m).None?
    decreases m - n
  {
    if n < m {
      ApplicableStaysNone(rules, rel, n + 1, m);
    }
  }

  /** The loop over a violations list: one finding per dict entry, in order. */
  method CollectViolations(c: Context, vs: seq<Json>) returns (fs: seq<Finding>)
    ensures fs == ViolationFindings(c, vs, |vs|)
  {
    fs := [];
    for i := 0 to |vs|
      invariant fs == ViolationFindings(c, vs, i)
    {
      if !vs[i].JObj? {
        continue;
      }
      fs := fs + [ViolationFinding(c, vs[i].fields)];
    }
  }

  /** The body of the loop over `applicable` for one rule: its findings and whether it failed. */
  method EvaluateRule(rule: Rule, summary: map<string, Json>, rel: string, result: Option<map<string, Json>>)
    returns (fs: seq<Finding>, failed: bool)
    ensures (fs, failed) == RuleOutcome(rule, summary, rel, result)
  {
    var name := RuleName(rule);
    if result.None? {
      return [Finding(name, rel, 1, 0, JStr(MissingMessage), Get(summary, "suggestedFix"))], true;
    }
    var res := result.value;
    if Truthy(Get(res, "compliant")) {
      return [], false;
    }
    var c := Context(name, rel, res, summary, rule);
    var vs := Or(Get(res, "violations"), JList([]));
    if vs.JList? && vs.items != [] {
      fs := CollectViolations(c, vs.items);
      return fs, true;
    }
    return [ExplanationFinding(c)], true;
  }

  /** One pass of the loop over `applicable`: the result for rule `i`, then its outcome. */
  method EvaluateApplicable(rules: seq<Rule>, i: nat, summary: map<string, Json>, rel: string, results: seq<Json>) returns (d: Tally)
    requires i < |rules|
    ensures d == RuleTally(rules, i, summary, rel, results)
  {
    var result := LastResultFor(results, i, |results|);
    var fs, failed := EvaluateRule(rules[i], summary, rel, result);
    d := Tally(fs, if failed then {i} else {});
  }

  /**
   * One pass of the loop over files: the findings it adds and the rules it
   * fails, or None where the Python code raises.
   */
  method EvaluateFile(rules: seq<Rule>, cfg: map<string, Json>, f: FileEntry) returns (r: Option<Tally>)
    ensures r == FileTally(rules, cfg, f)
  {
    var scanned := Scanned(cfg, f);
    if scanned.None? {
      return None;
    }
    if !scanned.value {
      return Some(Tally([], {}));
    }
    var app, summaries := ApplicableRules(rules, f.rel);
    if app.None? {
      return None;
    }
    var applicable := app.value;
    ApplicableSound(rules, f.rel, |rules|);
    if applicable == [] {
      return Some(Tally([], {}));
    }
    match f.verdict {
      case AiFailed(err) =>
        var t := EvaluateFailure(rules, applicable, f.rel, err);
        return Some(t);
      case AiAnswered(results) =>
        if !RefsHashable(results) {
          return None;
        }
        assert summaries == ApplicableSummaries(rules, applicable);
        var t := EvaluateAnswered(rules, applicable, summaries, f.rel, results);
        return Some(t);
    }
  }

  /** The `except` branch: every applicable rule fails with the evaluator's message. */
  method EvaluateFailure(rules: seq<Rule>, applicable: seq<nat>, rel: string, err: string) returns (t: Tally)
    requires forall k :: 0 <= k < |applicable| ==> applicable[k] < |rules|
    ensures t == FailureTally(rules, applicable, rel, err, |applicable|)
  {
    var findings: seq<Finding> := [];
    var failed: set<nat> := {};
    for j := 0 to |applicable|
      invariant Tally(findings, failed) == FailureTally(rules, applicable, rel, err, j)
    {
      var idx := applicable[j];
      failed := failed + {idx};
      findings := findings + [FailureFinding(rules[idx], rel, err)];
    }
    return Tally(findings, failed);
  }

  /** The loop over `applicable` once the evaluator answered with `results`. */
  method EvaluateAnswered(rules: seq<Rule>, applicable: seq<nat>, summaries: seq<map<string, Json>>, rel: string, results: seq<Json>) returns (t: Tally)
    requires |applicable| == |summaries|
    requires forall k :: 0 <= k < |applicable| ==> applicable[k] < |rules|
    ensures t == AnsweredTally(rules, applicable, summaries, rel, results, |applicable|)
  {
    var findings: seq<Finding> := [];
    var failed: set<nat> := {};
    for j := 0 to |applicable|
      invariant Tally(findings, failed) == AnsweredTally(rules, applicable, summaries, rel, results, j)
    {
      var d := EvaluateApplicable(rules, applicable[j], summaries[j], rel, results);
      findings := findings + d.findings;
      failed := failed + d.failed;
    }
    return Tally(findings, failed);
  }

  /** The loop over files of `run_checks`: the findings and failed rules, or None where it raises. */
  method ScanFiles(rules: seq<Rule>, cfg: map<string, Json>, files: seq<FileEntry>) returns (r: Option<Tally>)
    ensures r == ScanUpTo(rules, cfg, files, |files|)
  {
    var findings: seq<Finding> := [];
    var failed: set<nat> := {};
    for n := 0 to |files|
      invariant Combine(FileTallies(rules, cfg, files), n) == Some(Tally(findings, failed))
    {
      var d := EvaluateFile(rules, cfg, files[n]);
      assert FileTallies(rules, cfg, files)[n] == d;
      if d.None? {
        CombineRaisedStays(FileTallies(rules, cfg, files), n + 1, |files|);
        return None;
      }
      findings := findings + d.value.findings;
      failed := failed + d.value.failed;
    }
    return Some(Tally(findings, failed));
  }

  /** `run_checks`: the rule list, the loop over files, then the summary. */
  method RunChecks(cfg: map<string, Json>, files: seq<FileEntry>) returns (r: RunResult)
    ensures r == ChecksSpec(cfg, files)
  {
    var rulesOrNone := RulesOf(cfg);
    if rulesOrNone.None? {
      return Raised;
    }
    var rules := rulesOrNone.value;
    var scan := ScanFiles(rules, cfg, files);
    if scan.None? {
      return Raised;
    }
    var names := PassedNames(rules, scan.value.failed, |rules|);
    return Report(scan.value.findings, Summary(|rules|, |names|, names));
  }

}

=== FILE: EnvFile.dfy ===
/**
 * The validator's `.env` loading: each line of the file is parsed into a
 * key and a value, and the pair is added to the process environment unless
 * the key is already set. Also the reading of `VALIDATOR_MAX_CODE_CHARS`
 * that bounds how much source is sent with each request.
 */
module EnvFile {
  import opened Wrappers
  import opened PyText

  /** The two quote characters `load_env_file` removes from around a value. */
  predicate IsQuote(c: char)
  {
    c == '\'' || c == '"'
  }

  /**
   * One pair of matching surrounding quotes removed: `value[1:-1]` when the
   * value starts with a quote and ends with the same character. A lone quote
   * character becomes the empty string, as the Python slice does.
   */
  function Unquote(v: string): (r: string)
    ensures v != [] && IsQuote(v[0]) && v[0] == v[|v| - 1] ==> |r| == if |v| >= 2 then |v| - 2 else 0
    ensures !(v != [] && IsQuote(v[0]) && v[0] == v[|v| - 1]) ==> r == v
  {
    if v != [] && IsQuote(v[0]) && v[0] == v[|v| - 1] then
      if |v| >= 2 then v[1..|v| - 1] else []
    else v
  }

  /**
   * A stripped line: blank lines, comment lines, lines without `=` and lines
   * whose key strips to nothing yield no pair; otherwise the line is split
   * at its first `=` and the stripped value is unquoted.
   */
  function ParseStripped(line: string): (r: Option<(string, string)>)
    ensures line == [] || line[0] == '#' || '=' !in line ==> r.None?
    ensures r.Some? ==> r.value.0 != [] && '=' !in r.value.0 && NoSpaceAtEnds(r.value.0)
  {
    if line == [] || line[0] == '#' then None
    else
      var i := FindChar(line, '=');
      if i == |line| then None
      else
        var key := Strip(line[..i]);
        if key == [] then None
        else
          assert forall c :: c in key ==> c in line[..i];
          Some((key, Unquote(Strip(line[i + 1..]))))
  }

  /** One line of the file, as `load_env_file` reads it: stripped, then parsed. */
  function ParseEnvLine(raw: string): (r: Option<(string, string)>)
    ensures Strip(raw) == [] || Strip(raw)[0] == '#' || '=' !in Strip(raw) ==> r.None?
    ensures r.Some? ==> r.value.0 != [] && '=' !in r.value.0 && NoSpaceAtEnds(r.value.0)
  {
    ParseStripped(Strip(raw))
  }

  /** A line with no surrounding space is parsed as it stands. */
  lemma ParseUnpadded(line: string)
    requires NoSpaceAtEnds(line)
    ensures ParseEnvLine(line) == ParseStripped(line)
  {
    assert Strip(line) == line;
  }

  /** A stripped line is split at its first `=`. */
  lemma ParseStrippedAt(line: string, i: nat)
    requires line != [] && line[0] != '#'
    requires i < |line| && line[i] == '=' && '=' !in line[..i]
    requires Strip(line[..i]) != []
    ensures ParseStripped(line) == Some((Strip(line[..i]), Unquote(Strip(line[i + 1..]))))
  {
    forall j | 0 <= j < i ensures line[j] != '=' {
      assert line[j] == line[..i][j];
    }
    FindCharAt(line, '=', i);
  }

  /**
   * The pair a line is read as, from its stripped text: the split at the
   * first `=` of a line that is neither blank nor a comment.
   */
  lemma ParseStrippedLine(line: string, i: nat)
    requires line != [] && line[0] != '#' && NoSpaceAtEnds(line)
    requires i < |line| && line[i] == '=' && '=' !in line[..i]
    requires Strip(line[..i]) != []
    ensures ParseEnvLine(line) == Some((Strip(line[..i]), Unquote(Strip(line[i + 1..]))))
  {
    ParseUnpadded(line);
    ParseStrippedAt(line, i);
  }

  /** The pieces of `k=v` around its first `=`. */
  lemma AssignmentPieces(k: string, v: string)
    requires '=' !in k
    ensures var line := k + "=" + v;
      && |k| < |line| && line[|k|] == '=' && line[..|k|] == k && line[|k| + 1..] == v
      && (k != [] ==> line[0] == k[0])
      && line[|line| - 1] == (if v == [] then '=' else v[|v| - 1])
  {
    var line := k + "=" + v;
    assert line[..|k|] == k;
    assert line[|k| + 1..] == v;
  }

  /** The line `k=v` is read back as `k` and `v` unquoted, for a key and a value without surrounding space. */
  lemma ParseAssignment(k: string, v: string)
    requires k != [] && k[0] != '#' && '=' !in k && NoSpaceAtEnds(k)
    requires NoSpaceAtEnds(v)
    ensures ParseEnvLine(k + "=" + v) == Some((k, Unquote(v)))
  {
    AssignmentPieces(k, v);
    ParseStrippedLine(k + "=" + v, |k|);
  }

  /** The line `k=v` is read back as the pair `(k, v)` when `v` is not quoted. */
  lemma ParsePlainAssignment(k: string, v: string)
    requires k != [] && k[0] != '#' && '=' !in k && NoSpaceAtEnds(k)
    requires NoSpaceAtEnds(v)
    requires !(v != [] && IsQuote(v[0]) && v[0] == v[|v| - 1])
    ensures ParseEnvLine(k + "=" + v) == Some((k, v))
  {
    ParseAssignment(k, v);
  }

  /** A double-quoted value unquotes to its contents and has no surrounding space. */
  lemma QuotedValue(v: string)
    ensures var q := "\"" + v + "\""; Unquote(q) == v && NoSpaceAtEnds(q)
  {
    var q := "\"" + v + "\"";
    assert q[0] == '"';
    assert q[1..|q| - 1] == v;
  }

  /** The line `k="v"` is read back as `(k, v)`, whatever `v` holds. */
  lemma ParseQuotedAssignment(k: string, v: string)
    requires k != [] && k[0] != '#' && '=' !in k && NoSpaceAtEnds(k)
    ensures ParseEnvLine(k + "=\"" + v + "\"") == Some((k, v))
  {
    var q := "\"" + v + "\"";
    assert k + "=\"" + v + "\"" == k + "=" + q;
    QuotedValue(v);
    ParseAssignment(k, q);
  }

  /** What each line of a file is read as. */
  function Entries(lines: seq<string>): (es: seq<Option<(string, string)>>)
    ensures |es| == |lines|
    ensures forall i :: 0 <= i < |lines| ==> es[i] == ParseEnvLine(lines[i])
  {
    seq(|lines|, i requires 0 <= i < |lines| => ParseEnvLine(lines[i]))
  }

  /** `os.environ.setdefault(k, v)` for a pair; a line that yields no pair changes nothing. */
  function Apply(env: map<string, string>, e: Option<(string, string)>): map<string, string>
  {
    match e
    case Some((k, v)) => if k in env then env else env[k := v]
    case None => env
  }

  /** The pairs applied in turn. */
  function ApplyEntries(env: map<string, string>, es: seq<Option<(string, string)>>): map<string, string>
  {
    if es == [] then env else Apply(ApplyEntries(env, es[..|es| - 1]), es[|es| - 1])
  }

  lemma ApplyEntriesStep(env: map<string, string>, es: seq<Option<(string, string)>>, i: nat)
    requires i < |es|
    ensures ApplyEntries(env, es[..i + 1]) == Apply(ApplyEntries(env, es[..i]), es[i])
  {
    assert es[..i + 1][..i] == es[..i];
  }

  /** The keys the pairs define. */
  function DefinedKeys(es: seq<Option<(string, string)>>): set<string>
  {
    set i | 0 <= i < |es| && es[i].Some? :: es[i].value.0
  }

  /** A variable already in the environment is never overwritten. */
  lemma {:induction false} ApplyKeepsExisting(env: map<string, string>, es: seq<Option<(string, string)>>)
    ensures env.Keys <= ApplyEntries(env, es).Keys
    ensures forall k :: k in env ==> ApplyEntries(env, es)[k] == env[k]
    decreases |es|
  {
    if es != [] {
      ApplyKeepsExisting(env, es[..|es| - 1]);
    }
  }

  /** The file adds exactly the keys its lines define, and no others. */
  lemma {:induction false} ApplyKeys(env: map<string, string>, es: seq<Option<(string, string)>>)
    ensures ApplyEntries(env, es).Keys == env.Keys + DefinedKeys(es)
    decreases |es|
  {
    if es != [] {
      var init := es[..|es| - 1];
      ApplyKeys(env, init);
      var last := |es| - 1;
      forall k | k in DefinedKeys(es) ensures k in DefinedKeys(init) || (es[last].Some? && k == es[last].value.0) {
        var i :| 0 <= i < |es| && es[i].Some? && es[i].value.0 == k;
        if i < last {
          assert es[i] == init[i];
        }
      }
      forall k | k in DefinedKeys(init) ensures k in DefinedKeys(es) {
        var i :| 0 <= i < |init| && init[i].Some? && init[i].value.0 == k;
        assert es[i] == init[i];
      }
    }
  }

  /** A key no pair defines stays unset when it was unset. */
  lemma {:induction false} ApplyNotYet(env: map<string, string>, es: seq<Option<(string, string)>>, k: string)
    requires k !in env
    requires forall j :: 0 <= j < |es| ==> es[j].None? || es[j].value.0 != k
    ensures k !in ApplyEntries(env, es)
    decreases |es|
  {
    if es != [] {
      var init := es[..|es| - 1];
      assert forall j :: 0 <= j < |init| ==> init[j] == es[j];
      ApplyNotYet(env, init, k);
    }
  }

  /**
   * For a key not set beforehand, the first line that defines it decides its
   * value; later lines with the same key are ignored.
   */
  lemma {:induction false} ApplyFirstWins(env: map<string, string>, es: seq<Option<(string, string)>>, i: nat, k: string, v: string)
    requires k !in env
    requires i < |es| && es[i] == Some((k, v))
    requires forall j :: 0 <= j < i ==> es[j].None? || es[j].value.0 != k
    ensures k in ApplyEntries(env, es) && ApplyEntries(env, es)[k] == v
    decreases |es|
  {
    var init := es[..|es| - 1];
    assert forall j :: 0 <= j < |init| ==> init[j] == es[j];
    if i == |es| - 1 {
      ApplyNotYet(env, init, k);
    } else {
      ApplyFirstWins(env, init, i, k, v);
    }
  }

  /**
   * Whether `os.environ.setdefault(k, v)` raises for a pair: a key not yet
   * set is assigned through `putenv`, which refuses a key or a value holding
   * a NUL character with `ValueError`. A key already set is only read.
   */
  predicate Rejected(env: map<string, string>, e: Option<(string, string)>)
  {
    e.Some? && e.value.0 !in env && ('\0' in e.value.0 || '\0' in e.value.1)
  }

  /**
   * The lines' pairs applied in turn until one raises: the environment
   * reached and whether the loop raised. The pair that raises changes nothing.
   */
  function LoadEntries(env: map<string, string>, es: seq<Option<(string, string)>>): (map<string, string>, bool)
  {
    if es == [] then (env, false)
    else
      var prev := LoadEntries(env, es[..|es| - 1]);
      var e := es[|es| - 1];
      if prev.1 || Rejected(prev.0, e) then (prev.0, true) else (Apply(prev.0, e), false)
  }

  /** Loading one more pair, as the loop does: once raised, nothing more is applied. */
  lemma LoadEntriesStep(env: map<string, string>, es: seq<Option<(string, string)>>, i: nat)
    requires i < |es|
    ensures var prev := LoadEntries(env, es[..i]);
      LoadEntries(env, es[..i + 1]) == if prev.1 || Rejected(prev.0, es[i]) then (prev.0, true) else (Apply(prev.0, es[i]), false)
  {
    assert es[..i + 1][..i] == es[..i];
  }

  /** Once a prefix has raised, the whole file gives the same environment and raises. */
  lemma {:induction false} LoadEntriesStays(env: map<string, string>, es: seq<Option<(string, string)>>, n: nat)
    requires n <= |es| && LoadEntries(env, es[..n]).1
    ensures LoadEntries(env, es) == LoadEntries(env, es[..n])
    decreases |es|
  {
    if n < |es| {
      var init := es[..|es| - 1];
      assert init[..n] == es[..n];
      LoadEntriesStays(env, init, n);
    } else {
      assert es[..n] == es;
    }
  }

  /**
   * A file that does not raise applies every pair with `setdefault`, so the
   * properties of `ApplyEntries` above hold of it, and no pair was rejected.
   */
  lemma {:induction false} LoadEntriesApplied(env: map<string, string>, es: seq<Option<(string, string)>>)
    requires !LoadEntries(env, es).1
    ensures LoadEntries(env, es).0 == ApplyEntries(env, es)
    ensures forall j :: 0 <= j < |es| ==> !Rejected(ApplyEntries(env, es[..j]), es[j])
    decreases |es|
  {
    if es != [] {
      var last := |es| - 1;
      var init := es[..last];
      LoadEntriesApplied(env, init);
      forall j | 0 <= j < |es| ensures !Rejected(ApplyEntries(env, es[..j]), es[j]) {
        if j < last {
          assert init[..j] == es[..j];
          assert init[j] == es[j];
        }
      }
    }
  }

  /** A file none of whose pairs is rejected does not raise. */
  lemma {:induction false} LoadEntriesNoneRejected(env: map<string, string>, es: seq<Option<(string, string)>>)
    requires forall j :: 0 <= j < |es| ==> !Rejected(ApplyEntries(env, es[..j]), es[j])
    ensures LoadEntries(env, es) == (ApplyEntries(env, es), false)
    decreases |es|
  {
    if es != [] {
      var last := |es| - 1;
      var init := es[..last];
      forall j | 0 <= j < |init| ensures !Rejected(ApplyEntries(env, init[..j]), init[j]) {
        assert init[..j] == es[..j];
        assert init[j] == es[j];
      }
      LoadEntriesNoneRejected(env, init);
    }
  }

  /**
   * The first rejected pair raises: the environment keeps the pairs of the
   * lines before it, and nothing after it is applied.
   */
  lemma {:induction false} LoadEntriesRaisedAt(env: map<string, string>, es: seq<Option<(string, string)>>, i: nat)
    requires i < |es| && Rejected(ApplyEntries(env, es[..i]), es[i])
    requires forall j :: 0 <= j < i ==> !Rejected(ApplyEntries(env, es[..j]), es[j])
    ensures LoadEntries(env, es) == (ApplyEntries(env, es[..i]), true)
    decreases |es|
  {
    var last := |es| - 1;
    var init := es[..last];
    if i == last {
      forall j | 0 <= j < |init| ensures !Rejected(ApplyEntries(env, init[..j]), init[j]) {
        assert init[..j] == es[..j];
        assert init[j] == es[j];
      }
      LoadEntriesNoneRejected(env, init);
    } else {
      assert init[..i] == es[..i];
      assert init[i] == es[i];
      forall j | 0 <= j < i ensures !Rejected(ApplyEntries(env, init[..j]), init[j]) {
        assert init[..j] == es[..j];
        assert init[j] == es[j];
      }
      LoadEntriesRaisedAt(env, init, i);
    }
  }

  /** A file without NUL characters never raises, and applies every pair. */
  lemma {:induction false} LoadEntriesNulFree(env: map<string, string>, es: seq<Option<(string, string)>>)
    requires forall j :: 0 <= j < |es| ==> es[j].None? || ('\0' !in es[j].value.0 && '\0' !in es[j].value.1)
    ensures LoadEntries(env, es) == (ApplyEntries(env, es), false)
    decreases |es|
  {
    if es != [] {
      var init := es[..|es| - 1];
      assert forall j :: 0 <= j < |init| ==> init[j] == es[j];
      LoadEntriesNulFree(env, init);
    }
  }

  /**
   * The line `A=x\0y` after `B=1`, with neither variable set: `B` is set,
   * then `setdefault` of `A` raises, and `A` stays unset.
   */
  lemma NulValueRaises(env: map<string, string>)
    requires "A" !in env && "B" !in env
    ensures LoadEntries(env, [Some(("B", "1")), Some(("A", "x\0y"))]) == (env["B" := "1"], true)
  {
    var es := [Some(("B", "1")), Some(("A", "x\0y"))];
    assert es[..1][..0] == [];
    assert es[..|es| - 1] == [Some(("B", "1"))];
    assert LoadEntries(env, es[..|es| - 1]) == (env["B" := "1"], false) by {
      assert "B"[0] != '\0' && "1"[0] != '\0';
    }
    assert "A" !in env["B" := "1"] by {
      assert "A"[0] != "B"[0];
    }
    assert "x\0y"[1] == '\0';
  }

  /** A NUL in the value of a variable already set raises nothing: `setdefault` only reads it. */
  lemma NulValueOfSetKeyIgnored(env: map<string, string>, v: string)
    requires "A" in env
    ensures LoadEntries(env, [Some(("A", v))]) == (env, false)
  {
    assert [Some(("A", v))][..0] == [];
  }

  /**
   * What `is_file()` and `read_text(encoding="utf-8")` give: not a file, a
   * read that raises `OSError`, bytes that are not UTF-8, or the text.
   */
  datatype EnvRead = NotAFile | ReadFailed | NotUtf8 | Text(text: string)

  /** The process environment `load_env_file` writes into. */
  class Environ {
    var vars: map<string, string>

    constructor(initial: map<string, string>)
      ensures vars == initial
    {
      vars := initial;
    }

    /**
     * `load_env_file`, given what reading the file gave: nothing changes
     * when it is not a file or the read raises `OSError`; bytes that are
     * not UTF-8 raise `UnicodeDecodeError` out of the call (`raised`),
     * also before anything changes. The text's pairs are applied line by
     * line; a `setdefault` that raises on a NUL character ends the call
     * with `raised`, keeping the pairs of the lines before it.
     */
    method LoadEnvFile(read: EnvRead) returns (raised: bool)
      modifies this
      ensures raised <==> read.NotUtf8? || (read.Text? && LoadEntries(old(vars), Entries(SplitLines(read.text))).1)
      ensures !read.Text? ==> vars == old(vars)
      ensures read.Text? ==> vars == LoadEntries(old(vars), Entries(SplitLines(read.text))).0
    {
      raised := read.NotUtf8?;
      if read.Text? {
        var lines := SplitLines(read.text);
        var i := 0;
        while i < |lines|
          invariant 0 <= i <= |lines|
          invariant LoadEntries(old(vars), Entries(lines)[..i]) == (vars, false)
        {
          var parsed := ParseEnvLine(lines[i]);
          LoadStep(old(vars), lines, i);
          if Rejected(vars, parsed) {
            LoadEntriesStays(old(vars), Entries(lines), i + 1);
            raised := true;
            return;
          }
          if parsed.Some? {
            var k := parsed.value.0;
            if k !in vars {
              vars := vars[k := parsed.value.1];
            }
          }
          i := i + 1;
        }
        assert Entries(lines)[..i] == Entries(lines);
      }
    }
  }

  /** Loading one more line applies that line's pair, unless it or an earlier one raised. */
  lemma LoadStep(env: map<string, string>, lines: seq<string>, i: nat)
    requires i < |lines|
    ensures var prev := LoadEntries(env, Entries(lines)[..i]); var e := ParseEnvLine(lines[i]);
      LoadEntries(env, Entries(lines)[..i + 1]) == if prev.1 || Rejected(prev.0, e) then (prev.0, true) else (Apply(prev.0, e), false)
  {
    LoadEntriesStep(env, Entries(lines), i);
  }

  const DefaultMaxCodeChars: int := 8000

  /**
   * `MAX_CODE_CHARS` as `refresh_openai_settings` sets it: the integer value
   * of `VALIDATOR_MAX_CODE_CHARS` when set and parseable, else 8000.
   */
  function MaxCodeChars(env: map<string, string>): (n: int)
    ensures "VALIDATOR_MAX_CODE_CHARS" !in env ==> n == DefaultMaxCodeChars
    ensures "VALIDATOR_MAX_CODE_CHARS" in env && ParseInt(env["VALIDATOR_MAX_CODE_CHARS"]).Some? ==>
              n == ParseInt(env["VALIDATOR_MAX_CODE_CHARS"]).value
    ensures "VALIDATOR_MAX_CODE_CHARS" in env && ParseInt(env["VALIDATOR_MAX_CODE_CHARS"]).None? ==>
              n == DefaultMaxCodeChars
  {
    if "VALIDATOR_MAX_CODE_CHARS" !in env then DefaultMaxCodeChars
    else match ParseInt(env["VALIDATOR_MAX_CODE_CHARS"])
      case Some(n) => n
      case None => DefaultMaxCodeChars
  }

  /** Setting the variable to the text of any integer makes that integer the limit. */
  lemma MaxCodeCharsOfSetting(env: map<string, string>, n: int)
    ensures MaxCodeChars(env["VALIDATOR_MAX_CODE_CHARS" := IntToString(n)]) == n
  {
    ParseIntOfIntToString(n);
  }
}

=== FILE: Glob.dfy ===
/**
 * `fnmatch.fnmatch` restricted to the wildcards `*` (any run of characters,
 * `/` included) and `?` (one character); every other pattern character
 * matches itself.
 */
module Glob {

  /** `fnmatch.fnmatch(name, pat)`: a `*` takes any run of characters, a `?` one character. */
  function Match(name: string, pat: string): bool
    decreases |pat| + |name|
  {
    if pat == [] then name == []
    else if pat[0] == '*' then Match(name, pat[1..]) || (name != [] && Match(name[1..], pat))
    else name != [] && (pat[0] == '?' || pat[0] == name[0]) && Match(name[1..], pat[1..])
  }

  /** The pattern `"*"` matches every name, so a rule globbed `["*"]` applies everywhere. */
  lemma {:induction false} StarMatchesAll(name: string)
    ensures Match(name, "*")
    decreases |name|
  {
    if name != [] {
      StarMatchesAll(name[1..]);
    }
  }

  /** A pattern without wildcards. */
  predicate IsLiteral(pat: string)
  {
    forall i :: 0 <= i < |pat| ==> pat[i] != '*' && pat[i] != '?'
  }

  /** A pattern without wildcards matches exactly the name equal to it. */
  lemma {:induction false} LiteralMatchesItself(name: string, pat: string)
    requires IsLiteral(pat)
    ensures Match(name, pat) <==> name == pat
    decreases |pat|
  {
    if pat != [] && name != [] {
      LiteralMatchesItself(name[1..], pat[1..]);
      assert name == [name[0]] + name[1..];
      assert pat == [pat[0]] + pat[1..];
    }
  }

  /** `any(fnmatch(name, p) for p in pats)`. */
  function AnyMatch(name: string, pats: seq<string>): (r: bool)
    ensures r <==> exists i :: 0 <= i < |pats| && Match(name, pats[i])
  {
    if pats == [] then false
    else if Match(name, pats[0]) then true
    else
      var r := AnyMatch(name, pats[1..]);
      assert forall i :: 1 <= i < |pats| ==> pats[i] == pats[1..][i - 1];
      r
  }
}

=== FILE: PyJson.dfy ===
/**
 * Values as the Python code sees them after `json.loads` / `yaml.safe_load`:
 * None, booleans, ints, strings, lists and dicts with string keys, with
 * Python's truthiness, `or`, `dict.get` and `str()`.
 */
module PyJson {
  import opened PyText

  datatype Json =
    | JNull
    | JBool(b: bool)
    | JInt(i: int)
    | JStr(s: string)
    | JList(items: seq<Json>)
    | JObj(fields: map<string, Json>)

  /** Python's `bool(value)`. */
  predicate Truthy(j: Json)
  {
    match j
    case JNull => false
    case JBool(b) => b
    case JInt(i) => i != 0
    case JStr(s) => s != []
    case JList(xs) => xs != []
    case JObj(m) => m != map[]
  }

  /** Python's `a or b`: the first operand when it is truthy, else the second. */
  function Or(a: Json, b: Json): (r: Json)
    ensures Truthy(a) ==> r == a
    ensures !Truthy(a) ==> r == b
  {
    if Truthy(a) then a else b
  }

  /** `d.get(k)`: the stored value, or None when the key is absent. */
  function Get(d: map<string, Json>, k: string): Json
  {
    if k in d then d[k] else JNull
  }

  /** `d.get(k, default)`. */
  function GetOr(d: map<string, Json>, k: string, default: Json): Json
  {
    if k in d then d[k] else default
  }

  /**
   * `str(value)`. Lists and dicts are rendered as a fixed placeholder (their
   * element text is not modelled).
   */
  function PyStr(j: Json): (s: string)
    ensures j.JStr? ==> s == j.s
    ensures Truthy(j) ==> s != []
  {
    match j
    case JNull => "None"
    case JBool(b) => if b then "True" else "False"
    case JInt(i) => IntToString(i)
    case JStr(s) => s
    case JList(xs) => if xs == [] then "[]" else "[...]"
    case JObj(m) => if m == map[] then "{}" else "{...}"
  }

  /** The Python text of a bool, as an f-string writes it. */
  function BoolText(b: bool): string
  {
    if b then "True" else "False"
  }
}

=== FILE: PyPath.dfy ===
/** The two `pathlib.PurePosixPath` properties the code reads: `name` and `suffix`. */
module PyPath {
  import opened PyText

  /** `s.split("/")`, keeping empty pieces as Python does. */
  function SplitSlash(s: string): (parts: seq<string>)
    ensures |parts| >= 1
    decreases |s|
  {
    var i := FindChar(s, '/');
    if i == |s| then [s] else [s[..i]] + SplitSlash(s[i + 1..])
  }

  /** No piece of a split holds a slash. */
  lemma {:induction false} SplitSlashPieces(s: string)
    ensures forall k :: 0 <= k < |SplitSlash(s)| ==> '/' !in SplitSlash(s)[k]
    decreases |s|
  {
    var i := FindChar(s, '/');
    if i < |s| {
      SplitSlashPieces(s[i + 1..]);
    }
  }

  /** The pieces of a split joined with slashes give back the string. */
  lemma {:induction false} JoinSplitSlash(s: string)
    ensures JoinSlash(SplitSlash(s)) == s
    decreases |s|
  {
    var i := FindChar(s, '/');
    if i < |s| {
      JoinSplitSlash(s[i + 1..]);
      assert s == s[..i] + "/" + s[i + 1..];
    }
  }

  /** `"/".join(parts)`. */
  function JoinSlash(parts: seq<string>): (s: string)
    requires |parts| >= 1
  {
    if |parts| == 1 then parts[0] else parts[0] + "/" + JoinSlash(parts[1..])
  }

  /** The components pathlib keeps: empty pieces and `.` are dropped. */
  function Components(parts: seq<string>): (cs: seq<string>)
    ensures |cs| <= |parts|
  {
    if parts == [] then []
    else
      var rest := Components(parts[1..]);
      if parts[0] == [] || parts[0] == "." then rest else [parts[0]] + rest
  }

  /** The kept components are non-empty, never `.`, and each is one of the pieces. */
  lemma {:induction false} ComponentsKept(parts: seq<string>)
    ensures forall k :: 0 <= k < |Components(parts)| ==>
              Components(parts)[k] != [] && Components(parts)[k] != "." && Components(parts)[k] in parts
  {
    if parts != [] {
      ComponentsKept(parts[1..]);
    }
  }

  /** `PurePosixPath(p).name`: the last component, or `""`. */
  function Name(p: string): (n: string)
  {
    var cs := Components(SplitSlash(p));
    if cs == [] then [] else cs[|cs| - 1]
  }

  /** A name never holds a slash, and is empty only for a path of slashes and dots. */
  lemma NameNoSlash(p: string)
    ensures '/' !in Name(p)
    ensures Name(p) != "."
  {
    var parts := SplitSlash(p);
    SplitSlashPieces(p);
    ComponentsKept(parts);
  }

  /** The index of the last `c` in `s`, or `|s|` when there is none. */
  function RFindChar(s: string, c: char): (i: nat)
    ensures i <= |s|
    ensures i < |s| ==> s[i] == c
  {
    if s == [] then 0
    else if s[|s| - 1] == c then |s| - 1
    else
      var j := RFindChar(s[..|s| - 1], c);
      if j == |s| - 1 then |s| else j
  }

  /** `RFindChar` finds the last `c`: none follows it, and none exists when it reports `|s|`. */
  lemma {:induction false} RFindCharLast(s: string, c: char)
    ensures var i := RFindChar(s, c);
      (i < |s| ==> forall k :: i < k < |s| ==> s[k] != c)
      && (i == |s| ==> c !in s)
  {
    if s != [] && s[|s| - 1] != c {
      RFindCharLast(s[..|s| - 1], c);
      assert s == s[..|s| - 1] + [s[|s| - 1]];
    }
  }

  /** The last `c` of `s` is where `RFindChar` finds it. */
  lemma {:induction false} RFindCharAt(s: string, c: char, i: nat)
    requires i < |s| && s[i] == c
    requires forall k :: i < k < |s| ==> s[k] != c
    ensures RFindChar(s, c) == i
  {
    if i < |s| - 1 {
      RFindCharAt(s[..|s| - 1], c, i);
    }
  }

  /**
   * `PurePosixPath(p).suffix`: from the last dot of the name, provided that
   * dot is neither the name's first nor its last character; otherwise `""`.
   */
  function Suffix(p: string): (r: string)
    ensures |r| <= |Name(p)|
  {
    var n := Name(p);
    var i := RFindChar(n, '.');
    if 0 < i < |n| - 1 then n[i..] else []
  }

  /** A non-empty suffix is a dot and at least one more character, with no other dot and no slash. */
  lemma SuffixShape(p: string)
    ensures var r := Suffix(p);
      r != [] ==> |r| >= 2 && r[0] == '.' && '.' !in r[1..] && '/' !in r
  {
    var n := Name(p);
    NameNoSlash(p);
    RFindCharLast(n, '.');
  }

  /**
   * The root `PurePosixPath` keeps: `"//"` for exactly two leading slashes,
   * `"/"` for one or more than two, else nothing.
   */
  function Root(p: string): (r: string)
    ensures r == [] || r == "/" || r == "//"
  {
    if |p| >= 1 && p[0] == '/' then
      if |p| >= 2 && p[1] == '/' && !(|p| >= 3 && p[2] == '/') then "//" else "/"
    else []
  }

  /** `str(PurePosixPath(p))`: the root, then the kept components joined by `/`; `"."` when both are empty. */
  function PathStr(p: string): string
  {
    var cs := Components(SplitSlash(p));
    if cs == [] then (if Root(p) == [] then "." else Root(p))
    else Root(p) + JoinSlash(cs)
  }

  /** A relative path without empty or `.` pieces is its own text. */
  lemma PathStrOfPlain(p: string)
    requires p != [] && p[0] != '/'
    requires forall k :: 0 <= k < |SplitSlash(p)| ==> SplitSlash(p)[k] != [] && SplitSlash(p)[k] != "."
    ensures PathStr(p) == p
  {
    var parts := SplitSlash(p);
    ComponentsOfClean(parts);
    JoinSplitSlash(p);
  }

  /** Components keeps a list that has no empty and no `.` piece. */
  lemma {:induction false} ComponentsOfClean(parts: seq<string>)
    requires forall k :: 0 <= k < |parts| ==> parts[k] != [] && parts[k] != "."
    ensures Components(parts) == parts
  {
    if parts != [] {
      ComponentsOfClean(parts[1..]);
    }
  }
}

=== FILE: PyText.dfy ===
/**
 * The Python string operations the validator and the backend rely on:
 * `str.strip`, `str.lstrip(chars)`, `str.splitlines` (with and without
 * `keepends`), `sep.join`, `str(int)`, `int(str)`, `str.replace` of one
 * character and the ASCII part of `str.lower`.
 */
module PyText {
  import opened Wrappers

  /** Python's `str.isspace` for one character (the full Unicode set Python uses). */
  predicate IsSpace(c: char)
  {
    || ('\t' <= c <= '\r')
    || ('\U{1c}' <= c <= '\U{1f}')
    || c == ' ' || c == '\U{85}' || c == '\U{a0}' || c == '\U{1680}'
    || ('\U{2000}' <= c <= '\U{200a}')
    || c == '\U{2028}' || c == '\U{2029}' || c == '\U{202f}' || c == '\U{205f}' || c == '\U{3000}'
  }

  /** The characters at which Python's `str.splitlines` ends a line. */
  predicate IsLineBreak(c: char)
  {
    || ('\n' <= c <= '\r')
    || ('\U{1c}' <= c <= '\U{1e}')
    || c == '\U{85}' || c == '\U{2028}' || c == '\U{2029}'
  }

  predicate NoSpaceAtEnds(s: string)
  {
    s != [] ==> !IsSpace(s[0]) && !IsSpace(s[|s| - 1])
  }

  /** The end of the run of whitespace that starts at `i`. */
  function SpaceRunEnd(s: string, i: nat): (j: nat)
    requires i <= |s|
    ensures i <= j <= |s|
    ensures forall k :: i <= k < j ==> IsSpace(s[k])
    ensures j < |s| ==> !IsSpace(s[j])
    decreases |s| - i
  {
    if i < |s| && IsSpace(s[i]) then SpaceRunEnd(s, i + 1) else i
  }

  /** The start of the run of whitespace that ends at `j`, not going below `lo`. */
  function SpaceRunStart(s: string, lo: nat, j: nat): (i: nat)
    requires lo <= j <= |s|
    ensures lo <= i <= j
    ensures forall k :: i <= k < j ==> IsSpace(s[k])
    ensures i > lo ==> !IsSpace(s[i - 1])
    decreases j
  {
    if j > lo && IsSpace(s[j - 1]) then SpaceRunStart(s, lo, j - 1) else j
  }

  /** `s.strip()`: the text between the leading and the trailing whitespace. */
  function Strip(s: string): (r: string)
    ensures |r| <= |s|
    ensures NoSpaceAtEnds(r)
    ensures NoSpaceAtEnds(s) ==> r == s
    ensures (forall i :: 0 <= i < |s| ==> IsSpace(s[i])) <==> r == []
  {
    var a := SpaceRunEnd(s, 0);
    var b := SpaceRunStart(s, a, |s|);
    assert a == |s| ==> b == |s|;
    assert b == a ==> forall i :: 0 <= i < |s| ==> IsSpace(s[i]);
    s[a..b]
  }

  /** `s.lstrip(chars)`: drops the leading characters that belong to `chars`. */
  function LStripChars(s: string, chars: set<char>): (r: string)
    ensures |r| <= |s| && r == s[|s| - |r|..]
    ensures forall i :: 0 <= i < |s| - |r| ==> s[i] in chars
    ensures r != [] ==> r[0] !in chars
    decreases |s|
  {
    if s != [] && s[0] in chars then LStripChars(s[1..], chars) else s
  }

  /** The index of the first `c` in `s`, or `|s|` when there is none. */
  function FindChar(s: string, c: char): (i: nat)
    ensures i <= |s|
    ensures forall k :: 0 <= k < i ==> s[k] != c
    ensures i < |s| ==> s[i] == c
    decreases |s|
  {
    if s == [] || s[0] == c then 0 else 1 + FindChar(s[1..], c)
  }

  lemma FindCharAt(s: string, c: char, i: nat)
    requires i < |s| && s[i] == c
    requires forall k :: 0 <= k < i ==> s[k] != c
    ensures FindChar(s, c) == i
  {
  }

  /** The index of the first line break in `s`, or `|s|` when there is none. */
  function LineEnd(s: string): (i: nat)
    ensures i <= |s|
    ensures forall k :: 0 <= k < i ==> !IsLineBreak(s[k])
    ensures i < |s| ==> IsLineBreak(s[i])
    decreases |s|
  {
    if s == [] || IsLineBreak(s[0]) then 0 else 1 + LineEnd(s[1..])
  }

  /** How many characters the line break at `i` takes: `"\r\n"` counts as one break. */
  function BreakWidth(s: string, i: nat): (w: nat)
    requires i < |s|
    ensures 1 <= w <= 2 && i + w <= |s|
  {
    if s[i] == '\r' && i + 1 < |s| && s[i + 1] == '\n' then 2 else 1
  }

  predicate NoLineBreak(s: string)
  {
    forall j :: 0 <= j < |s| ==> !IsLineBreak(s[j])
  }

  /** `s.splitlines()`: the lines of `s` without their line breaks. */
  function SplitLines(s: string): (lines: seq<string>)
    ensures forall k :: 0 <= k < |lines| ==> NoLineBreak(lines[k])
    ensures NoLineBreak(s) ==> lines == (if s == [] then [] else [s])
    decreases |s|
  {
    if s == [] then []
    else
      var i := LineEnd(s);
      if i == |s| then [s]
      else [s[..i]] + SplitLines(s[i + BreakWidth(s, i)..])
  }

  /** The concatenation of a sequence of strings. */
  function Concat(parts: seq<string>): string
  {
    if parts == [] then [] else Concat(parts[..|parts| - 1]) + parts[|parts| - 1]
  }

  lemma ConcatCons(x: string, rest: seq<string>)
    ensures Concat([x] + rest) == x + Concat(rest)
    decreases |rest|
  {
    if rest != [] {
      var last := rest[|rest| - 1];
      assert ([x] + rest)[..|rest|] == [x] + rest[..|rest| - 1];
      ConcatCons(x, rest[..|rest| - 1]);
    }
  }

  /** `s.splitlines(True)`: the lines of `s`, each with the break that ends it. */
  function SplitLinesKeepEnds(s: string): (lines: seq<string>)
    ensures forall k :: 0 <= k < |lines| ==> lines[k] != []
    decreases |s|
  {
    if s == [] then []
    else
      var i := LineEnd(s);
      if i == |s| then [s]
      else [s[..i + BreakWidth(s, i)]] + SplitLinesKeepEnds(s[i + BreakWidth(s, i)..])
  }

  /** The kept-ends lines put back together give the original text. */
  lemma {:induction false} ConcatSplitLinesKeepEnds(s: string)
    ensures Concat(SplitLinesKeepEnds(s)) == s
    decreases |s|
  {
    if s != [] {
      var i := LineEnd(s);
      if i == |s| {
        assert Concat([s]) == Concat([]) + s;
      } else {
        var w := BreakWidth(s, i);
        var rest := SplitLinesKeepEnds(s[i + w..]);
        ConcatSplitLinesKeepEnds(s[i + w..]);
        ConcatCons(s[..i + w], rest);
        assert s[..i + w] + s[i + w..] == s;
      }
    }
  }

  /** `sep.join(parts)`. */
  function Join(sep: string, parts: seq<string>): string
  {
    if parts == [] then []
    else if |parts| == 1 then parts[0]
    else Join(sep, parts[..|parts| - 1]) + sep + parts[|parts| - 1]
  }

  lemma JoinCons(sep: string, x: string, rest: seq<string>)
    requires rest != []
    ensures Join(sep, [x] + rest) == x + sep + Join(sep, rest)
    decreases |rest|
  {
    if |rest| > 1 {
      assert ([x] + rest)[..|rest|] == [x] + rest[..|rest| - 1];
      JoinCons(sep, x, rest[..|rest| - 1]);
    }
  }

  /**
   * Joining lines with "\n" and splitting them again gives the lines back,
   * as long as no line holds a break and the last line is not empty (Python
   * drops a final empty line).
   */
  lemma {:induction false} SplitLinesOfJoin(lines: seq<string>)
    requires forall k :: 0 <= k < |lines| ==> NoLineBreak(lines[k])
    requires lines != [] ==> lines[|lines| - 1] != []
    ensures SplitLines(Join("\n", lines)) == lines
    decreases |lines|
  {
    if |lines| == 1 {
    } else if |lines| > 1 {
      var x, rest := lines[0], lines[1..];
      assert lines == [x] + rest;
      JoinCons("\n", x, rest);
      var s := Join("\n", lines);
      assert s == x + "\n" + Join("\n", rest);
      assert s[|x|] == '\n';
      assert LineEnd(s) == |x| by {
        assert forall k :: 0 <= k < |x| ==> s[k] == x[k];
        LineEndAt(s, |x|);
      }
      assert BreakWidth(s, |x|) == 1;
      assert s[..|x|] == x;
      assert s[|x| + 1..] == Join("\n", rest);
      SplitLinesOfJoin(rest);
    }
  }

  lemma LineEndAt(s: string, i: nat)
    requires i < |s| && IsLineBreak(s[i])
    requires forall k :: 0 <= k < i ==> !IsLineBreak(s[k])
    ensures LineEnd(s) == i
  {
  }

  /** The characters Python's `str(int)` writes. */
  predicate IsDigit(c: char)
  {
    '0' <= c <= '9'
  }

  predicate AllDigits(s: string)
  {
    forall i :: 0 <= i < |s| ==> IsDigit(s[i])
  }

  function DigitChar(d: nat): (c: char)
    requires d < 10
    ensures IsDigit(c) && c as int - '0' as int == d
  {
    "0123456789"[d]
  }

  /** The decimal digits of a natural number, most significant first. */
  function NatToString(n: nat): (s: string)
    ensures s != [] && AllDigits(s)
  {
    if n < 10 then [DigitChar(n)] else NatToString(n / 10) + [DigitChar(n % 10)]
  }

  /** `str(i)` for a Python int. */
  function IntToString(i: int): (s: string)
    ensures s != [] && '#' !in s
    ensures s[0] == '-' || IsDigit(s[0])
    ensures AllDigits(s[1..])
  {
    if i < 0 then "-" + NatToString(-i) else NatToString(i)
  }

  /** The value of a run of decimal digits. */
  function DigitsValue(s: string): nat
    requires AllDigits(s)
  {
    if s == [] then 0 else DigitsValue(s[..|s| - 1]) * 10 + (s[|s| - 1] as int - '0' as int)
  }

  /** `int(t)` for text without surrounding space: an optional sign, then one or more ASCII digits. */
  function ParseIntText(t: string): (r: Option<int>)
    ensures r.Some? ==> t != []
  {
    if t != [] && (t[0] == '-' || t[0] == '+') then
      var body := t[1..];
      if body != [] && AllDigits(body) then
        var v: int := DigitsValue(body);
        Some(if t[0] == '-' then -v else v)
      else None
    else if t != [] && AllDigits(t) then Some(DigitsValue(t))
    else None
  }

  /** Text that `int()` accepts holds at least one decimal digit. */
  lemma ParseIntTextHasDigit(t: string)
    ensures ParseIntText(t).Some? ==> exists j :: 0 <= j < |t| && IsDigit(t[j])
  {
    if ParseIntText(t).Some? {
      var j := if t[0] == '-' || t[0] == '+' then 1 else 0;
      assert IsDigit(t[j]);
    }
  }

  /**
   * `int(s)` for a string: surrounding whitespace, an optional sign, then one
   * or more ASCII digits; `None` where Python raises `ValueError`.
   */
  function ParseInt(s: string): (r: Option<int>)
    ensures r.Some? ==> Strip(s) != []
  {
    ParseIntText(Strip(s))
  }

  lemma {:induction false} DigitsValueOfNat(n: nat)
    ensures DigitsValue(NatToString(n)) == n
  {
    if n >= 10 {
      var s := NatToString(n);
      assert s[..|s| - 1] == NatToString(n / 10);
      DigitsValueOfNat(n / 10);
    }
  }

  /** The decimal text of an int has no surrounding space. */
  lemma IntToStringUnpadded(i: int)
    ensures Strip(IntToString(i)) == IntToString(i)
  {
    var s := IntToString(i);
    assert !IsSpace(s[0]);
    assert IsDigit(s[|s| - 1]) by {
      if |s| > 1 {
        assert s[|s| - 1] == s[1..][|s| - 2];
      }
    }
  }

  lemma ParseIntTextOfIntToString(i: int)
    ensures ParseIntText(IntToString(i)) == Some(i)
  {
    var s := IntToString(i);
    if i < 0 {
      var t := NatToString(-i);
      assert s == "-" + t;
      assert s[1..] == t;
      DigitsValueOfNat(-i);
    } else {
      DigitsValueOfNat(i);
    }
  }

  /** `int(str(i)) == i`: the decimal text of an int parses back to it. */
  lemma ParseIntOfIntToString(i: int)
    ensures ParseInt(IntToString(i)) == Some(i)
  {
    IntToStringUnpadded(i);
    ParseIntTextOfIntToString(i);
  }

  lemma IntToStringInjective(i: int, j: int)
    requires IntToString(i) == IntToString(j)
    ensures i == j
  {
    ParseIntOfIntToString(i);
    ParseIntOfIntToString(j);
  }

  /** ASCII part of `str.lower`. */
  function AsciiLowerChar(c: char): char
  {
    if 'A' <= c <= 'Z' then (c as int + 32) as char else c
  }

  function AsciiLower(s: string): (r: string)
    ensures |r| == |s|
    ensures forall i :: 0 <= i < |s| ==> r[i] == AsciiLowerChar(s[i])
  {
    seq(|s|, i requires 0 <= i < |s| => AsciiLowerChar(s[i]))
  }

  /** `s.replace(a, b)` for one-character `a` and `b`. */
  function ReplaceChar(s: string, a: char, b: char): (r: string)
    ensures |r| == |s|
    ensures forall i :: 0 <= i < |s| ==> r[i] == (if s[i] == a then b else s[i])
  {
    seq(|s|, i requires 0 <= i < |s| => if s[i] == a then b else s[i])
  }
}

=== FILE: Report.dfy ===
/**
 * The validator's output side: `format_human`, the JSON payload, the choice
 * between the two, the trailing newline of an out-file, and the collection
 * of `--files` arguments into a list without repeats.
 */
module Report {
  import opened Wrappers
  import opened PyText
  import opened PyJson
  import PyPath
  import opened Checks

  const PassIcon: string := "\U{2705}"
  const FailIcon: string := "\U{274C}"
  const Dash: string := " \U{2014} "
  const FixIndent: string := "    "

  /** The first line: the icon and `ALL_TASKS_MET: True/False`. */
  function HeaderLine(allGood: bool): string
  {
    (if allGood then PassIcon else FailIcon) + " ALL_TASKS_MET: " + BoolText(allGood)
  }

  /** `Tasks Passed: {passed}/{total}`. */
  function CountsLine(s: Summary): string
  {
    "Tasks Passed: " + NatToString(s.passedRules) + "/" + NatToString(s.totalRules)
  }

  /** `- [task] file:line:column — message`. */
  function FindingLine(f: Finding): string
  {
    "- [" + f.task + "] " + f.file + ":" + IntToString(f.line) + ":" + IntToString(f.column) + Dash + PyStr(f.message)
  }

  /** The lines of `textwrap.indent`: the prefix goes before each line that is not blank. */
  function IndentLines(lines: seq<string>): seq<string>
  {
    seq(|lines|, k requires 0 <= k < |lines| => if Strip(lines[k]) != [] then FixIndent + lines[k] else lines[k])
  }

  /** `textwrap.indent(text, "    ")`. */
  function Indent(text: string): string
  {
    Concat(IndentLines(SplitLinesKeepEnds(text)))
  }

  /**
   * The lines one finding contributes: its line, then the indented `Fix:`
   * block when the fix is truthy; None where `fix.strip()` raises because
   * the fix is truthy but not a string.
   */
  function FindingBlock(f: Finding): Option<seq<string>>
  {
    if !Truthy(f.fix) then Some([FindingLine(f)])
    else match f.fix
      case JStr(s) => Some([FindingLine(f), Indent("Fix:\n" + Strip(s))])
      case _ => None
  }

  /** The block of each finding, in order. */
  function Blocks(findings: seq<Finding>): (bs: seq<Option<seq<string>>>)
    ensures |bs| == |findings|
  {
    if findings == [] then []
    else Blocks(findings[..|findings| - 1]) + [FindingBlock(findings[|findings| - 1])]
  }

  lemma {:induction false} BlockAt(findings: seq<Finding>, k: nat)
    requires k < |findings|
    ensures Blocks(findings)[k] == FindingBlock(findings[k])
    decreases |findings|
  {
    if k < |findings| - 1 {
      BlockAt(findings[..|findings| - 1], k);
    }
  }

  /** The first `n` blocks one after the other; None once a block is None. */
  function Gather(blocks: seq<Option<seq<string>>>, n: nat): Option<seq<string>>
    requires n <= |blocks|
  {
    if n == 0 then Some([])
    else
      match Gather(blocks, n - 1)
      case None => None
      case Some(prev) =>
        match blocks[n - 1]
        case None => None
        case Some(b) => Some(prev + b)
  }

  /** The lines before the findings: header, counts, the names line when some rule passed, a blank line. */
  function HeadLines(findings: seq<Finding>, s: Summary): (ls: seq<string>)
    ensures 3 <= |ls| <= 4
    ensures ls[0] == HeaderLine(findings == []) && ls[1] == CountsLine(s) && ls[|ls| - 1] == []
    ensures |ls| == 4 <==> s.passedRuleNames != []
    ensures s.passedRuleNames != [] ==> ls[2] == "Passed Task Names: " + Join(", ", s.passedRuleNames)
  {
    [HeaderLine(findings == []), CountsLine(s)]
    + (if s.passedRuleNames != [] then ["Passed Task Names: " + Join(", ", s.passedRuleNames)] else [])
    + [""]
  }

  /** All the lines `format_human` joins; None where a fix raises. */
  function HumanLines(findings: seq<Finding>, s: Summary): Option<seq<string>>
  {
    match Gather(Blocks(findings), |findings|)
    case None => None
    case Some(body) => Some(HeadLines(findings, s) + body)
  }

  /** `format_human(findings, summary)`; None where it raises. */
  function HumanReport(findings: seq<Finding>, s: Summary): Option<string>
  {
    match HumanLines(findings, s)
    case None => None
    case Some(lines) => Some(Join("\n", lines))
  }

  /** Once a block is None, every longer gathering is None. */
  lemma {:induction false} GatherStaysNone(blocks: seq<Option<seq<string>>>, n: nat, m: nat)
    requires n <= m <= |blocks| && Gather(blocks, n).None?
    ensures Gather(blocks, m).None?
    decreases m - n
  {
    if n < m {
      GatherStaysNone(blocks, n + 1, m);
    }
  }

  /** Gathering fails exactly when one of the blocks is None. */
  lemma {:induction false} GatherNone(blocks: seq<Option<seq<string>>>, n: nat)
    requires n <= |blocks|
    ensures Gather(blocks, n).None? <==> exists k :: 0 <= k < n && blocks[k].None?
  {
    if n > 0 {
      GatherNone(blocks, n - 1);
    }
  }

  /** Blocks of one line each gather into one line per block, in order. */
  lemma {:induction false} GatherSingles(blocks: seq<Option<seq<string>>>, n: nat)
    requires n <= |blocks|
    requires forall k :: 0 <= k < n ==> blocks[k].Some? && |blocks[k].value| == 1
    ensures Gather(blocks, n).Some?
    ensures |Gather(blocks, n).value| == n
    ensures forall k :: 0 <= k < n ==> Gather(blocks, n).value[k] == blocks[k].value[0]
  {
    if n > 0 {
      GatherSingles(blocks, n - 1);
    }
  }

  /** `format_human` raises exactly when some finding's fix is truthy but not a string. */
  lemma HumanReportRaises(findings: seq<Finding>, s: Summary)
    ensures HumanReport(findings, s).None? <==>
              exists k :: 0 <= k < |findings| && Truthy(findings[k].fix) && !findings[k].fix.JStr?
  {
    var bs := Blocks(findings);
    forall k | 0 <= k < |findings| {
      BlockAt(findings, k);
    }
    GatherNone(bs, |findings|);
    assert forall k :: 0 <= k < |findings| ==> (bs[k].None? <==> Truthy(findings[k].fix) && !findings[k].fix.JStr?);
  }

  /**
   * Without fixes, the report is the head lines and then exactly one line
   * per finding, in finding order.
   */
  lemma HumanReportPlain(findings: seq<Finding>, s: Summary)
    requires forall k :: 0 <= k < |findings| ==> !Truthy(findings[k].fix)
    ensures HumanLines(findings, s).Some?
    ensures var lines := HumanLines(findings, s).value;
      var head := HeadLines(findings, s);
      |lines| == |head| + |findings| && lines[..|head|] == head
      && forall k :: 0 <= k < |findings| ==> lines[|head| + k] == FindingLine(findings[k])
  {
    var bs := Blocks(findings);
    forall k | 0 <= k < |findings| {
      BlockAt(findings, k);
    }
    assert forall k :: 0 <= k < |findings| ==> bs[k] == Some([FindingLine(findings[k])]);
    GatherSingles(bs, |findings|);
  }

  /** A finding with a string fix contributes its line followed by the indented, stripped fix. */
  lemma FindingBlockWithFix(f: Finding)
    requires Truthy(f.fix) && f.fix.JStr?
    ensures FindingBlock(f).Some?
    ensures var b := FindingBlock(f).value;
      |b| == 2 && b[0] == FindingLine(f) && b[1] == Indent("Fix:\n" + Strip(f.fix.s))
  {
  }

  /** The header line holds no line break. */
  lemma HeaderLineUnbroken(allGood: bool)
    ensures NoLineBreak(HeaderLine(allGood))
  {
    assert NoLineBreak(PassIcon) && NoLineBreak(FailIcon);
    assert NoLineBreak(" ALL_TASKS_MET: ") by {
      forall j | 0 <= j < 16
        ensures ' ' <= " ALL_TASKS_MET: "[j] <= '_'
      {
      }
    }
    assert NoLineBreak("True") && NoLineBreak("False");
    var icon := if allGood then PassIcon else FailIcon;
    NoLineBreakAppend(icon, " ALL_TASKS_MET: ");
    NoLineBreakAppend(icon + " ALL_TASKS_MET: ", BoolText(allGood));
  }

  lemma NoLineBreakAppend(a: string, b: string)
    requires NoLineBreak(a) && NoLineBreak(b)
    ensures NoLineBreak(a + b)
  {
    forall j | 0 <= j < |a + b|
      ensures !IsLineBreak((a + b)[j])
    {
      if j >= |a| {
        assert (a + b)[j] == b[j - |a|];
      }
    }
  }

  /** Lines joined with newlines begin with the first two lines, and `splitlines` reads the first back. */
  lemma JoinHead(h: string, c: string, rest: seq<string>)
    requires NoLineBreak(h) && rest != []
    ensures var out := Join("\n", [h, c] + rest);
      |h + "\n" + c + "\n"| <= |out| && out[..|h + "\n" + c + "\n"|] == h + "\n" + c + "\n"
      && SplitLines(out) != [] && SplitLines(out)[0] == h
  {
    var out := Join("\n", [h, c] + rest);
    assert [h, c] + rest == [h] + ([c] + rest);
    JoinCons("\n", h, [c] + rest);
    JoinCons("\n", c, rest);
    assert out == h + "\n" + c + "\n" + Join("\n", rest);
    var head := h + "\n" + c + "\n";
    assert out[..|head|] == head;
    assert out[|h|] == '\n';
    assert forall k :: 0 <= k < |h| ==> out[k] == h[k];
    LineEndAt(out, |h|);
    assert out[..|h|] == h;
  }

  /** The two header lines are different texts. */
  lemma HeaderLinesDiffer()
    ensures HeaderLine(true) == PassIcon + " ALL_TASKS_MET: True"
    ensures HeaderLine(false) != PassIcon + " ALL_TASKS_MET: True"
  {
    assert HeaderLine(false)[0] == '\U{274C}';
  }

  /**
   * The report begins with the header line and the counts line, and its
   * first line (as `splitlines` reads it) is `ALL_TASKS_MET: True` exactly
   * when there are no findings.
   */
  lemma HumanReportHead(findings: seq<Finding>, s: Summary)
    requires HumanReport(findings, s).Some?
    ensures var out := HumanReport(findings, s).value;
      var head := HeaderLine(findings == []) + "\n" + CountsLine(s) + "\n";
      |head| <= |out| && out[..|head|] == head
    ensures var lines := SplitLines(HumanReport(findings, s).value);
      lines != [] && (lines[0] == PassIcon + " ALL_TASKS_MET: True" <==> findings == [])
  {
    var lines := HumanLines(findings, s).value;
    var h, c := HeaderLine(findings == []), CountsLine(s);
    assert lines == [h, c] + lines[2..];
    HeaderLineUnbroken(findings == []);
    JoinHead(h, c, lines[2..]);
    HeaderLinesDiffer();
  }

  /** `format_human`: the head lines, then the findings' lines, joined with newlines. */
  method FormatHuman(findings: seq<Finding>, s: Summary) returns (r: Option<string>)
    ensures r == HumanReport(findings, s)
  {
    var allGood := |findings| == 0;
    var lines := [HeaderLine(allGood)];
    lines := lines + [CountsLine(s)];
    if s.passedRuleNames != [] {
      lines := lines + ["Passed Task Names: " + Join(", ", s.passedRuleNames)];
    }
    lines := lines + [""];
    assert lines == HeadLines(findings, s);
    if findings == [] {
      assert Gather(Blocks(findings), 0) == Some([]);
      assert lines + [] == lines;
      return Some(Join("\n", lines));
    }
    var body := FindingsBody(findings);
    if body.None? {
      return None;
    }
    return Some(Join("\n", lines + body.value));
  }

  /** The loop of `format_human` over the findings: each one's line, then its fix block. */
  method FindingsBody(findings: seq<Finding>) returns (r: Option<seq<string>>)
    ensures r == Gather(Blocks(findings), |findings|)
  {
    ghost var bs := Blocks(findings);
    var body: seq<string> := [];
    for k := 0 to |findings|
      invariant Gather(bs, k) == Some(body)
    {
      var block := FindingBlock(findings[k]);
      BlockAt(findings, k);
      if block.None? {
        GatherStaysNone(bs, k + 1, |findings|);
        return None;
      }
      body := body + block.value;
    }
    return Some(body);
  }

  /** `finding.as_dict()`. */
  function FindingDict(f: Finding): map<string, Json>
  {
    map["task" := JStr(f.task), "file" := JStr(f.file), "line" := JInt(f.line),
        "column" := JInt(f.column), "message" := f.message, "fix" := f.fix]
  }

  /** Reading a finding back from its dict; None when a field is missing or of the wrong kind. */
  function FindingOfDict(d: map<string, Json>): Option<Finding>
  {
    if "task" in d && d["task"].JStr? && "file" in d && d["file"].JStr?
       && "line" in d && d["line"].JInt? && "column" in d && d["column"].JInt?
       && "message" in d && "fix" in d
    then Some(Finding(d["task"].s, d["file"].s, d["line"].i, d["column"].i, d["message"], d["fix"]))
    else None
  }

  /** `as_dict` loses nothing: the dict reads back as the same finding. */
  lemma FindingDictRoundTrip(f: Finding)
    ensures FindingOfDict(FindingDict(f)) == Some(f)
    ensures FindingDict(f).Keys == {"task", "file", "line", "column", "message", "fix"}
  {
  }

  /** The `findings` list of the payload. */
  function FindingDicts(findings: seq<Finding>): (js: seq<Json>)
    ensures |js| == |findings|
  {
    seq(|findings|, k requires 0 <= k < |findings| => JObj(FindingDict(findings[k])))
  }

  /** The JSON report: `ALL_TASKS_MET`, the `tasks` counts and names, and the findings as dicts. */
  function Payload(findings: seq<Finding>, s: Summary): Json
  {
    JObj(map[
      "ALL_TASKS_MET" := JBool(findings == []),
      "tasks" := JObj(map[
        "passed" := JInt(s.passedRules),
        "total" := JInt(s.totalRules),
        "passed_names" := JList(seq(|s.passedRuleNames|, k requires 0 <= k < |s.passedRuleNames| => JStr(s.passedRuleNames[k])))]),
      "findings" := JList(FindingDicts(findings))])
  }

  /** Reading the findings back from a payload list; None on an entry that is not a finding dict. */
  function FindingsOfList(items: seq<Json>, n: nat): Option<seq<Finding>>
    requires n <= |items|
  {
    if n == 0 then Some([])
    else
      match FindingsOfList(items, n - 1)
      case None => None
      case Some(prev) =>
        if !items[n - 1].JObj? then None
        else match FindingOfDict(items[n - 1].fields)
          case None => None
          case Some(f) => Some(prev + [f])
  }

  /** Reading the names back from the `passed_names` list; None on an entry that is not a string. */
  function NamesOfList(items: seq<Json>, n: nat): Option<seq<string>>
    requires n <= |items|
  {
    if n == 0 then Some([])
    else
      match NamesOfList(items, n - 1)
      case None => None
      case Some(prev) => if items[n - 1].JStr? then Some(prev + [items[n - 1].s]) else None
  }

  /** What a reader of the JSON report gets: the verdict, the summary and the findings. */
  function ReadPayload(p: Json): Option<(bool, Summary, seq<Finding>)>
  {
    if !p.JObj? then None
    else
      var m := p.fields;
      if !("ALL_TASKS_MET" in m && m["ALL_TASKS_MET"].JBool? && "tasks" in m && m["tasks"].JObj? && "findings" in m && m["findings"].JList?) then None
      else
        var t := m["tasks"].fields;
        if !("passed" in t && t["passed"].JInt? && t["passed"].i >= 0 && "total" in t && t["total"].JInt? && t["total"].i >= 0
             && "passed_names" in t && t["passed_names"].JList?) then None
        else
          var names := NamesOfList(t["passed_names"].items, |t["passed_names"].items|);
          var fs := FindingsOfList(m["findings"].items, |m["findings"].items|);
          if names.None? || fs.None? then None
          else Some((m["ALL_TASKS_MET"].b, Summary(t["total"].i, t["passed"].i, names.value), fs.value))
  }

  lemma {:induction false} FindingsOfDicts(findings: seq<Finding>, n: nat)
    requires n <= |findings|
    ensures FindingsOfList(FindingDicts(findings), n) == Some(findings[..n])
  {
    if n > 0 {
      FindingsOfDicts(findings, n - 1);
      FindingDictRoundTrip(findings[n - 1]);
      assert findings[..n] == findings[..n - 1] + [findings[n - 1]];
    }
  }

  lemma {:induction false} NamesOfStrings(names: seq<string>, n: nat)
    requires n <= |names|
    ensures NamesOfList(seq(|names|, k requires 0 <= k < |names| => JStr(names[k])), n) == Some(names[..n])
  {
    if n > 0 {
      NamesOfStrings(names, n - 1);
      assert names[..n] == names[..n - 1] + [names[n - 1]];
    }
  }

  /**
   * The JSON report carries everything: reading it back gives
   * `ALL_TASKS_MET` true exactly when there are no findings, the summary,
   * and the findings in order.
   */
  lemma PayloadRoundTrip(findings: seq<Finding>, s: Summary)
    ensures ReadPayload(Payload(findings, s)) == Some((findings == [], s, findings))
  {
    var names := s.passedRuleNames;
    var nameItems := seq(|names|, k requires 0 <= k < |names| => JStr(names[k]));
    NamesOfStrings(names, |names|);
    assert names[..|names|] == names;
    FindingsOfDicts(findings, |findings|);
    assert findings[..|findings|] == findings;
    var m := Payload(findings, s).fields;
    var t := m["tasks"].fields;
    assert t["passed_names"].items == nameItems;
    assert m["findings"].items == FindingDicts(findings);
    assert NamesOfList(nameItems, |nameItems|) == Some(names);
    assert FindingsOfList(FindingDicts(findings), |findings|) == Some(findings);
  }

  /**
   * `want_json`: `--json`, or an out-file whose suffix lower-cases to
   * `.json` (`auto_json`); an empty `--out-file` counts as none.
   */
  function WantJson(jsonFlag: bool, outFile: string): bool
  {
    var autoJson := outFile != [] && AsciiLower(PyPath.Suffix(outFile)) == ".json" && !jsonFlag;
    jsonFlag || autoJson
  }

  /**
   * For a bare file name, only the part after its last dot decides, in any
   * letter case: `a.JSON` selects JSON and `a.json.txt` does not.
   */
  lemma WantJsonExtension(stem: string, ext: string)
    requires stem != [] && '/' !in stem
    requires ext != [] && '.' !in ext && '/' !in ext
    ensures WantJson(false, stem + "." + ext) <==> AsciiLower("." + ext) == ".json"
  {
    SuffixOfStem(stem, ext);
  }

  /** A bare name made of a non-empty stem, a dot and a dotless extension has that dot and extension as its suffix. */
  lemma SuffixOfStem(stem: string, ext: string)
    requires stem != [] && '/' !in stem
    requires ext != [] && '.' !in ext && '/' !in ext
    ensures PyPath.Suffix(stem + "." + ext) == "." + ext
  {
    var name := stem + "." + ext;
    var i := |stem|;
    assert |name| == i + 1 + |ext|;
    assert name[i] == '.';
    assert name[i..] == "." + ext;
    forall k | 0 <= k < |name|
      ensures name[k] != '/' && (i < k ==> name[k] != '.')
    {
      if k < i {
        assert name[k] == stem[k];
      } else if i < k {
        assert name[k] == ext[k - i - 1];
      }
    }
    SuffixOfPlainName(name, i);
  }

  /** A name whose only dot is its first character has no suffix, so `.json` alone does not select JSON. */
  lemma WantJsonDotName(rest: string)
    requires '.' !in rest && '/' !in rest
    ensures !WantJson(false, "." + rest)
  {
    var name := "." + rest;
    if rest == [] {
      assert PyPath.SplitSlash(name) == [name];
      assert PyPath.Components([name]) == [];
    } else {
      assert forall k :: 0 < k < |name| ==> name[k] == rest[k - 1];
      SuffixOfPlainName(name, 0);
    }
    assert PyPath.Suffix(name) == [];
  }

  /** The suffix of a bare file name runs from its last dot, when that dot is inside the name. */
  lemma SuffixOfPlainName(name: string, i: nat)
    requires name != [] && '/' !in name && name != "."
    requires i < |name| && name[i] == '.'
    requires forall k :: i < k < |name| ==> name[k] != '.'
    ensures PyPath.Suffix(name) == if 0 < i < |name| - 1 then name[i..] else []
  {
    assert PyPath.SplitSlash(name) == [name];
    assert PyPath.Components([name]) == [name];
    PyPath.RFindCharAt(name, '.', i);
  }

  /** The rendered report: the JSON payload or the human text. */
  datatype Rendered = JsonReport(payload: Json) | TextReport(text: string)

  /** The rendering branch of `main`; None where `format_human` raises. */
  function Render(findings: seq<Finding>, s: Summary, jsonFlag: bool, outFile: string): (r: Option<Rendered>)
    ensures r.Some? && r.value.JsonReport? <==> WantJson(jsonFlag, outFile)
    ensures WantJson(jsonFlag, outFile) ==> r == Some(JsonReport(Payload(findings, s)))
    ensures !WantJson(jsonFlag, outFile) ==> (r.Some? <==> HumanReport(findings, s).Some?)
  {
    if WantJson(jsonFlag, outFile) then Some(JsonReport(Payload(findings, s)))
    else match HumanReport(findings, s)
      case None => None
      case Some(text) => Some(TextReport(text))
  }

  /** The out-file text: the report with a final newline added when it lacks one. */
  function OutFileText(report: string): (t: string)
    ensures |t| > 0 && t[|t| - 1] == '\n'
    ensures t == report || t == report + "\n"
    ensures report != [] && report[|report| - 1] == '\n' ==> t == report
  {
    if report != [] && report[|report| - 1] == '\n' then report else report + "\n"
  }

  /** Adding the final newline twice changes nothing. */
  lemma OutFileTextIdempotent(report: string)
    ensures OutFileText(OutFileText(report)) == OutFileText(report)
  {
  }

  /**
   * The token list after glob expansion: each token's matches, or the
   * token itself when it matched nothing. `globbed[k]` stands for
   * `glob.glob(tokens[k], recursive=True)`.
   */
  function Expanded(tokens: seq<string>, globbed: seq<seq<string>>, n: nat): seq<string>
    requires n <= |tokens| == |globbed|
  {
    if n == 0 then []
    else
      var prev := Expanded(tokens, globbed, n - 1);
      if globbed[n - 1] != [] then prev + globbed[n - 1] else prev + [tokens[n - 1]]
  }

  /** A string is in the expansion exactly when it is a match of some token, or a token that matched nothing. */
  lemma {:induction false} ExpandedMembers(tokens: seq<string>, globbed: seq<seq<string>>, n: nat)
    requires n <= |tokens| == |globbed|
    ensures forall x :: x in Expanded(tokens, globbed, n) <==>
              exists k :: 0 <= k < n && ((globbed[k] != [] && x in globbed[k]) || (globbed[k] == [] && x == tokens[k]))
  {
    if n > 0 {
      ExpandedMembers(tokens, globbed, n - 1);
    }
  }

  /** The expansion loop of `main`. */
  method ExpandTokens(tokens: seq<string>, globbed: seq<seq<string>>) returns (strs: seq<string>)
    requires |tokens| == |globbed|
    ensures strs == Expanded(tokens, globbed, |tokens|)
  {
    strs := [];
    for k := 0 to |tokens|
      invariant strs == Expanded(tokens, globbed, k)
    {
      var matches := globbed[k];
      if matches != [] {
        strs := strs + matches;
      } else {
        strs := strs + [tokens[k]];
      }
    }
  }

  /** `str(Path(c))` of each candidate, in order. */
  function PathTexts(candidates: seq<string>): (ps: seq<string>)
    ensures |ps| == |candidates|
  {
    if candidates == [] then []
    else PathTexts(candidates[..|candidates| - 1]) + [PyPath.PathStr(candidates[|candidates| - 1])]
  }

  lemma {:induction false} PathTextsAt(candidates: seq<string>)
    ensures forall k :: 0 <= k < |candidates| ==> PathTexts(candidates)[k] == PyPath.PathStr(candidates[k])
  {
    if candidates != [] {
      PathTextsAt(candidates[..|candidates| - 1]);
    }
  }

  /**
   * The `seen` list after the first `n` path texts: each text that names a
   * file, the first time it is met. `isFile` holds the path texts for which
   * `is_file()` is true.
   */
  function FirstSeen(paths: seq<string>, isFile: set<string>, n: nat): seq<string>
    requires n <= |paths|
  {
    if n == 0 then []
    else
      var prev := FirstSeen(paths, isFile, n - 1);
      var p := paths[n - 1];
      if p in isFile && p !in prev then prev + [p] else prev
  }

  /** A path is listed exactly when some candidate names it and it is a file. */
  lemma {:induction false} FirstSeenMembers(paths: seq<string>, isFile: set<string>, n: nat)
    requires n <= |paths|
    ensures forall x :: x in FirstSeen(paths, isFile, n) <==>
              x in isFile && exists k :: 0 <= k < n && paths[k] == x
  {
    if n > 0 {
      FirstSeenMembers(paths, isFile, n - 1);
    }
  }

  predicate NoRepeats(s: seq<string>)
  {
    forall i, j :: 0 <= i < j < |s| ==> s[i] != s[j]
  }

  /** No path is listed twice. */
  lemma {:induction false} FirstSeenDistinct(paths: seq<string>, isFile: set<string>, n: nat)
    requires n <= |paths|
    ensures NoRepeats(FirstSeen(paths, isFile, n))
  {
    if n > 0 {
      FirstSeenDistinct(paths, isFile, n - 1);
      var prev := FirstSeen(paths, isFile, n - 1);
      var p := paths[n - 1];
      if p in isFile && p !in prev {
        var fs := prev + [p];
        assert FirstSeen(paths, isFile, n) == fs;
        forall i, j | 0 <= i < j < |fs|
          ensures fs[i] != fs[j]
        {
          assert fs[i] == prev[i] && prev[i] in prev;
          if j < |prev| {
            assert fs[j] == prev[j];
          }
        }
      }
    }
  }

  /** Later candidates only append: the list after `m` candidates starts with the list after `n <= m`. */
  lemma {:induction false} FirstSeenGrows(paths: seq<string>, isFile: set<string>, n: nat, m: nat)
    requires n <= m <= |paths|
    ensures var a, b := FirstSeen(paths, isFile, n), FirstSeen(paths, isFile, m);
      |a| <= |b| && b[..|a|] == a
    decreases m - n
  {
    if n < m {
      FirstSeenGrows(paths, isFile, n + 1, m);
    }
  }

  /**
   * The de-duplication loop of `main`: the paths that are files, first
   * occurrence first. The source keeps the texts in `seen` beside the paths
   * in `files`; both hold the same texts, so one list stands for both. The
   * text of each candidate's path is computed up front; it depends on the
   * candidate alone.
   */
  method DedupFiles(candidates: seq<string>, isFile: set<string>) returns (files: seq<string>)
    ensures files == FirstSeen(PathTexts(candidates), isFile, |candidates|)
  {
    var paths := PathTexts(candidates);
    files := [];
    for k := 0 to |candidates|
      invariant files == FirstSeen(paths, isFile, k)
    {
      var path := paths[k];
      if path in isFile && path !in files {
        files := files + [path];
      }
    }
  }
}

=== FILE: Runner.dfy ===
/**
 * The backend's scan runner (`backend/app/runner.py`): mapping the
 * validator's findings back onto tasks and original paths, deriving the run
 * status and notes, and the steps of one scan around the validator call. The
 * storage reads, the file fetch and the validator's parsed report are
 * arguments.
 */
module Runner {
  import opened Wrappers
  import opened PyText
  import opened PyJson
  import opened Schemas
  import PyPath
  import Storage
  import Checks
  import Report

  /** The message a finding without one gets. */
  const DefaultMessage := "Task violation detected."

  /** Whether Python can hash the value, so that it can be a dict key: lists and dicts cannot. */
  predicate Hashable(j: Json)
  {
    !j.JList? && !j.JObj?
  }

  /** The key `title_map` files a task under: its title, or its name when the title is falsy. */
  function TitleKey(task: map<string, Json>): Json
  {
    Or(Get(task, "title"), Get(task, "name"))
  }

  /** The key `id_map` files a task under. */
  function IdKey(task: map<string, Json>): Json
  {
    Get(task, "id")
  }

  /** `{key(task): task for task in tasks}`: a later task replaces an earlier one with the same key. */
  function Index(tasks: seq<map<string, Json>>, key: map<string, Json> -> Json): map<Json, map<string, Json>>
    decreases |tasks|
  {
    if tasks == [] then map[]
    else Index(tasks[..|tasks| - 1], key)[key(tasks[|tasks| - 1]) := tasks[|tasks| - 1]]
  }

  /** A task is filed under its key when no later task has the same key. */
  lemma {:induction false} IndexLast(tasks: seq<map<string, Json>>, key: map<string, Json> -> Json, i: nat)
    requires i < |tasks|
    requires forall j :: i < j < |tasks| ==> key(tasks[j]) != key(tasks[i])
    ensures key(tasks[i]) in Index(tasks, key) && Index(tasks, key)[key(tasks[i])] == tasks[i]
    decreases |tasks|
  {
    if i < |tasks| - 1 {
      var init := tasks[..|tasks| - 1];
      assert forall j :: i < j < |init| ==> init[j] == tasks[j];
      IndexLast(init, key, i);
    }
  }

  /** The index holds exactly the tasks' keys, and every value is one of the tasks. */
  lemma {:induction false} IndexKeys(tasks: seq<map<string, Json>>, key: map<string, Json> -> Json, k: Json)
    ensures k in Index(tasks, key) <==> exists i :: 0 <= i < |tasks| && key(tasks[i]) == k
    ensures k in Index(tasks, key) ==> Index(tasks, key)[k] in tasks
    decreases |tasks|
  {
    if tasks != [] {
      var init := tasks[..|tasks| - 1];
      IndexKeys(init, key, k);
      if exists i :: 0 <= i < |init| && key(init[i]) == k {
        var i :| 0 <= i < |init| && key(init[i]) == k;
        assert key(tasks[i]) == k;
      }
      if exists i :: 0 <= i < |tasks| && key(tasks[i]) == k {
        var i :| 0 <= i < |tasks| && key(tasks[i]) == k;
        if i < |init| {
          assert key(init[i]) == k;
        }
      }
    }
  }

  /** `m.get(k)`: the task as a dict, or None. */
  function Lookup(m: map<Json, map<string, Json>>, k: Json): (r: Json)
    ensures r.JNull? || r.JObj?
  {
    if k in m then JObj(m[k]) else JNull
  }

  /** `int(value)` for a JSON value; None where Python raises. */
  function PyInt(v: Json): (r: Option<int>)
    ensures v.JInt? ==> r == Some(v.i)
    ensures v.JNull? || v.JList? || v.JObj? ==> r.None?
  {
    match v
    case JInt(i) => Some(i)
    case JBool(b) => Some(if b then 1 else 0)
    case JStr(s) => ParseInt(s)
    case _ => None
  }

  /** Where `int()` succeeds it agrees with the validator's lenient `_as_int`. */
  lemma PyIntAgreesWithAsInt(v: Json, default: int)
    requires PyInt(v).Some?
    ensures Checks.AsInt(v, default) == PyInt(v).value
  {
  }

  /**
   * One iteration of `_build_violations`: the finding's task is looked up
   * by title first, then by id; severity and id come from the task, with
   * `warning` and the finding's task name (or `task`) as fallbacks; the file
   * is mapped back to its original path; message and line get their
   * defaults. An error where Python raises: a finding that is not a dict, an
   * unhashable task name or file, a line `int()` rejects, or a field that is
   * not a string where `AgentViolation` wants one.
   */
  function ViolationOf(finding: Json, titles: map<Json, map<string, Json>>, ids: map<Json, map<string, Json>>,
                       pathMap: map<string, string>): Result<AgentViolation, string>
  {
    if !finding.JObj? then Err("finding has no attribute 'get'")
    else
      var f := finding.fields;
      var name := Get(f, "task");
      if !Hashable(name) then Err("unhashable task name")
      else
        var info := Or(Lookup(titles, name), Lookup(ids, name));
        var d := if info.JObj? then info.fields else map[];
        var severity := GetOr(d, "severity", JStr("warning"));
        var taskId := GetOr(d, "id", Or(name, JStr("task")));
        var tempPath := Get(f, "file");
        if !Hashable(tempPath) then Err("unhashable file")
        else
          var relPath := if tempPath.JStr? && tempPath.s in pathMap then JStr(pathMap[tempPath.s]) else tempPath;
          var message := GetOr(f, "message", JStr(DefaultMessage));
          var line := PyInt(GetOr(f, "line", JInt(1)));
          var fix := Get(f, "fix");
          if line.None? then Err("invalid line")
          else if !(taskId.JStr? && message.JStr? && relPath.JStr? && severity.JStr?) then Err("AgentViolation: Input should be a valid string")
          else if !(fix.JNull? || fix.JStr?) then Err("AgentViolation: suggestedFix should be a valid string")
          else Ok(AgentViolation(taskId.s, message.s, relPath.s, line.value, severity.s,
                                 if fix.JStr? then Some(fix.s) else None))
  }

  /**
   * A finding whose task matches no title and no id gets severity `warning`
   * and its own task name as id, or `task` when the name is falsy.
   */
  lemma ViolationOfUnknownTask(finding: Json, titles: map<Json, map<string, Json>>, ids: map<Json, map<string, Json>>,
                               pathMap: map<string, string>)
    requires finding.JObj? && Get(finding.fields, "task") !in titles && Get(finding.fields, "task") !in ids
    ensures var r := ViolationOf(finding, titles, ids, pathMap);
      var name := Get(finding.fields, "task");
      r.Ok? ==> r.value.severity == "warning" && r.value.taskId == (if Truthy(name) then name.s else "task")
  {
  }

  /**
   * A finding whose task is the title (or name) of a non-empty task takes
   * that task's severity and id, even when another task has the name as id.
   */
  lemma ViolationOfTitledTask(finding: Json, titles: map<Json, map<string, Json>>, ids: map<Json, map<string, Json>>,
                              pathMap: map<string, string>)
    requires finding.JObj? && Get(finding.fields, "task") in titles
    requires titles[Get(finding.fields, "task")] != map[]
    ensures var r := ViolationOf(finding, titles, ids, pathMap);
      var task := titles[Get(finding.fields, "task")];
      r.Ok? ==> JStr(r.value.severity) == GetOr(task, "severity", JStr("warning"))
                && JStr(r.value.taskId) == GetOr(task, "id", Or(Get(finding.fields, "task"), JStr("task")))
  {
  }

  /**
   * The violation's file is the original path the staged file came from,
   * or the finding's file unchanged when it was not staged; a missing line
   * is 1 and a missing message is the default one.
   */
  lemma ViolationOfFields(finding: Json, titles: map<Json, map<string, Json>>, ids: map<Json, map<string, Json>>,
                          pathMap: map<string, string>)
    requires finding.JObj?
    ensures var r := ViolationOf(finding, titles, ids, pathMap);
      var f := finding.fields;
      r.Ok? ==>
        && Get(f, "file").JStr?
        && r.value.file == (if Get(f, "file").s in pathMap then pathMap[Get(f, "file").s] else Get(f, "file").s)
        && ("line" !in f ==> r.value.line == 1)
        && ("message" !in f ==> r.value.message == DefaultMessage)
        && r.value.suggestedFix == (if Get(f, "fix").JStr? then Some(Get(f, "fix").s) else None)
  {
  }

  /** One iteration of `_build_violations` against fixed indexes and path map. */
  function Step(titles: map<Json, map<string, Json>>, ids: map<Json, map<string, Json>>,
                pathMap: map<string, string>): Json -> Result<AgentViolation, string>
  {
    finding => ViolationOf(finding, titles, ids, pathMap)
  }

  /**
   * The violations of the first `n` findings, each built by `step`: one per
   * finding, in order, or the first error.
   */
  function ViolationsOf(items: seq<Json>, n: nat, step: Json -> Result<AgentViolation, string>): Result<seq<AgentViolation>, string>
    requires n <= |items|
  {
    if n == 0 then Ok([])
    else
      match ViolationsOf(items, n - 1, step)
      case Err(e) => Err(e)
      case Ok(vs) =>
        match step(items[n - 1])
        case Err(e) => Err(e)
        case Ok(v) => Ok(vs + [v])
  }

  /**
   * The list succeeds exactly when every finding does, and then holds one
   * violation per finding, each the one of its finding.
   */
  lemma {:induction false} ViolationsOfEach(items: seq<Json>, n: nat, step: Json -> Result<AgentViolation, string>)
    requires n <= |items|
    ensures ViolationsOf(items, n, step).Ok? <==> forall k :: 0 <= k < n ==> step(items[k]).Ok?
    ensures var r := ViolationsOf(items, n, step);
      r.Ok? ==> (|r.value| == n && forall k :: 0 <= k < n ==> step(items[k]) == Ok(r.value[k]))
  {
    if n > 0 {
      ViolationsOfEach(items, n - 1, step);
      var prev := ViolationsOf(items, n - 1, step);
      var last := step(items[n - 1]);
      if prev.Ok? && last.Ok? {
        var r := prev.value + [last.value];
        assert ViolationsOf(items, n, step) == Ok(r);
        forall k | 0 <= k < n
          ensures step(items[k]) == Ok(r[k])
        {
          if k < n - 1 {
            assert r[k] == prev.value[k];
          }
        }
      }
    }
  }

  /** Once the first `n` findings fail, every longer prefix fails with the same error. */
  lemma {:induction false} ViolationsOfErrStays(items: seq<Json>, n: nat, m: nat, step: Json -> Result<AgentViolation, string>)
    requires n <= m <= |items| && ViolationsOf(items, n, step).Err?
    ensures ViolationsOf(items, m, step) == ViolationsOf(items, n, step)
    decreases m - n
  {
    if n < m {
      ViolationsOfErrStays(items, n + 1, m, step);
    }
  }

  /** `_build_violations`, as the function that specifies it. */
  function BuildViolationsSpec(findings: Json, tasks: seq<map<string, Json>>, pathMap: map<string, string>): Result<seq<AgentViolation>, string>
  {
    if !Truthy(findings) then Ok([])
    else if exists i :: 0 <= i < |tasks| && !(Hashable(TitleKey(tasks[i])) && Hashable(IdKey(tasks[i]))) then
      Err("unhashable task key")
    else if !findings.JList? then Err("findings are not a list of dicts")
    else ViolationsOf(findings.items, |findings.items|, Step(Index(tasks, TitleKey), Index(tasks, IdKey), pathMap))
  }

  /**
   * `_build_violations`: no violations for falsy findings, else one per
   * finding, in order, built against the title and id indexes of the tasks.
   */
  method BuildViolations(findings: Json, tasks: seq<map<string, Json>>, pathMap: map<string, string>)
    returns (r: Result<seq<AgentViolation>, string>)
    ensures r == BuildViolationsSpec(findings, tasks, pathMap)
  {
    if !Truthy(findings) {
      return Ok([]);
    }
    if exists i :: 0 <= i < |tasks| && !(Hashable(TitleKey(tasks[i])) && Hashable(IdKey(tasks[i]))) {
      return Err("unhashable task key");
    }
    var titles := Index(tasks, TitleKey);
    var ids := Index(tasks, IdKey);
    if !findings.JList? {
      return Err("findings are not a list of dicts");
    }
    r := ViolationList(findings.items, Step(titles, ids, pathMap));
  }

  /** The loop of `_build_violations`: one violation per finding, in order, stopping at the first that fails. */
  method ViolationList(items: seq<Json>, step: Json -> Result<AgentViolation, string>)
    returns (r: Result<seq<AgentViolation>, string>)
    ensures r == ViolationsOf(items, |items|, step)
  {
    var violations: seq<AgentViolation> := [];
    var k := 0;
    while k < |items|
      invariant 0 <= k <= |items|
      invariant ViolationsOf(items, k, step) == Ok(violations)
    {
      var v := step(items[k]);
      if v.Err? {
        ViolationsOfErrStays(items, k + 1, |items|, step);
        return Err(v.error);
      }
      violations := violations + [v.value];
      k := k + 1;
    }
    return Ok(violations);
  }

  /** A task dict as stored: hashable keys, and a string id and severity when present. */
  predicate TaskShaped(t: map<string, Json>)
  {
    && Hashable(TitleKey(t)) && Hashable(IdKey(t))
    && ("id" in t ==> t["id"].JStr?) && ("severity" in t ==> t["severity"].JStr?)
  }

  /** Every task stored by the upload endpoint has that shape. */
  lemma TaskPayloadShaped(t: Task)
    ensures TaskShaped(TaskPayload(t))
  {
    TaskPayloadFields(t);
  }

  /** What a task name looks up to in indexes of well-shaped tasks: nothing, or one of those tasks. */
  lemma LookupShaped(tasks: seq<map<string, Json>>, name: Json)
    requires forall i :: 0 <= i < |tasks| ==> TaskShaped(tasks[i])
    ensures var info := Or(Lookup(Index(tasks, TitleKey), name), Lookup(Index(tasks, IdKey), name));
      info.JNull? || (info.JObj? && TaskShaped(info.fields))
  {
    IndexKeys(tasks, TitleKey, name);
    IndexKeys(tasks, IdKey, name);
  }

  /**
   * A finding as the validator writes it, with a string message and a
   * string or null fix, always becomes a violation when its task looks up
   * to nothing or to a well-shaped task: at the finding's line, with its
   * message, at its original path. `d` is any dict that reads back as the
   * finding, `as_dict()`'s among them.
   */
  lemma ViolationOfFinding(f: Checks.Finding, d: map<string, Json>, titles: map<Json, map<string, Json>>,
                           ids: map<Json, map<string, Json>>, pathMap: map<string, string>)
    requires Report.FindingOfDict(d) == Some(f)
    requires f.message.JStr? && (f.fix.JNull? || f.fix.JStr?)
    requires var info := Or(Lookup(titles, JStr(f.task)), Lookup(ids, JStr(f.task)));
      info.JNull? || (info.JObj? && TaskShaped(info.fields))
    ensures var r := ViolationOf(JObj(d), titles, ids, pathMap);
      && r.Ok?
      && r.value.line == f.line && r.value.message == f.message.s
      && r.value.file == (if f.file in pathMap then pathMap[f.file] else f.file)
  {
  }

  /** `any(v.severity == "critical" for v in violations)`. */
  predicate AnyCritical(vs: seq<AgentViolation>)
  {
    exists i :: 0 <= i < |vs| && vs[i].severity == "critical"
  }

  /** The run status: `passed`, else `critical` when some violation is critical, else `warnings`. */
  function RunStatus(passed: bool, vs: seq<AgentViolation>): (s: string)
    ensures s == "passed" <==> passed
    ensures s == "critical" <==> !passed && AnyCritical(vs)
    ensures s == "warnings" <==> !passed && !AnyCritical(vs)
  {
    if passed then "passed" else if AnyCritical(vs) then "critical" else "warnings"
  }

  /** The run notes: `All tasks passed.`, or the violation count. */
  function RunNotes(passed: bool, count: nat): string
  {
    if passed then "All tasks passed." else "Detected " + IntToString(count) + " violation(s)."
  }

  /** Notes of failed runs tell their counts apart, and never read as a pass. */
  lemma RunNotesDistinct(n: nat, m: nat)
    ensures RunNotes(false, n) == RunNotes(false, m) <==> n == m
    ensures RunNotes(false, n) != RunNotes(true, m)
  {
    var a, b := RunNotes(false, n), RunNotes(false, m);
    if a == b {
      var sn, sm := IntToString(n), IntToString(m);
      assert |sn| == |sm|;
      assert sn == a[9..9 + |sn|] == sm;
      IntToStringInjective(n, m);
    }
    assert RunNotes(false, n)[0] == 'D' != RunNotes(true, m)[0];
  }

  /**
   * The run request `_save_runner_result` builds: no run id, started at
   * the scan's start or else at the first clock reading `startClock`,
   * completed at the second reading `endClock`, from the backend runner.
   */
  function RunnerRequest(prId: string, vs: seq<AgentViolation>, passed: bool, taskCount: int,
                         start: Option<Instant>, startClock: Instant, endClock: Instant): (req: AgentRunIngest)
    ensures req.runId.None? && req.pullRequestId == prId && req.violations == vs
    ensures req.status == RunStatus(passed, vs) && req.notes == Some(RunNotes(passed, |vs|))
    ensures req.startedAt == Some(if start.Some? then start.value else startClock) && req.completedAt == Some(endClock)
    ensures req.taskCount == taskCount && req.source == "backend_runner"
  {
    AgentRunIngest(None, prId, RunStatus(passed, vs), Some(if start.Some? then start.value else startClock),
                   Some(endClock), taskCount, "backend_runner", Some(RunNotes(passed, |vs|)), vs)
  }

  /**
   * With a clock that does not run backwards, a run never completes before
   * it starts, whether its start was given or read from the clock.
   */
  lemma RunnerRequestOrdered(prId: string, vs: seq<AgentViolation>, passed: bool, taskCount: int,
                             start: Option<Instant>, startClock: Instant, endClock: Instant)
    requires startClock <= endClock
    requires start.Some? ==> start.value <= endClock
    ensures var req := RunnerRequest(prId, vs, passed, taskCount, start, startClock, endClock);
      req.startedAt.value <= req.completedAt.value
  {
  }

  /**
   * Stored as an agent run, a runner result puts its pull request in
   * `ready` exactly when it passed, in `critical` exactly when it failed
   * with a critical violation and otherwise in `violations`, with its
   * violation count and the time it completed.
   */
  lemma RunnerResultOnPullRequest(row: Storage.PullRequestRow, prId: string, vs: seq<AgentViolation>, passed: bool,
                                  taskCount: int, start: Option<Instant>, startClock: Instant, now: Instant,
                                  uuid: string, later: Instant)
    ensures var run := RunToRecord(RunnerRequest(prId, vs, passed, taskCount, start, startClock, now), uuid, later);
      var after := Storage.ApplyRun(row, run);
      && run.runId == "run-" + uuid && run.pullRequestId == prId
      && (after.status == "ready" <==> passed)
      && (after.status == "critical" <==> !passed && AnyCritical(vs))
      && (after.status == "violations" <==> !passed && !AnyCritical(vs))
      && after.violations == |vs| && after.lastRun == Some(now)
  {
    var status := RunStatus(passed, vs);
    Storage.MapRunStatusInverse(status);
  }

  /** `rel_path.lstrip("/\\")`: the path with its leading separators removed. */
  function SafeRel(p: string): (r: string)
    ensures r == [] || (r[0] != '/' && r[0] != '\\')
  {
    LStripChars(p, {'/', '\\'})
  }

  /** Stripping twice is stripping once, and a path without leading separators is kept. */
  lemma SafeRelIdempotent(p: string)
    ensures SafeRel(SafeRel(p)) == SafeRel(p)
    ensures p == [] || (p[0] != '/' && p[0] != '\\') ==> SafeRel(p) == p
  {
  }

  /** The staged location of a file: `str(Path(tmpdir) / safe_rel)`. */
  function Dest(tmpDir: string, rel: string): string
  {
    PyPath.PathStr(tmpDir + "/" + SafeRel(rel))
  }

  /** Paths that differ only in leading separators are staged at the same place. */
  lemma DestIgnoresLeadingSeparators(tmpDir: string, rel: string, lead: string)
    requires forall i :: 0 <= i < |lead| ==> lead[i] == '/' || lead[i] == '\\'
    ensures Dest(tmpDir, lead + rel) == Dest(tmpDir, rel)
  {
    SafeRelPrefix(lead, rel);
  }

  /** Leading separators before a path are all stripped. */
  lemma SafeRelPrefix(lead: string, rel: string)
    requires forall i :: 0 <= i < |lead| ==> lead[i] == '/' || lead[i] == '\\'
    ensures SafeRel(lead + rel) == SafeRel(rel)
  {
    var s := lead + rel;
    assert forall i :: 0 <= i < |lead| ==> s[i] == lead[i];
    LStripDrop(s, {'/', '\\'}, |lead|);
    assert s[|lead|..] == rel;
  }

  /** `lstrip` passes over any run of stripped characters at the front. */
  lemma {:induction false} LStripDrop(s: string, chars: set<char>, k: nat)
    requires k <= |s|
    requires forall i :: 0 <= i < k ==> s[i] in chars
    ensures LStripChars(s, chars) == LStripChars(s[k..], chars)
    decreases k
  {
    if k > 0 {
      LStripStep(s, chars);
      LStripDrop(s[1..], chars, k - 1);
      assert s[1..][k - 1..] == s[k..];
    }
  }

  /** `lstrip` passes over one stripped character at the front. */
  lemma LStripStep(t: string, chars: set<char>)
    requires t != [] && t[0] in chars
    ensures LStripChars(t, chars) == LStripChars(t[1..], chars)
  {
  }

  /** The fetched files among the first `n` paths, in order: those the fetch returned content for. */
  function Fetched(paths: seq<string>, fetch: string -> Option<string>, n: nat): (files: seq<(string, string)>)
    requires n <= |paths|
    ensures |files| <= n
  {
    if n == 0 then []
    else
      var prev := Fetched(paths, fetch, n - 1);
      match fetch(paths[n - 1])
      case None => prev
      case Some(content) => prev + [(paths[n - 1], content)]
  }

  /** A path and content are fetched exactly when the fetch returned that content for that path. */
  lemma {:induction false} FetchedMembers(paths: seq<string>, fetch: string -> Option<string>, n: nat, p: string, c: string)
    requires n <= |paths|
    ensures (p, c) in Fetched(paths, fetch, n) <==>
              exists i :: 0 <= i < n && paths[i] == p && fetch(p) == Some(c)
  {
    if n > 0 {
      FetchedMembers(paths, fetch, n - 1, p, c);
    }
  }

  /** The fetch loop of `_run_scan_sync`: files whose fetch returned nothing are skipped. */
  method CollectFiles(paths: seq<string>, fetch: string -> Option<string>) returns (files: seq<(string, string)>)
    ensures files == Fetched(paths, fetch, |paths|)
  {
    files := [];
    for k := 0 to |paths|
      invariant files == Fetched(paths, fetch, k)
    {
      var content := fetch(paths[k]);
      if content.None? {
        continue;
      }
      files := files + [(paths[k], content.value)];
    }
  }

  /** The staged locations of the first `n` files, in order; `place` is `Dest`. */
  function Dests(place: (string, string) -> string, tmpDir: string, files: seq<(string, string)>, n: nat): (ds: seq<string>)
    requires n <= |files|
    ensures |ds| == n
  {
    if n == 0 then [] else Dests(place, tmpDir, files, n - 1) + [place(tmpDir, files[n - 1].0)]
  }

  /** Each file's staged location, in order. */
  lemma {:induction false} DestsAt(place: (string, string) -> string, tmpDir: string, files: seq<(string, string)>, n: nat, k: nat)
    requires k < n <= |files|
    ensures Dests(place, tmpDir, files, n)[k] == place(tmpDir, files[k].0)
  {
    if k < n - 1 {
      DestsAt(place, tmpDir, files, n - 1, k);
    }
  }

  /** The `path_map` of the first `n` files: staged location to original path, a later file winning. */
  function PathMapOf(place: (string, string) -> string, tmpDir: string, files: seq<(string, string)>, n: nat): map<string, string>
    requires n <= |files|
  {
    if n == 0 then map[] else PathMapOf(place, tmpDir, files, n - 1)[place(tmpDir, files[n - 1].0) := files[n - 1].0]
  }

  /**
   * Each staged location maps back to the original path of the last file
   * staged there; with no two files at one location, every file's location
   * maps back to its own path.
   */
  lemma {:induction false} PathMapBack(place: (string, string) -> string, tmpDir: string, files: seq<(string, string)>, n: nat, i: nat)
    requires i < n <= |files|
    requires forall j :: i < j < n ==> place(tmpDir, files[j].0) != place(tmpDir, files[i].0)
    ensures place(tmpDir, files[i].0) in PathMapOf(place, tmpDir, files, n)
    ensures PathMapOf(place, tmpDir, files, n)[place(tmpDir, files[i].0)] == files[i].0
  {
    if i < n - 1 {
      PathMapBack(place, tmpDir, files, n - 1, i);
    }
  }

  /** Only staged locations are keys of the path map. */
  lemma {:induction false} PathMapKeys(place: (string, string) -> string, tmpDir: string, files: seq<(string, string)>, n: nat, d: string)
    requires n <= |files|
    ensures d in PathMapOf(place, tmpDir, files, n) <==> exists i :: 0 <= i < n && place(tmpDir, files[i].0) == d
  {
    if n > 0 {
      PathMapKeys(place, tmpDir, files, n - 1, d);
    }
  }

  /** The staging loop of `_run_scan_sync`: the staged files in order, and the map back to original paths. */
  method StageFiles(tmpDir: string, files: seq<(string, string)>) returns (staged: seq<string>, pathMap: map<string, string>)
    ensures staged == Dests(Dest, tmpDir, files, |files|)
    ensures pathMap == PathMapOf(Dest, tmpDir, files, |files|)
  {
    staged, pathMap := [], map[];
    for k := 0 to |files|
      invariant staged == Dests(Dest, tmpDir, files, k)
      invariant pathMap == PathMapOf(Dest, tmpDir, files, k)
    {
      var relPath := files[k].0;
      var dest := Dest(tmpDir, relPath);
      staged := staged + [dest];
      pathMap := pathMap[dest := relPath];
    }
  }

  /** `record.head_sha or record.head_branch`: the ref the files are fetched at. */
  function ScanRef(record: PullRequestRecord): string
  {
    if record.headSha.Some? && record.headSha.value != [] then record.headSha.value else record.headBranch
  }

  /** A record read back from storage has no head commit, so files are always fetched at the head branch. */
  lemma ScanRefOfStored(row: Storage.PullRequestRow)
    ensures ScanRef(Storage.RecordOfRow(row)) == row.headBranch
  {
  }

  /** How a scan goes until the validator runs. */
  datatype ScanStart =
    | NoRecord
    | NoTaskSet
    | NoTasks
    | StorePassed(request: AgentRunIngest)
    | FetchFiles(repository: string, ref: string, paths: seq<string>, tasks: seq<map<string, Json>>)

  /**
   * The guards of `_run_scan_sync`: no record, no task set and an empty
   * task list each stop the scan; a pull request without changed files is
   * recorded as passed at once; otherwise its files are fetched at its ref.
   */
  function StartScan(prId: string, record: Option<PullRequestRecord>,
                     payload: Option<(TaskMetadata, seq<map<string, Json>>)>, start: Instant, now: Instant): (s: ScanStart)
    ensures s.FetchFiles? ==> s.paths != [] && s.tasks != []
  {
    if record.None? then NoRecord
    else if payload.None? then NoTaskSet
    else
      var tasks := payload.value.1;
      if tasks == [] then NoTasks
      else if record.value.changedFiles == [] then StorePassed(RunnerRequest(prId, [], true, |tasks|, None, start, now))
      else FetchFiles(record.value.repository, ScanRef(record.value), record.value.changedFiles, tasks)
  }

  /**
   * A pull request without changed files, once there are tasks, is
   * recorded as passed with no violations and every task counted.
   */
  lemma NoChangedFilesPasses(prId: string, record: PullRequestRecord, meta: TaskMetadata,
                             tasks: seq<map<string, Json>>, start: Instant, now: Instant)
    requires tasks != [] && record.changedFiles == []
    ensures var s := StartScan(prId, Some(record), Some((meta, tasks)), start, now);
      && s.StorePassed?
      && s.request.status == "passed" && s.request.violations == []
      && s.request.taskCount == |tasks| && s.request.notes == Some("All tasks passed.")
      && s.request.startedAt == Some(start) && s.request.completedAt == Some(now)
  {
  }

  /**
   * What `_run_scan_sync` does with the validator's report: read its
   * findings (default none) and `ALL_TASKS_MET`, build the violations and
   * the run request. An error where Python raises.
   */
  function FinishScan(prId: string, report: Json, tasks: seq<map<string, Json>>, pathMap: map<string, string>,
                      start: Instant, now: Instant): Result<AgentRunIngest, string>
  {
    if !report.JObj? then Err("report has no attribute 'get'")
    else
      var findings := GetOr(report.fields, "findings", JList([]));
      var passed := Truthy(Get(report.fields, "ALL_TASKS_MET"));
      match BuildViolationsSpec(findings, tasks, pathMap)
      case Err(e) => Err(e)
      case Ok(vs) => Ok(RunnerRequest(prId, vs, passed, |tasks|, Some(start), start, now))
  }

  /**
   * A report the validator writes in JSON mode, against stored tasks,
   * always yields a run: passed exactly when there are no findings, with
   * one violation per finding, in order, at its line, with its message, at
   * the original path of its file.
   */
  lemma FinishScanOfValidatorReport(prId: string, fs: seq<Checks.Finding>, s: Checks.Summary,
                                    tasks: seq<map<string, Json>>, pathMap: map<string, string>, start: Instant, now: Instant)
    requires forall i :: 0 <= i < |tasks| ==> TaskShaped(tasks[i])
    requires forall k :: 0 <= k < |fs| ==> fs[k].message.JStr? && (fs[k].fix.JNull? || fs[k].fix.JStr?)
    ensures var r := FinishScan(prId, Report.Payload(fs, s), tasks, pathMap, start, now);
      && r.Ok?
      && (r.value.status == "passed" <==> fs == [])
      && |r.value.violations| == |fs|
      && forall k :: 0 <= k < |fs| ==>
           && r.value.violations[k].line == fs[k].line
           && r.value.violations[k].message == fs[k].message.s
           && r.value.violations[k].file == (if fs[k].file in pathMap then pathMap[fs[k].file] else fs[k].file)
  {
    var report := Report.Payload(fs, s);
    assert report.fields["findings"] == JList(Report.FindingDicts(fs));
    assert Get(report.fields, "ALL_TASKS_MET") == JBool(fs == []);
    BuildViolationsOfFindings(fs, tasks, pathMap);
  }

  /**
   * The validator's findings, as dicts, against stored tasks: one
   * violation per finding, in order, at its line, with its message, at the
   * original path of its file.
   */
  lemma BuildViolationsOfFindings(fs: seq<Checks.Finding>, tasks: seq<map<string, Json>>, pathMap: map<string, string>)
    requires forall i :: 0 <= i < |tasks| ==> TaskShaped(tasks[i])
    requires forall k :: 0 <= k < |fs| ==> fs[k].message.JStr? && (fs[k].fix.JNull? || fs[k].fix.JStr?)
    ensures var r := BuildViolationsSpec(JList(Report.FindingDicts(fs)), tasks, pathMap);
      && r.Ok?
      && |r.value| == |fs|
      && forall k :: 0 <= k < |fs| ==>
           && r.value[k].line == fs[k].line
           && r.value[k].message == fs[k].message.s
           && r.value[k].file == (if fs[k].file in pathMap then pathMap[fs[k].file] else fs[k].file)
  {
    var items := Report.FindingDicts(fs);
    if fs != [] {
      var titles, ids := Index(tasks, TitleKey), Index(tasks, IdKey);
      var step := Step(titles, ids, pathMap);
      forall k | 0 <= k < |fs|
        ensures step(items[k]).Ok?
        ensures var v := step(items[k]).value;
          v.line == fs[k].line && v.message == fs[k].message.s
          && v.file == (if fs[k].file in pathMap then pathMap[fs[k].file] else fs[k].file)
      {
        Report.FindingDictRoundTrip(fs[k]);
        LookupShaped(tasks, JStr(fs[k].task));
        ViolationOfFinding(fs[k], Report.FindingDict(fs[k]), titles, ids, pathMap);
      }
      ViolationsOfEach(items, |items|, step);
    }
  }

  /** How a scan ends: stopped without storing anything, with a run request to store, or raised. */
  datatype ScanOutcome = Skipped | Stored(request: AgentRunIngest) | Raised(error: string)

  /**
   * `_run_scan_sync` as the function that specifies it. `fetch` stands for
   * `fetch_file_content` (repository, path, ref), `report` for the
   * validator's parsed output (None when it fails, prints nothing or prints
   * invalid JSON). `start` is the run's first clock reading (the scan's
   * start, or the reading `_save_runner_result` falls back to when no
   * files changed) and `now` its last (the completion time).
   */
  function ScanSpec(prId: string, record: Option<PullRequestRecord>,
                    payload: Option<(TaskMetadata, seq<map<string, Json>>)>,
                    fetch: (string, string, string) -> Option<string>, tmpDir: string,
                    report: Option<Json>, start: Instant, now: Instant): ScanOutcome
  {
    match StartScan(prId, record, payload, start, now)
    case StorePassed(req) => Stored(req)
    case FetchFiles(repository, ref, paths, tasks) =>
      var files := Fetched(paths, p => fetch(repository, p, ref), |paths|);
      if files == [] || report.None? then Skipped
      else
        (match FinishScan(prId, report.value, tasks, PathMapOf(Dest, tmpDir, files, |files|), start, now)
         case Err(e) => Raised(e)
         case Ok(req) => Stored(req))
    case _ => Skipped
  }

  /** A scan whose fetches all fail stores nothing. */
  lemma ScanWithoutContentSkips(prId: string, record: PullRequestRecord,
                                payload: (TaskMetadata, seq<map<string, Json>>),
                                fetch: (string, string, string) -> Option<string>, tmpDir: string,
                                report: Option<Json>, start: Instant, now: Instant)
    requires record.changedFiles != [] && payload.1 != []
    requires forall p :: fetch(record.repository, p, ScanRef(record)) == None
    ensures ScanSpec(prId, Some(record), Some(payload), fetch, tmpDir, report, start, now) == Skipped
  {
    var paths := record.changedFiles;
    var files := Fetched(paths, p => fetch(record.repository, p, ScanRef(record)), |paths|);
    if files != [] {
      var f := files[0];
      FetchedMembers(paths, p => fetch(record.repository, p, ScanRef(record)), |paths|, f.0, f.1);
    }
  }

  /** `_run_scan_sync`, step by step; storing the resulting request is left to the caller. */
  method RunScan(prId: string, record: Option<PullRequestRecord>,
                 payload: Option<(TaskMetadata, seq<map<string, Json>>)>,
                 fetch: (string, string, string) -> Option<string>, tmpDir: string,
                 report: Option<Json>, start: Instant, now: Instant) returns (out: ScanOutcome)
    ensures out == ScanSpec(prId, record, payload, fetch, tmpDir, report, start, now)
  {
    var plan := StartScan(prId, record, payload, start, now);
    if plan.StorePassed? {
      return Stored(plan.request);
    }
    if !plan.FetchFiles? {
      return Skipped;
    }
    var repository, ref := plan.repository, plan.ref;
    var files := CollectFiles(plan.paths, p => fetch(repository, p, ref));
    if files == [] {
      return Skipped;
    }
    var staged, pathMap := StageFiles(tmpDir, files);
    if report.None? {
      return Skipped;
    }
    var result := FinishScan(prId, report.value, plan.tasks, pathMap, start, now);
    if result.Err? {
      return Raised(result.error);
    }
    return Stored(result.value);
  }

  /**
   * How pydantic builds an `AgentViolation` from keyword arguments: a field
   * with an alias is read only under the alias, other keywords are ignored,
   * and a required field that is not given fails validation.
   */
  function ViolationByKeywords(kw: map<string, Json>): (r: Result<AgentViolation, string>)
    ensures r.Ok? ==> "taskId" in kw && "message" in kw && "file" in kw && "line" in kw && "severity" in kw
  {
    if "taskId" !in kw then Err("taskId: Field required")
    else if "message" !in kw then Err("message: Field required")
    else if "file" !in kw then Err("file: Field required")
    else if "line" !in kw then Err("line: Field required")
    else if "severity" !in kw then Err("severity: Field required")
    else
      var fix := GetOr(kw, "suggestedFix", JNull);
      if kw["taskId"].JStr? && kw["message"].JStr? && kw["file"].JStr? && kw["line"].JInt?
         && kw["severity"].JStr? && (fix.JNull? || fix.JStr?)
      then Ok(AgentViolation(kw["taskId"].s, kw["message"].s, kw["file"].s, kw["line"].i, kw["severity"].s,
                             if fix.JStr? then Some(fix.s) else None))
      else Err("AgentViolation: invalid field")
  }

  /** The keyword arguments `_build_violations` passes, under the Python field names. */
  function RunnerViolationKeywords(taskId: Json, message: Json, file: Json, line: int, severity: Json, fix: Json): map<string, Json>
  {
    map["task_id" := taskId, "message" := message, "file" := file, "line" := JInt(line),
        "severity" := severity, "suggested_fix" := fix]
  }

  /**
   * As written, every violation the runner builds fails validation: the
   * task id is passed as `task_id`, which `AgentViolation` only accepts as
   * `taskId`.
   */
  lemma RunnerViolationAsWrittenRaises(taskId: Json, message: Json, file: Json, line: int, severity: Json, fix: Json)
    ensures ViolationByKeywords(RunnerViolationKeywords(taskId, message, file, line, severity, fix))
            == Err("taskId: Field required")
  {
  }

  /** Passed under the alias, the same arguments give the violation `ViolationOf` builds. */
  lemma ViolationByAliasAgrees(taskId: string, message: string, file: string, line: int, severity: string, fix: Option<string>)
    ensures ViolationByKeywords(map["taskId" := JStr(taskId), "message" := JStr(message), "file" := JStr(file),
                                    "line" := JInt(line), "severity" := JStr(severity),
                                    "suggestedFix" := if fix.Some? then JStr(fix.value) else JNull])
            == Ok(AgentViolation(taskId, message, file, line, severity, fix))
  {
  }

  /**
   * How pydantic builds an `AgentRunIngestRequest` from the keywords named
   * in `given`: each field takes its value when its accepted name (the
   * alias, where it has one) was passed, and its default otherwise.
   */
  function RunRequestByKeywords(given: set<string>, prId: string, status: string, start: Option<Instant>,
                                end: Option<Instant>, taskCount: int, source: string, notes: Option<string>,
                                vs: seq<AgentViolation>): (r: Result<AgentRunIngest, string>)
    ensures r.Ok? <==> "pullRequestId" in given && "status" in given
  {
    if "pullRequestId" !in given then Err("pullRequestId: Field required")
    else if "status" !in given then Err("status: Field required")
    else Ok(AgentRunIngest(
      None, prId, status,
      if "startedAt" in given then start else None,
      if "completedAt" in given then end else None,
      if "taskCount" in given then taskCount else 0,
      if "source" in given then source else "github_action",
      if "notes" in given then notes else None,
      if "violations" in given then vs else []))
  }

  /** The keywords `_save_runner_result` passes. */
  const RunnerRunKeywords: set<string> :=
    {"pullRequestId", "status", "started_at", "completed_at", "task_count", "source", "notes", "violations"}

  /**
   * As written, the runner's request loses its start, its end and its task
   * count: those are passed under Python names the model does not accept.
   */
  lemma RunnerRequestAsWrittenDrops(prId: string, vs: seq<AgentViolation>, passed: bool, taskCount: int,
                                    start: Option<Instant>, startClock: Instant, now: Instant)
    ensures var intended := RunnerRequest(prId, vs, passed, taskCount, start, startClock, now);
      var r := RunRequestByKeywords(RunnerRunKeywords, prId, intended.status, intended.startedAt,
                                    intended.completedAt, taskCount, "backend_runner", intended.notes, vs);
      && r == Ok(intended.(startedAt := None, completedAt := None, taskCount := 0))
      && (taskCount != 0 ==> r != Ok(intended))
  {
  }
}

=== FILE: Schemas.dfy ===
/**
 * The backend's request and record shapes (`backend/app/schemas.py`): the
 * field defaults, the `size >= 0` constraint, the by-alias task payload,
 * and the two `to_record` conversions that fill in a missing id.
 */
module Schemas {
  import opened Wrappers
  import opened PyText
  import opened PyJson
  import PyPath

  /** A point in time, as microseconds on one clock; only its order and equality matter here. */
  type Instant = int

  /** An uploaded source file; `size` is constrained to be at least zero. */
  datatype SourceFile = SourceFile(name: string, size: nat, mime: Option<string>)

  /** Building a `SourceFile`: validation fails exactly when the size is negative. */
  function NewSourceFile(name: string, size: int, mime: Option<string>): (r: Result<SourceFile, string>)
    ensures r.Ok? <==> size >= 0
    ensures r.Ok? ==> r.value.name == name && r.value.size == size && r.value.mime == mime
  {
    if size < 0 then Err("size: Input should be greater than or equal to 0")
    else Ok(SourceFile(name, size, mime))
  }

  /** A task as the dashboard uploads it. */
  datatype Task = Task(
    id: string, title: string, description: string, category: string, severity: string,
    checkType: string, fileTypes: seq<string>, exampleViolation: string, suggestedFix: string,
    docReference: string)

  /** `task.as_payload()`: the task as a dict keyed by the field aliases. */
  function TaskPayload(t: Task): map<string, Json>
  {
    map[
      "id" := JStr(t.id), "title" := JStr(t.title), "description" := JStr(t.description),
      "category" := JStr(t.category), "severity" := JStr(t.severity),
      "checkType" := JStr(t.checkType),
      "fileTypes" := JList(seq(|t.fileTypes|, k requires 0 <= k < |t.fileTypes| => JStr(t.fileTypes[k]))),
      "exampleViolation" := JStr(t.exampleViolation), "suggestedFix" := JStr(t.suggestedFix),
      "docReference" := JStr(t.docReference)]
  }

  /**
   * The payload holds the id, title and severity the runner later looks
   * tasks up by, and uses the camel-case aliases rather than the Python
   * field names.
   */
  lemma TaskPayloadFields(t: Task)
    ensures var p := TaskPayload(t);
      && Get(p, "id") == JStr(t.id) && Get(p, "title") == JStr(t.title)
      && Get(p, "severity") == JStr(t.severity)
      && "checkType" in p && "check_type" !in p && "name" !in p
      && p.Keys == {"id", "title", "description", "category", "severity", "checkType",
                    "fileTypes", "exampleViolation", "suggestedFix", "docReference"}
  {
  }

  /** What the upload endpoint returns and the task store keeps about one task set. */
  datatype TaskMetadata = TaskMetadata(taskSetId: string, createdAt: Instant, taskCount: int, path: string)

  /** The stored pull request as the API returns it. */
  datatype PullRequestRecord = PullRequestRecord(
    id: string, number: int, title: string, repository: string, author: string, status: string,
    filesChanged: int, violations: int, linesAdded: int, linesRemoved: int, lastRun: Option<Instant>,
    baseBranch: string, headBranch: string, headSha: Option<string>, changedFiles: seq<string>)

  /** The list view of a pull request: the record without branches, head commit and file list. */
  datatype PullRequestSummary = PullRequestSummary(
    id: string, number: int, title: string, repository: string, author: string, status: string,
    filesChanged: int, violations: int, linesAdded: int, linesRemoved: int, lastRun: Option<Instant>)

  /** A pull request as the ingest endpoint and the webhook submit it. */
  datatype PullRequestIngest = PullRequestIngest(
    repository: string, number: int, title: string, author: string,
    baseBranch: string, headBranch: string, headSha: Option<string>,
    filesChanged: int, linesAdded: int, linesRemoved: int, changedFiles: seq<string>,
    status: string, violations: int, prId: Option<string>)

  /**
   * A `PullRequestIngestRequest` built from only its required fields: no
   * head commit, an empty `changed_files` list, status `pending`, no
   * violations and no id.
   */
  function NewPullRequestIngest(
    repository: string, number: int, title: string, author: string,
    baseBranch: string, headBranch: string, filesChanged: int, linesAdded: int, linesRemoved: int): (r: PullRequestIngest)
    ensures r.status == "pending" && r.violations == 0 && r.prId.None? && r.headSha.None? && r.changedFiles == []
    ensures r.repository == repository && r.number == number && r.title == title && r.author == author
    ensures r.baseBranch == baseBranch && r.headBranch == headBranch
    ensures r.filesChanged == filesChanged && r.linesAdded == linesAdded && r.linesRemoved == linesRemoved
  {
    PullRequestIngest(repository, number, title, author, baseBranch, headBranch, None,
                      filesChanged, linesAdded, linesRemoved, [], "pending", 0, None)
  }

  /** The id a pull request gets when none is given: `{repository}#PR-{number}`. */
  function DefaultPrId(repository: string, number: int): (id: string)
    ensures |id| > |repository| + 4 && id[..|repository|] == repository
  {
    repository + "#PR-" + IntToString(number)
  }

  /** `PullRequestIngestRequest.to_record()`: the given id unless it is missing or empty, every other field copied. */
  function PrToRecord(req: PullRequestIngest): (r: PullRequestRecord)
    ensures r.id == (if req.prId.Some? && req.prId.value != [] then req.prId.value
                     else DefaultPrId(req.repository, req.number))
  {
    var id := if req.prId.Some? && req.prId.value != [] then req.prId.value
              else DefaultPrId(req.repository, req.number);
    PullRequestRecord(id, req.number, req.title, req.repository, req.author, req.status,
                      req.filesChanged, req.violations, req.linesAdded, req.linesRemoved, None,
                      req.baseBranch, req.headBranch, req.headSha, req.changedFiles)
  }

  /**
   * Every field of the request reaches the record unchanged, the head
   * commit and the file list included, and the record has not run yet.
   */
  lemma PrToRecordCopies(req: PullRequestIngest)
    ensures var r := PrToRecord(req);
      && r.number == req.number && r.title == req.title && r.repository == req.repository
      && r.author == req.author && r.status == req.status && r.filesChanged == req.filesChanged
      && r.violations == req.violations && r.linesAdded == req.linesAdded
      && r.linesRemoved == req.linesRemoved && r.baseBranch == req.baseBranch
      && r.headBranch == req.headBranch && r.headSha == req.headSha
      && r.changedFiles == req.changedFiles && r.lastRun.None?
  {
  }

  /**
   * Two pull requests that get default ids share one only when they have
   * the same repository and number: the number's text holds no `#`, so the
   * last `#PR-` splits the id unambiguously.
   */
  lemma DefaultPrIdInjective(repo1: string, n1: int, repo2: string, n2: int)
    requires DefaultPrId(repo1, n1) == DefaultPrId(repo2, n2)
    ensures repo1 == repo2 && n1 == n2
  {
    var s1, s2 := IntToString(n1), IntToString(n2);
    var id := DefaultPrId(repo1, n1);
    assert id == repo1 + "#PR-" + s1 == repo2 + "#PR-" + s2;
    LastHash(repo1, s1);
    LastHash(repo2, s2);
    assert repo1 == id[..|repo1|] == repo2;
    assert s1 == id[|repo1| + 4..] == s2;
    IntToStringInjective(n1, n2);
  }

  /** In `a + "#PR-" + s` with no `#` in `s`, the last `#` is the one after `a`. */
  lemma LastHash(a: string, s: string)
    requires '#' !in s
    ensures PyPath.RFindChar(a + "#PR-" + s, '#') == |a|
  {
    LastOf(a, "#PR-", s, '#');
  }

  /** The last `c` of `a + mid + t` is the first character of `mid`, when no other character of `mid` or `t` is `c`. */
  lemma LastOf(a: string, mid: string, t: string, c: char)
    requires |mid| >= 1 && mid[0] == c && c !in t
    requires forall j :: 1 <= j < |mid| ==> mid[j] != c
    ensures PyPath.RFindChar(a + mid + t, c) == |a|
  {
    var id := a + mid + t;
    forall k | |a| < k < |id|
      ensures id[k] != c
    {
      if k < |a| + |mid| {
        assert id[k] == mid[k - |a|];
      } else {
        assert id[k] == t[k - |a| - |mid|];
      }
    }
    PyPath.RFindCharAt(id, c, |a|);
  }

  /** One violation an agent run reports. */
  datatype AgentViolation = AgentViolation(
    taskId: string, message: string, file: string, line: int, severity: string,
    suggestedFix: Option<string>)

  /** A stored agent run. */
  datatype AgentRunRecord = AgentRunRecord(
    runId: string, pullRequestId: string, status: string, startedAt: Instant,
    completedAt: Option<Instant>, taskCount: int, source: string, notes: Option<string>,
    violations: seq<AgentViolation>)

  /** An agent run as the ingest endpoint and the runner submit it. */
  datatype AgentRunIngest = AgentRunIngest(
    runId: Option<string>, pullRequestId: string, status: string, startedAt: Option<Instant>,
    completedAt: Option<Instant>, taskCount: int, source: string, notes: Option<string>,
    violations: seq<AgentViolation>)

  /**
   * An `AgentRunIngestRequest` built from only its required fields: no run
   * id, no start or end time, no tasks counted, source `github_action`, no
   * notes and no violations.
   */
  function NewAgentRunIngest(pullRequestId: string, status: string): (r: AgentRunIngest)
    ensures r.taskCount == 0 && r.source == "github_action"
    ensures r.runId.None? && r.startedAt.None? && r.completedAt.None? && r.notes.None? && r.violations == []
    ensures r.pullRequestId == pullRequestId && r.status == status
  {
    AgentRunIngest(None, pullRequestId, status, None, None, 0, "github_action", None, [])
  }

  /**
   * `AgentRunIngestRequest.to_record()`. `uuid` stands for the text of a
   * fresh `uuid4()` and `now` for the clock reading.
   */
  function RunToRecord(req: AgentRunIngest, uuid: string, now: Instant): (r: AgentRunRecord)
    ensures r.runId == (if req.runId.Some? && req.runId.value != [] then req.runId.value else "run-" + uuid)
    ensures r.startedAt == (if req.startedAt.Some? then req.startedAt.value else now)
  {
    AgentRunRecord(
      if req.runId.Some? && req.runId.value != [] then req.runId.value else "run-" + uuid,
      req.pullRequestId, req.status,
      if req.startedAt.Some? then req.startedAt.value else now,
      req.completedAt, req.taskCount, req.source, req.notes, req.violations)
  }

  /** Every other field of the run request reaches the record unchanged. */
  lemma RunToRecordCopies(req: AgentRunIngest, uuid: string, now: Instant)
    ensures var r := RunToRecord(req, uuid, now);
      && r.pullRequestId == req.pullRequestId && r.status == req.status
      && r.completedAt == req.completedAt && r.taskCount == req.taskCount
      && r.source == req.source && r.notes == req.notes && r.violations == req.violations
  {
  }

  /**
   * A run submitted without an id gets one of the form `run-<uuid>`, so two
   * such runs get different ids exactly when their uuids differ; an id that
   * is given is never replaced.
   */
  lemma RunToRecordIds(req1: AgentRunIngest, req2: AgentRunIngest, u1: string, u2: string, t1: Instant, t2: Instant)
    requires req1.runId.None? && req2.runId.None?
    ensures RunToRecord(req1, u1, t1).runId == RunToRecord(req2, u2, t2).runId <==> u1 == u2
  {
    var a, b := RunToRecord(req1, u1, t1).runId, RunToRecord(req2, u2, t2).runId;
    if a == b {
      assert u1 == a[4..] == u2;
    }
  }
}

=== FILE: Storage.dfy ===
/**
 * The backend's tables (`backend/app/storage.py`) as maps keyed by their
 * primary keys: task sets by `task_set_id`, pull requests by `id`, agent
 * runs by `run_id`. Each function of the storage module is a method of
 * `Store` that reads or updates those maps the way the session does.
 */
module Storage {
  import opened Wrappers
  import opened PyText
  import opened PyJson
  import opened Schemas

  /** A row of the task-set table. */
  datatype TaskSetRow = TaskSetRow(taskSetId: string, createdAt: Instant, taskCount: int, tasks: seq<map<string, Json>>)

  /**
   * A row of the pull-request table. The table has no column for the head
   * commit, so a row keeps every field of a record except `headSha`.
   */
  datatype PullRequestRow = PullRequestRow(
    id: string, repository: string, number: int, title: string, author: string, status: string,
    filesChanged: int, violations: int, linesAdded: int, linesRemoved: int,
    baseBranch: string, headBranch: string, changedFiles: seq<string>, lastRun: Option<Instant>)

  /** A row of the agent-run table. */
  datatype AgentRunRow = AgentRunRow(
    runId: string, pullRequestId: string, status: string, startedAt: Instant,
    completedAt: Option<Instant>, taskCount: int, source: string, notes: Option<string>,
    violations: seq<AgentViolation>)

  /** The task-set id for a creation time written in ISO format: `taskset-` and the time with `:` replaced by `-`. */
  function TaskSetId(iso: string): (id: string)
    ensures |id| == 8 + |iso| && id[..8] == "taskset-"
    ensures ':' !in id
  {
    var body := ReplaceChar(iso, ':', '-');
    assert forall i :: 0 <= i < |body| ==> body[i] != ':';
    "taskset-" + body
  }

  /** The metadata returned for a stored task set; its path is `taskset://` and the id. */
  function MetadataOf(row: TaskSetRow): (m: TaskMetadata)
    ensures m.taskSetId == row.taskSetId && m.createdAt == row.createdAt && m.taskCount == row.taskCount
    ensures m.path == "taskset://" + row.taskSetId
  {
    TaskMetadata(row.taskSetId, row.createdAt, row.taskCount, "taskset://" + row.taskSetId)
  }

  /** The stored payload of a task list: each task's `as_payload()`, in order. */
  function TaskPayloads(tasks: seq<Task>): (ps: seq<map<string, Json>>)
    ensures |ps| == |tasks|
    ensures forall k :: 0 <= k < |tasks| ==> ps[k] == TaskPayload(tasks[k])
  {
    seq(|tasks|, k requires 0 <= k < |tasks| => TaskPayload(tasks[k]))
  }

  /** The row a record is stored as: every field but the head commit. */
  function RowOf(r: PullRequestRecord): PullRequestRow
  {
    PullRequestRow(r.id, r.repository, r.number, r.title, r.author, r.status, r.filesChanged,
                   r.violations, r.linesAdded, r.linesRemoved, r.baseBranch, r.headBranch,
                   r.changedFiles, r.lastRun)
  }

  /** `load_pull_request_record`'s conversion of a row; `head_sha` is left at its default. */
  function RecordOfRow(row: PullRequestRow): PullRequestRecord
  {
    PullRequestRecord(row.id, row.number, row.title, row.repository, row.author, row.status,
                      row.filesChanged, row.violations, row.linesAdded, row.linesRemoved, row.lastRun,
                      row.baseBranch, row.headBranch, None, row.changedFiles)
  }

  /** The summary fields of a row. */
  function SummaryOfRow(row: PullRequestRow): PullRequestSummary
  {
    PullRequestSummary(row.id, row.number, row.title, row.repository, row.author, row.status,
                       row.filesChanged, row.violations, row.linesAdded, row.linesRemoved, row.lastRun)
  }

  /** The summary fields of a record. */
  function SummaryOfRecord(r: PullRequestRecord): PullRequestSummary
  {
    PullRequestSummary(r.id, r.number, r.title, r.repository, r.author, r.status,
                       r.filesChanged, r.violations, r.linesAdded, r.linesRemoved, r.lastRun)
  }

  /**
   * A stored pull request reads back as the record that was stored, except
   * that its head commit is gone: the table has no column for it. Its
   * summary is the record's summary.
   */
  lemma StoredRecordReadsBack(r: PullRequestRecord)
    ensures RecordOfRow(RowOf(r)) == r.(headSha := None)
    ensures SummaryOfRow(RowOf(r)) == SummaryOfRecord(r)
    ensures r.headSha.Some? ==> RecordOfRow(RowOf(r)) != r
  {
  }

  /** A row reads back as itself: storing what was loaded changes nothing. */
  lemma LoadedRowStoresBack(row: PullRequestRow)
    ensures RowOf(RecordOfRow(row)) == row
  {
  }

  /** The row of a stored run. */
  function RunRowOf(r: AgentRunRecord): AgentRunRow
  {
    AgentRunRow(r.runId, r.pullRequestId, r.status, r.startedAt, r.completedAt, r.taskCount,
                r.source, r.notes, r.violations)
  }

  /** `load_agent_run`'s conversion of a row. */
  function RunRecordOfRow(row: AgentRunRow): AgentRunRecord
  {
    AgentRunRecord(row.runId, row.pullRequestId, row.status, row.startedAt, row.completedAt,
                   row.taskCount, row.source, row.notes, row.violations)
  }

  /** A stored run reads back unchanged. */
  lemma StoredRunReadsBack(r: AgentRunRecord)
    ensures RunRecordOfRow(RunRowOf(r)) == r
  {
  }

  /** `_map_run_status`: the pull-request status that a run's status puts the pull request in. */
  function MapRunStatus(runStatus: string): (s: string)
    ensures s == "ready" || s == "violations" || s == "critical" || s == "pending"
  {
    if runStatus == "passed" then "ready"
    else if runStatus == "warnings" then "violations"
    else if runStatus == "critical" || runStatus == "error" then "critical"
    else "pending"
  }

  /** Each pull-request status comes from exactly these run statuses. */
  lemma MapRunStatusInverse(runStatus: string)
    ensures MapRunStatus(runStatus) == "ready" <==> runStatus == "passed"
    ensures MapRunStatus(runStatus) == "violations" <==> runStatus == "warnings"
    ensures MapRunStatus(runStatus) == "critical" <==> runStatus == "critical" || runStatus == "error"
    ensures MapRunStatus(runStatus) == "pending" <==>
              runStatus !in {"passed", "warnings", "critical", "error"}
  {
  }

  /**
   * What a run does to its pull request's row: the status follows the run,
   * the violation count is the run's, and the last run is the run's end, or
   * its start when it has no end.
   */
  function ApplyRun(row: PullRequestRow, run: AgentRunRecord): (r: PullRequestRow)
    ensures r.status == MapRunStatus(run.status) && r.violations == |run.violations|
    ensures r.lastRun == Some(if run.completedAt.Some? then run.completedAt.value else run.startedAt)
  {
    row.(status := MapRunStatus(run.status), violations := |run.violations|,
         lastRun := Some(if run.completedAt.Some? then run.completedAt.value else run.startedAt))
  }

  /** A run leaves every other field of the pull request as it was. */
  lemma ApplyRunKeeps(row: PullRequestRow, run: AgentRunRecord)
    ensures ApplyRun(row, run).(status := row.status, violations := row.violations, lastRun := row.lastRun) == row
    ensures ApplyRun(row, run).id == row.id && ApplyRun(row, run).changedFiles == row.changedFiles
  {
  }

  /** Applying the same run twice is applying it once. */
  lemma ApplyRunIdempotent(row: PullRequestRow, run: AgentRunRecord)
    ensures ApplyRun(ApplyRun(row, run), run) == ApplyRun(row, run)
  {
  }

  /** `k` holds a greatest value of `m`. */
  predicate IsGreatest<K>(m: map<K, int>, k: K)
  {
    k in m && forall k2 :: k2 in m ==> m[k2] <= m[k]
  }

  /** A map that is not empty has a key holding its greatest value. */
  lemma {:induction false} GreatestExists<K>(m: map<K, int>)
    requires m != map[]
    ensures exists k :: IsGreatest(m, k)
    decreases |m|
  {
    var k0 :| k0 in m;
    var rest := m - {k0};
    if rest == map[] {
      forall k2 | k2 in m
        ensures k2 == k0
      {
        assert k2 !in rest;
      }
      assert IsGreatest(m, k0);
    } else {
      assert |rest| < |m| by {
        assert rest.Keys == m.Keys - {k0};
      }
      GreatestExists(rest);
      var k1 :| IsGreatest(rest, k1);
      var best := if m[k0] <= m[k1] then k1 else k0;
      forall k2 | k2 in m
        ensures m[k2] <= m[best]
      {
        if k2 != k0 {
          assert k2 in rest && rest[k2] <= rest[k1];
        }
      }
      assert IsGreatest(m, best);
    }
  }

  /** A value above every other one is the only greatest. */
  lemma GreatestOfNewest<K>(m: map<K, int>, k: K, v: int, after: map<K, int>)
    requires forall k2 :: k2 in m ==> m[k2] < v
    requires after == m[k := v]
    ensures IsGreatest(after, k)
    ensures forall k2 :: IsGreatest(after, k2) ==> k2 == k
  {
  }

  /** The creation times of the task sets, by id. */
  function CreatedTimes(sets: map<string, TaskSetRow>): (m: map<string, int>)
    ensures m.Keys == sets.Keys
  {
    map id | id in sets :: sets[id].createdAt
  }

  /** The start times of the runs of one pull request, by run id. */
  function StartTimes(runs: map<string, AgentRunRow>, prId: string): (m: map<string, int>)
    ensures forall id :: id in m <==> id in runs && runs[id].pullRequestId == prId
  {
    map id | id in runs && runs[id].pullRequestId == prId :: runs[id].startedAt
  }

  /**
   * A task set saved later than every stored one is the one the latest-task
   * query then returns.
   */
  lemma LatestAfterSave(sets: map<string, TaskSetRow>, row: TaskSetRow, after: map<string, TaskSetRow>)
    requires forall id :: id in sets ==> sets[id].createdAt < row.createdAt
    requires after == sets[row.taskSetId := row]
    ensures forall id :: IsGreatest(CreatedTimes(after), id) <==> id == row.taskSetId
  {
    var m := CreatedTimes(sets);
    assert CreatedTimes(after) == m[row.taskSetId := row.createdAt];
    GreatestOfNewest(m, row.taskSetId, row.createdAt, CreatedTimes(after));
  }

  class Store {
    var taskSets: map<string, TaskSetRow>
    var pullRequests: map<string, PullRequestRow>
    var agentRuns: map<string, AgentRunRow>

    /** Each table is keyed by its rows' primary key. */
    ghost predicate Valid()
      reads this
    {
      && (forall id :: id in taskSets ==> taskSets[id].taskSetId == id)
      && (forall id :: id in pullRequests ==> pullRequests[id].id == id)
      && (forall id :: id in agentRuns ==> agentRuns[id].runId == id)
    }

    /** An empty database. */
    constructor()
      ensures Valid()
      ensures taskSets == map[] && pullRequests == map[] && agentRuns == map[]
    {
      taskSets, pullRequests, agentRuns := map[], map[], map[];
    }

    /**
     * `save_task_set`: a new row under `taskset-<time>` holding the task
     * payloads and their count. `now` and `nowIso` stand for the clock
     * reading and its ISO text. A second set saved at the same instant
     * breaks the id's uniqueness and the commit fails.
     */
    method SaveTaskSet(tasks: seq<Task>, now: Instant, nowIso: string) returns (r: Result<TaskMetadata, string>)
      requires Valid()
      modifies this
      ensures Valid()
      ensures var id := TaskSetId(nowIso);
        if id in old(taskSets) then r.Err? && taskSets == old(taskSets)
        else
          && taskSets == old(taskSets)[id := TaskSetRow(id, now, |tasks|, TaskPayloads(tasks))]
          && r == Ok(TaskMetadata(id, now, |tasks|, "taskset://" + id))
      ensures pullRequests == old(pullRequests) && agentRuns == old(agentRuns)
    {
      var id := TaskSetId(nowIso);
      var payload := TaskPayloads(tasks);
      if id in taskSets {
        return Err("UNIQUE constraint failed: taskset.task_set_id");
      }
      var entry := TaskSetRow(id, now, |payload|, payload);
      taskSets := taskSets[id := entry];
      return Ok(MetadataOf(entry));
    }

    /**
     * `load_latest_tasks_payload`: nothing when no task set is stored, else
     * the metadata and tasks of a set created no earlier than any other
     * (which of several equally recent sets is unspecified).
     */
    method LoadLatestTasksPayload() returns (r: Option<(TaskMetadata, seq<map<string, Json>>)>)
      ensures r.None? <==> taskSets == map[]
      ensures r.Some? ==> exists id :: IsGreatest(CreatedTimes(taskSets), id)
                            && r.value == (MetadataOf(taskSets[id]), taskSets[id].tasks)
    {
      if taskSets == map[] {
        return None;
      }
      var times := CreatedTimes(taskSets);
      GreatestExists(times);
      var id :| IsGreatest(times, id);
      var row := taskSets[id];
      return Some((MetadataOf(row), row.tasks));
    }

    /** `load_pull_request_record`: the stored pull request, without its head commit. */
    function LoadPullRequestRecord(prId: string): (r: Option<PullRequestRecord>)
      reads this
      requires Valid()
      ensures r.Some? <==> prId in pullRequests
      ensures r.Some? ==> r.value.id == prId && r.value.headSha.None?
    {
      if prId in pullRequests then Some(RecordOfRow(pullRequests[prId])) else None
    }

    /**
     * `upsert_pull_request`: a new row when the id is not stored, else every
     * field of the stored row overwritten; either way the row ends up as the
     * record's, and the summary of that row is returned.
     */
    method UpsertPullRequest(record: PullRequestRecord) returns (s: PullRequestSummary)
      requires Valid()
      modifies this
      ensures Valid()
      ensures pullRequests == old(pullRequests)[record.id := RowOf(record)]
      ensures s == SummaryOfRecord(record)
      ensures taskSets == old(taskSets) && agentRuns == old(agentRuns)
    {
      var pr: PullRequestRow;
      if record.id !in pullRequests {
        pr := RowOf(record);
      } else {
        pr := pullRequests[record.id];
        pr := pr.(repository := record.repository, number := record.number, title := record.title,
                  author := record.author, status := record.status, filesChanged := record.filesChanged,
                  violations := record.violations, linesAdded := record.linesAdded,
                  linesRemoved := record.linesRemoved, baseBranch := record.baseBranch,
                  headBranch := record.headBranch, changedFiles := record.changedFiles,
                  lastRun := record.lastRun);
      }
      pullRequests := pullRequests[record.id := pr];
      return SummaryOfRow(pr);
    }

    /**
     * `save_agent_run`: the run is inserted or replaces the stored run with
     * its id; when its pull request is stored, that row takes the run's
     * status, violation count and time. A run for an unknown pull request is
     * still stored.
     */
    method SaveAgentRun(record: AgentRunRecord)
      requires Valid()
      modifies this
      ensures Valid()
      ensures agentRuns == old(agentRuns)[record.runId := RunRowOf(record)]
      ensures record.pullRequestId in old(pullRequests) ==>
                pullRequests == old(pullRequests)[record.pullRequestId := ApplyRun(old(pullRequests)[record.pullRequestId], record)]
      ensures record.pullRequestId !in old(pullRequests) ==> pullRequests == old(pullRequests)
      ensures taskSets == old(taskSets)
    {
      agentRuns := agentRuns[record.runId := RunRowOf(record)];
      if record.pullRequestId in pullRequests {
        var pr := pullRequests[record.pullRequestId];
        pr := pr.(status := MapRunStatus(record.status), violations := |record.violations|,
                  lastRun := Some(if record.completedAt.Some? then record.completedAt.value else record.startedAt));
        pullRequests := pullRequests[record.pullRequestId := pr];
      }
    }

    /**
     * `load_agent_run`: nothing when the pull request has no run, else a run
     * of it started no earlier than any other of its runs.
     */
    method LoadAgentRun(prId: string) returns (r: Option<AgentRunRecord>)
      ensures r.None? <==> StartTimes(agentRuns, prId) == map[]
      ensures r.Some? ==> exists id :: IsGreatest(StartTimes(agentRuns, prId), id)
                            && r.value == RunRecordOfRow(agentRuns[id])
      ensures r.Some? ==> r.value.pullRequestId == prId
    {
      var times := StartTimes(agentRuns, prId);
      if times == map[] {
        return None;
      }
      GreatestExists(times);
      var id :| IsGreatest(times, id);
      return Some(RunRecordOfRow(agentRuns[id]));
    }
  }
}

=== FILE: TaskConfig.dfy ===
/**
 * The validator's task configuration: the two accepted document shapes
 * normalised onto one rule list, and the per-rule helpers run_checks uses
 * (display name, glob applicability, the task summary sent with each file).
 */
module TaskConfig {
  import opened Wrappers
  import opened PyText
  import opened PyJson
  import Glob

  /** A rule is a dict, as in the Python code. */
  type Rule = map<string, Json>

  const UnsupportedFormat: string := "Unsupported tasks configuration format."

  /** The keys of a rule converted from a guardian task. */
  const GuardianKeys: set<string> :=
    {"id", "name", "description", "category", "severity", "checkType", "file_globs",
     "exampleViolation", "suggestedFix", "docReference", "ai_spec"}

  /** The rule `_convert_guardian_task` builds from a guardian task dict. */
  function GuardianRule(t: map<string, Json>): (r: Rule)
    ensures r.Keys == GuardianKeys
  {
    map[
      "id" := Get(t, "id"),
      "name" := GetOr(t, "title", Or(Get(t, "id"), JStr("task"))),
      "description" := Get(t, "description"),
      "category" := Get(t, "category"),
      "severity" := Get(t, "severity"),
      "checkType" := Get(t, "checkType"),
      "file_globs" := Or(Get(t, "fileTypes"), JList([JStr("*")])),
      "exampleViolation" := Get(t, "exampleViolation"),
      "suggestedFix" := Get(t, "suggestedFix"),
      "docReference" := Get(t, "docReference"),
      "ai_spec" := JObj(t)
    ]
  }

  /** The converted rule keeps the whole task as `ai_spec` and copies its fields by their guardian names. */
  lemma GuardianRuleCopies(t: map<string, Json>)
    ensures var r := GuardianRule(t);
      && r["ai_spec"] == JObj(t)
      && r["id"] == Get(t, "id") && r["checkType"] == Get(t, "checkType")
      && r["severity"] == Get(t, "severity") && r["suggestedFix"] == Get(t, "suggestedFix")
      && r["description"] == Get(t, "description")
  {
  }

  /** `name` is the task's title when it has one (even a falsy one), else its id or `"task"`. */
  lemma GuardianRuleNameField(t: map<string, Json>)
    ensures var r := GuardianRule(t);
      && ("title" in t ==> r["name"] == t["title"])
      && ("title" !in t ==> r["name"] == Or(Get(t, "id"), JStr("task")) && Truthy(r["name"]))
  {
  }

  /** `file_globs` is the task's `fileTypes`, or `["*"]` when that is missing or empty; never falsy. */
  lemma GuardianRuleGlobs(t: map<string, Json>)
    ensures var r := GuardianRule(t);
      r["file_globs"] == Or(Get(t, "fileTypes"), JList([JStr("*")])) && Truthy(r["file_globs"])
  {
  }

  /** `_convert_guardian_task`: None for anything but a dict. */
  function ConvertGuardianTask(task: Json): (r: Option<Rule>)
    ensures r.None? <==> !task.JObj?
    ensures r.Some? ==> r.value == GuardianRule(task.fields)
  {
    match task
    case JObj(t) => Some(GuardianRule(t))
    case _ => None
  }

  /**
   * The rules the list branch of `normalize_tasks_config` collects: one per
   * dict entry, in input order. A converted dict is never empty, so the
   * `if rule:` test only drops the None of a non-dict entry.
   */
  function GuardianRules(tasks: seq<Json>): (rules: seq<Json>)
    ensures |rules| <= |tasks|
    ensures forall k :: 0 <= k < |rules| ==> rules[k].JObj? && rules[k].fields.Keys == GuardianKeys
  {
    if tasks == [] then []
    else
      var prev := GuardianRules(tasks[..|tasks| - 1]);
      match ConvertGuardianTask(tasks[|tasks| - 1])
      case Some(r) => prev + [JObj(r)]
      case None => prev
  }

  lemma {:induction false} GuardianRulesAppend(a: seq<Json>, b: seq<Json>)
    ensures GuardianRules(a + b) == GuardianRules(a) + GuardianRules(b)
    decreases |b|
  {
    if b == [] {
      assert a + b == a;
    } else {
      var b' := b[..|b| - 1];
      assert (a + b)[..|a + b| - 1] == a + b';
      GuardianRulesAppend(a, b');
    }
  }

  /**
   * Rules come out in input order with non-dicts dropped: prepending one task
   * prepends its converted rule when it is a dict and nothing otherwise.
   */
  lemma GuardianRulesCons(t: Json, rest: seq<Json>)
    ensures t.JObj? ==> GuardianRules([t] + rest) == [JObj(ConvertGuardianTask(t).value)] + GuardianRules(rest)
    ensures !t.JObj? ==> GuardianRules([t] + rest) == GuardianRules(rest)
  {
    GuardianRulesAppend([t], rest);
    assert [t][..0] == [];
  }

  /** Every dict entry yields a rule: no entry of a list of dicts is lost. */
  lemma {:induction false} GuardianRulesKeepsDicts(tasks: seq<Json>)
    requires forall k :: 0 <= k < |tasks| ==> tasks[k].JObj?
    ensures |GuardianRules(tasks)| == |tasks|
    ensures forall k :: 0 <= k < |tasks| ==>
              GuardianRules(tasks)[k] == JObj(ConvertGuardianTask(tasks[k]).value)
    decreases |tasks|
  {
    if tasks != [] {
      var init := tasks[..|tasks| - 1];
      GuardianRulesKeepsDicts(init);
      var t := tasks[|tasks| - 1];
      assert GuardianRules(tasks) == GuardianRules(init) + [JObj(GuardianRule(t.fields))];
      forall k | 0 <= k < |init| ensures tasks[k] == init[k] {
      }
    }
  }

  /**
   * `normalize_tasks_config`: a dict is shallow-copied with `"rules"`
   * defaulting to `[]`; a list becomes `{"rules": [...]}` of its converted
   * dict entries; anything else raises.
   */
  method NormalizeTasksConfig(cfg: Json) returns (r: Result<map<string, Json>, string>)
    ensures cfg.JObj? ==> r.Ok? && r.value.Keys == cfg.fields.Keys + {"rules"}
    ensures cfg.JObj? ==> forall k :: k in cfg.fields ==> r.value[k] == cfg.fields[k]
    ensures cfg.JObj? && "rules" !in cfg.fields ==> r.value["rules"] == JList([])
    ensures cfg.JList? ==> r == Ok(map["rules" := JList(GuardianRules(cfg.items))])
    ensures !cfg.JObj? && !cfg.JList? ==> r == Err(UnsupportedFormat)
  {
    match cfg {
      case JObj(m) =>
        var copy := m;
        if "rules" !in copy {
          copy := copy["rules" := JList([])];
        }
        return Ok(copy);
      case JList(tasks) =>
        var rules: seq<Json> := [];
        var i := 0;
        while i < |tasks|
          invariant 0 <= i <= |tasks|
          invariant rules == GuardianRules(tasks[..i])
        {
          assert tasks[..i + 1][..i] == tasks[..i];
          var rule := ConvertGuardianTask(tasks[i]);
          if rule.Some? {
            rules := rules + [JObj(rule.value)];
          }
          i := i + 1;
        }
        assert tasks[..i] == tasks;
        return Ok(map["rules" := JList(rules)]);
      case _ =>
        return Err(UnsupportedFormat);
    }
  }

  /** The keys `_rule_name` tries, in order. */
  const NameKeys: seq<string> := ["name", "title", "id", "type", "task"]

  /** `keys[i]` is the first of `keys` whose value in `rule` is truthy. */
  predicate FirstTruthyAt(rule: Rule, keys: seq<string>, i: int)
  {
    && 0 <= i < |keys|
    && Truthy(Get(rule, keys[i]))
    && forall j :: 0 <= j < i ==> !Truthy(Get(rule, keys[j]))
  }

  /** The text of the first truthy value under `keys[i..]`, else `"task"`; never empty. */
  function FirstTruthyText(rule: Rule, keys: seq<string>, i: nat): (r: string)
    requires i <= |keys|
    ensures r != []
    decreases |keys| - i
  {
    if i == |keys| then "task"
    else if Truthy(Get(rule, keys[i])) then PyStr(Get(rule, keys[i]))
    else FirstTruthyText(rule, keys, i + 1)
  }

  /**
   * Searching from `i` past falsy keys finds the first truthy key of all of
   * `keys`, or gives `"task"` when there is none.
   */
  lemma {:induction false} FirstTruthyTextFinds(rule: Rule, keys: seq<string>, i: nat)
    requires i <= |keys|
    requires forall j :: 0 <= j < i ==> !Truthy(Get(rule, keys[j]))
    ensures var r := FirstTruthyText(rule, keys, i);
      || (exists k :: FirstTruthyAt(rule, keys, k) && r == PyStr(Get(rule, keys[k])))
      || ((forall j :: 0 <= j < |keys| ==> !Truthy(Get(rule, keys[j]))) && r == "task")
    decreases |keys| - i
  {
    if i < |keys| {
      if Truthy(Get(rule, keys[i])) {
        assert FirstTruthyAt(rule, keys, i);
      } else {
        FirstTruthyTextFinds(rule, keys, i + 1);
      }
    }
  }

  /**
   * `_rule_name`: the text of the first truthy of name, title, id, type and
   * task, else `"task"`; never empty.
   */
  function RuleName(rule: Rule): (r: string)
    ensures r != []
  {
    FirstTruthyText(rule, NameKeys, 0)
  }

  /** `_rule_name` returns the text of the first truthy name key, or `"task"` when all are falsy. */
  lemma RuleNameFirstTruthy(rule: Rule)
    ensures var r := RuleName(rule);
      || (exists i :: FirstTruthyAt(rule, NameKeys, i) && r == PyStr(Get(rule, NameKeys[i])))
      || ((forall j :: 0 <= j < |NameKeys| ==> !Truthy(Get(rule, NameKeys[j]))) && r == "task")
  {
    FirstTruthyTextFinds(rule, NameKeys, 0);
  }

  /**
   * The display name of a converted guardian task is its title when that is
   * truthy, else its id when that is truthy, else `"task"`.
   */
  lemma GuardianRuleName(task: Json)
    requires task.JObj?
    ensures var t := task.fields;
            RuleName(ConvertGuardianTask(task).value) ==
              if Truthy(Get(t, "title")) then PyStr(t["title"])
              else if Truthy(Get(t, "id")) then PyStr(t["id"])
              else "task"
  {
    var t := task.fields;
    GuardianRuleLookups(t);
    NameOfGuardianShape(GuardianRule(t), t);
  }

  /** The lookups `_rule_name` makes on a converted guardian task. */
  lemma GuardianRuleLookups(t: map<string, Json>)
    ensures var rule := GuardianRule(t);
      && Get(rule, "title") == JNull && Get(rule, "type") == JNull && Get(rule, "task") == JNull
      && Get(rule, "id") == Get(t, "id")
      && Get(rule, "name") == GetOr(t, "title", Or(Get(t, "id"), JStr("task")))
  {
    GuardianRuleAbsentKeys(t);
    GuardianRuleCopies(t);
    GuardianRuleNameField(t);
  }

  /** A converted guardian task has no `title`, `type` or `task` key. */
  lemma GuardianRuleAbsentKeys(t: map<string, Json>)
    ensures var rule := GuardianRule(t);
      "title" !in rule && "type" !in rule && "task" !in rule
  {
    assert "title" !in GuardianKeys;
    assert "type" !in GuardianKeys;
    assert "task" !in GuardianKeys;
  }

  /** `_rule_name` of a rule shaped like a converted guardian task. */
  lemma NameOfGuardianShape(rule: Rule, t: map<string, Json>)
    requires Get(rule, "title") == JNull && Get(rule, "type") == JNull && Get(rule, "task") == JNull
    requires Get(rule, "id") == Get(t, "id")
    requires Get(rule, "name") == GetOr(t, "title", Or(Get(t, "id"), JStr("task")))
    ensures RuleName(rule) ==
              if Truthy(Get(t, "title")) then PyStr(t["title"])
              else if Truthy(Get(t, "id")) then PyStr(t["id"])
              else "task"
  {
    RuleNameFirstTruthy(rule);
    if Truthy(Get(rule, "name")) {
      assert FirstTruthyAt(rule, NameKeys, 0);
    } else if Truthy(Get(t, "id")) {
      assert FirstTruthyAt(rule, NameKeys, 2);
    } else {
      assert forall j :: 0 <= j < |NameKeys| ==> !Truthy(Get(rule, NameKeys[j]));
    }
  }

  /** The patterns `any(... for pat in globs)` sees when `globs` is a string: its characters. */
  function CharPatterns(s: string): (ps: seq<string>)
    ensures |ps| == |s|
  {
    seq(|s|, i requires 0 <= i < |s| => [s[i]])
  }

  /**
   * `any(fnmatch(rel, pat) for pat in items)`, stopping at the first match;
   * None when a pattern reached is not a string (fnmatch raises TypeError).
   */
  function AnyGlob(rel: string, items: seq<Json>): (r: Option<bool>)
    ensures r == Some(true) ==> exists i :: 0 <= i < |items| && items[i].JStr? && Glob.Match(rel, items[i].s)
    ensures (forall i :: 0 <= i < |items| ==> items[i].JStr?) ==>
              r == Some(exists i :: 0 <= i < |items| && Glob.Match(rel, items[i].s))
  {
    if items == [] then Some(false)
    else match items[0]
      case JStr(p) =>
        if Glob.Match(rel, p) then Some(true)
        else
          var r := AnyGlob(rel, items[1..]);
          assert forall i :: 1 <= i < |items| ==> items[i] == items[1..][i - 1];
          r
      case _ => None
  }

  /**
   * Whether a glob value (a rule's `file_globs`, or the config's `include` /
   * `exclude`) matches `rel`; None where Python raises (a value that is not
   * iterable, or a non-string pattern reached before a match).
   */
  function GlobsMatch(globs: Json, rel: string): Option<bool>
  {
    match globs
    case JStr(s) => Some(Glob.AnyMatch(rel, CharPatterns(s)))
    case JList(items) => AnyGlob(rel, items)
    case JObj(m) => Some(exists k :: k in m && Glob.Match(rel, k))
    case _ => None
  }

  /** A list of strings. */
  predicate AllStrings(j: Json)
  {
    j.JList? && forall i :: 0 <= i < |j.items| ==> j.items[i].JStr?
  }

  /**
   * `_rule_applies_to_file`: true when `file_globs` is missing or empty,
   * otherwise whether some glob matches; None where Python raises.
   */
  function RuleApplies(rule: Rule, rel: string): Option<bool>
  {
    var globs := Get(rule, "file_globs");
    if !Truthy(globs) then Some(true)
    else if globs.JList? then AnyGlob(rel, globs.items)
    else GlobsMatch(globs, rel)
  }

  /**
   * A rule without globs applies to every file; a rule with a list of glob
   * strings applies exactly when one of them matches.
   */
  lemma RuleAppliesMatches(rule: Rule, rel: string)
    ensures !Truthy(Get(rule, "file_globs")) ==> RuleApplies(rule, rel) == Some(true)
    ensures AllStrings(Get(rule, "file_globs")) && Truthy(Get(rule, "file_globs")) ==>
              RuleApplies(rule, rel) ==
                Some(exists i :: 0 <= i < |Get(rule, "file_globs").items| && Glob.Match(rel, Get(rule, "file_globs").items[i].s))
  {
  }

  /**
   * A guardian task without `fileTypes` (or with an empty one) gets the glob
   * `["*"]` and so applies to every file.
   */
  lemma GuardianDefaultGlobAppliesEverywhere(task: Json, rel: string)
    requires task.JObj? && !Truthy(Get(task.fields, "fileTypes"))
    ensures RuleApplies(ConvertGuardianTask(task).value, rel) == Some(true)
  {
    var rule := ConvertGuardianTask(task).value;
    GuardianRuleGlobs(task.fields);
    assert Get(rule, "file_globs") == JList([JStr("*")]);
    Glob.StarMatchesAll(rel);
    assert Glob.Match(rel, Get(rule, "file_globs").items[0].s);
    RuleAppliesMatches(rule, rel);
  }

  /** The keys `_task_summary` copies from the task when they are truthy. */
  const SummaryKeys: set<string> :=
    {"id", "name", "title", "description", "severity", "category", "checkType",
     "exampleViolation", "suggestedFix", "docReference"}

  /**
   * What `dict()` makes of one element of a list: a pair with a string key
   * (a two-element list, or a two-character string split into two
   * one-character strings), a pair whose key is hashable but not a string,
   * or something that is not a pair, on which `dict()` raises.
   */
  datatype DictEntry = KeyValue(key: string, value: Json) | OtherKey | NotAPair

  function EntryOf(item: Json): (e: DictEntry)
    ensures item.JList? && |item.items| == 2 && item.items[0].JStr? ==> e == KeyValue(item.items[0].s, item.items[1])
    ensures item.JStr? && |item.s| == 2 ==> e == KeyValue(item.s[..1], JStr(item.s[1..]))
    ensures !item.JList? && !item.JStr? ==> e == NotAPair
    ensures item.JList? && |item.items| != 2 ==> e == NotAPair
  {
    match item
    case JList(xs) =>
      if |xs| != 2 then NotAPair
      else (match xs[0]
        case JStr(k) => KeyValue(k, xs[1])
        case JList(_) => NotAPair
        case JObj(_) => NotAPair
        case _ => OtherKey)
    case JStr(t) => if |t| == 2 then KeyValue(t[..1], JStr(t[1..])) else NotAPair
    case _ => NotAPair
  }

  /**
   * `dict(items)` for a list: the first `n` entries in turn, a later key
   * replacing an earlier one; None where an entry is not a pair. Entries
   * with a key that is not a string are read and left out of the map.
   */
  function DictOfEntries(items: seq<Json>, n: nat): Option<map<string, Json>>
    requires n <= |items|
  {
    if n == 0 then Some(map[])
    else
      match DictOfEntries(items, n - 1)
      case None => None
      case Some(d) =>
        match EntryOf(items[n - 1])
        case NotAPair => None
        case OtherKey => Some(d)
        case KeyValue(k, v) => Some(d[k := v])
  }

  /** `dict(items)` raises exactly when some entry is not a pair. */
  lemma {:induction false} DictOfEntriesRaises(items: seq<Json>, n: nat)
    requires n <= |items|
    ensures DictOfEntries(items, n).None? <==> exists k :: 0 <= k < n && EntryOf(items[k]).NotAPair?
  {
    if n > 0 {
      DictOfEntriesRaises(items, n - 1);
    }
  }

  /** The keys of `dict(items)` are exactly the string keys of its entries. */
  lemma {:induction false} DictOfEntriesKeys(items: seq<Json>, n: nat)
    requires n <= |items| && DictOfEntries(items, n).Some?
    ensures forall key :: key in DictOfEntries(items, n).value <==>
              exists k :: 0 <= k < n && EntryOf(items[k]).KeyValue? && EntryOf(items[k]).key == key
  {
    if n > 0 {
      DictOfEntriesKeys(items, n - 1);
      var d := DictOfEntries(items, n - 1).value;
      var e := EntryOf(items[n - 1]);
      forall key | key in DictOfEntries(items, n).value
        ensures exists k :: 0 <= k < n && EntryOf(items[k]).KeyValue? && EntryOf(items[k]).key == key
      {
        if !(e.KeyValue? && e.key == key) {
          assert key in d;
        }
      }
    }
  }

  /** A key holds the value of its last entry: later pairs win. */
  lemma {:induction false} DictOfEntriesLastWins(items: seq<Json>, n: nat, i: nat)
    requires n <= |items| && DictOfEntries(items, n).Some?
    requires i < n && EntryOf(items[i]).KeyValue?
    requires forall j :: i < j < n ==> !(EntryOf(items[j]).KeyValue? && EntryOf(items[j]).key == EntryOf(items[i]).key)
    ensures EntryOf(items[i]).key in DictOfEntries(items, n).value
    ensures DictOfEntries(items, n).value[EntryOf(items[i]).key] == EntryOf(items[i]).value
  {
    if i < n - 1 {
      DictOfEntriesLastWins(items, n - 1, i);
    }
  }

  /**
   * `dict(rule.get("ai_spec") or rule)`: the rule's `ai_spec` when truthy,
   * else the rule itself. A list `ai_spec` is read as a list of key/value
   * pairs; None where `dict()` raises (on any other truthy value, or a list
   * with an element that is not a pair).
   */
  function TaskBase(rule: Rule): (r: Option<map<string, Json>>)
    ensures !Truthy(Get(rule, "ai_spec")) ==> r == Some(rule)
    ensures Get(rule, "ai_spec").JObj? && Truthy(Get(rule, "ai_spec")) ==> r == Some(Get(rule, "ai_spec").fields)
    ensures Get(rule, "ai_spec").JList? && Truthy(Get(rule, "ai_spec")) ==>
              r == DictOfEntries(Get(rule, "ai_spec").items, |Get(rule, "ai_spec").items|)
    ensures Truthy(Get(rule, "ai_spec")) && !Get(rule, "ai_spec").JObj? && !Get(rule, "ai_spec").JList? ==> r.None?
  {
    var spec := Get(rule, "ai_spec");
    if !Truthy(spec) then Some(rule)
    else match spec
      case JObj(m) => Some(m)
      case JList(items) => DictOfEntries(items, |items|)
      case _ => None
  }

  /** An `ai_spec` written as a list of one key/value pair gives a one-key base. */
  lemma TaskBaseOfPairList(rule: Rule, key: string, value: Json)
    requires Get(rule, "ai_spec") == JList([JList([JStr(key), value])])
    ensures TaskBase(rule) == Some(map[key := value])
  {
    var items := Get(rule, "ai_spec").items;
    assert EntryOf(items[0]) == KeyValue(key, value);
    assert DictOfEntries(items, 0) == Some(map[]);
  }

  /**
   * `_task_summary`: the truthy summary keys of the base, the rule's index as
   * `internalRef`, a truthy `name`, and `description` / `suggestedFix`
   * falling back to the rule's own `description`/`message` and
   * `suggestedFix`/`fix`.
   */
  function TaskSummary(rule: Rule, base: map<string, Json>, idx: nat): (s: map<string, Json>)
    ensures "internalRef" in s && s["internalRef"] == JInt(idx)
    ensures "name" in s && Truthy(s["name"])
  {
    var picked := map k | k in SummaryKeys && k in base && Truthy(base[k]) :: base[k];
    var withRef := picked["internalRef" := JInt(idx)];
    var named := withRef["name" := Or(Or(Get(withRef, "name"), Get(withRef, "title")), JStr(RuleName(rule)))];
    var described :=
      if "description" in named then named
      else named["description" := Or(Get(rule, "description"), Get(rule, "message"))];
    if "suggestedFix" in described then described
    else described["suggestedFix" := Or(Get(rule, "suggestedFix"), Get(rule, "fix"))]
  }

  /** The other summary keys are copied from the base exactly when truthy there. */
  lemma TaskSummaryCopies(rule: Rule, base: map<string, Json>, idx: nat)
    ensures var s := TaskSummary(rule, base, idx);
      forall k :: k in SummaryKeys - {"name", "description", "suggestedFix"} ==>
        (k in s <==> Truthy(Get(base, k))) && (k in s ==> s[k] == base[k])
  {
  }

  /** The summary's keys: the truthy summary keys of the base and the four it always sets. */
  lemma TaskSummaryKeys(rule: Rule, base: map<string, Json>, idx: nat)
    ensures TaskSummary(rule, base, idx).Keys ==
      (set k | k in SummaryKeys && Truthy(Get(base, k))) + {"internalRef", "name", "description", "suggestedFix"}
  {
  }

  /**
   * `description` and `suggestedFix` come from the base when truthy there,
   * else from the rule's own `description`/`message` and `suggestedFix`/`fix`.
   */
  lemma TaskSummaryFallbacks(rule: Rule, base: map<string, Json>, idx: nat)
    ensures var s := TaskSummary(rule, base, idx);
      && "description" in s && s["description"] == Or(Get(base, "description"), Or(Get(rule, "description"), Get(rule, "message")))
      && "suggestedFix" in s && s["suggestedFix"] == Or(Get(base, "suggestedFix"), Or(Get(rule, "suggestedFix"), Get(rule, "fix")))
  {
  }
}

=== FILE: Truncation.dfy ===
/**
 * `_truncate_code`: the head/tail cut applied to a file's source before it
 * is sent for evaluation, with Python's slice rules for negative and
 * out-of-range bounds written out.
 */
module Truncation {
  import opened Wrappers

  /** The text placed between the kept head and the kept tail. */
  const Marker: string := "\n...\n"

  /** Python's normalisation of a slice bound `i` on a sequence of length `n`. */
  function SliceIndex(i: int, n: nat): (k: nat)
    ensures k <= n
    ensures 0 <= i <= n ==> k == i
    ensures i > n ==> k == n
    ensures i < 0 ==> k == if n + i < 0 then 0 else n + i
  {
    if i < 0 then (if n + i < 0 then 0 else n + i)
    else if i > n then n
    else i
  }

  /** `s[:i]`. */
  function Prefix(s: string, i: int): (r: string)
    ensures r == s[..SliceIndex(i, |s|)]
  {
    s[..SliceIndex(i, |s|)]
  }

  /** `s[i:]`. */
  function SuffixFrom(s: string, i: int): (r: string)
    ensures r == s[SliceIndex(i, |s|)..]
  {
    s[SliceIndex(i, |s|)..]
  }

  /**
   * `_truncate_code(code, limit)` with `limit = None` replaced by
   * `maxCodeChars`: the code unchanged when it fits, else its first
   * `limit // 2` characters, the marker and `code[-tail:]`.
   */
  function TruncateCode(code: string, limit: Option<int>, maxCodeChars: int): (r: (string, bool))
    ensures var lim := if limit.Some? then limit.value else maxCodeChars;
      |code| <= lim <==> !r.1
    ensures var lim := if limit.Some? then limit.value else maxCodeChars;
      |code| <= lim ==> r.0 == code
  {
    var lim := if limit.Some? then limit.value else maxCodeChars;
    if |code| <= lim then (code, false)
    else
      var head := lim / 2;
      var tail := lim - head;
      (Prefix(code, head) + Marker + SuffixFrom(code, -tail), true)
  }

  /**
   * A code longer than a positive limit keeps its first `limit // 2` and its
   * last `limit - limit // 2` characters, so the snippet is exactly five
   * characters longer than the limit.
   */
  lemma TruncatePositiveLimit(code: string, limit: int, maxCodeChars: int)
    requires 1 <= limit < |code|
    ensures var r := TruncateCode(code, Some(limit), maxCodeChars);
      && r.1
      && r.0 == code[..limit / 2] + Marker + code[|code| - (limit - limit / 2)..]
      && |r.0| == limit + 5
  {
  }

  /**
   * As written, a limit of zero keeps the whole code after the marker,
   * because `code[-0:]` is `code[0:]`.
   */
  lemma TruncateZeroLimit(code: string, maxCodeChars: int)
    requires code != []
    ensures TruncateCode(code, Some(0), maxCodeChars) == (Marker + code, true)
  {
    assert Prefix(code, 0) == [];
    assert SuffixFrom(code, 0) == code;
    assert Prefix(code, 0) + Marker + SuffixFrom(code, 0) == Marker + code;
  }

  /** The snippet for `"ab"` at limit 0 is seven characters long, not five. */
  lemma TruncateZeroLimitCounterexample()
    ensures |TruncateCode("ab", Some(0), 8000).0| == 7
  {
    TruncateZeroLimit("ab", 8000);
  }

  /**
   * The truncation the bounds evidently intend: the limit is taken as at
   * least zero, and the tail is counted from the end without Python's
   * `-0` wrap, so a cut snippet always has the kept characters plus the
   * marker.
   */
  function TruncateCodeBounded(code: string, limit: Option<int>, maxCodeChars: int): (r: (string, bool))
    ensures var lim := if limit.Some? then limit.value else maxCodeChars;
      |code| <= lim <==> !r.1
    ensures var lim := if limit.Some? then limit.value else maxCodeChars;
      |code| <= lim ==> r.0 == code
  {
    var lim := if limit.Some? then limit.value else maxCodeChars;
    if |code| <= lim then (code, false)
    else
      var keep := if lim < 0 then 0 else lim;
      var head := keep / 2;
      var tail := keep - head;
      (code[..head] + Marker + code[|code| - tail..], true)
  }

  /** With the correction, every cut snippet is exactly five characters longer than the (non-negative) limit. */
  lemma TruncateBoundedLength(code: string, limit: Option<int>, maxCodeChars: int)
    ensures var lim := if limit.Some? then limit.value else maxCodeChars;
      var r := TruncateCodeBounded(code, limit, maxCodeChars);
      r.1 ==> |r.0| == (if lim < 0 then 0 else lim) + 5 && (if lim < 0 then 0 else lim) <= |code|
  {
  }

  /** For positive limits the corrected cut is the one the source makes. */
  lemma TruncateBoundedAgrees(code: string, limit: Option<int>, maxCodeChars: int)
    requires (if limit.Some? then limit.value else maxCodeChars) >= 1
    ensures TruncateCodeBounded(code, limit, maxCodeChars) == TruncateCode(code, limit, maxCodeChars)
  {
  }
}

=== FILE: Wrappers.dfy ===
/** Option and Result, the shapes used for Python's None and for raised errors. */
module Wrappers {

  datatype Option<+T> = None | Some(value: T)

  datatype Result<+T, +E> = Ok(value: T) | Err(error: E)
}
